=== FILE: README.md ===
# terminal-chat in Dafny

A model of the logic of terminal-chat, a post-quantum peer-to-peer and relay chat written in Rust, with proofs of what that logic guarantees. The model covers six parts:

- **Secure sessions.**
  - The signed Kyber768 handshake state machine (`Handshake`) and the key-exchange managers (`KyberKex`).
  - Session keys with their nonce-prefixed AES-GCM format and expiry (`Session`).
  - End-to-end message envelopes and per-peer replay rejection (`MessageCrypto`).
  - The secure client's inbound and outbound pipeline (`SecureClient`).
- **Mesh.**
  - The shared message and peer vocabulary (`Mesh`, `Net`).
  - Flood routing with its dedup cache, TTL and `seen_by` list (`Routing`).
  - The bounded peer table and its liveness sweep (`Peers`).
  - The discovery table (`Discovery`).
  - The node's dispatch of routing decisions (`Node`).
  - The chat client's peer and address maps (`EventHandler`).
- **Relay server.**
  - The username registry (`RelayState`).
  - The per-connection protocol in which the first line is the username (`RelayHandler`).
  - The display form of protocol messages (`RelayMessage`).
- **Identities.**
  - Fingerprints and Base64-stored keys (`Identity`, `Base64`).
  - The salt/nonce/ciphertext blob of an encrypted secret key (`SecretFraming`).
  - Identity file naming and listing over an abstract directory (`FileManager`).
- **Validation and configuration.**
  - The username and message validators (`Validators`).
  - Port selection and host resolution (`PortConfig`).
  - TLS and P2P settings (`TlsSettings`).
  - The hand-written argument parser (`Args`).
- **Terminal UI.**
  - Bounded message buffers (`MessageBuffer`, `History`).
  - The wrap-around start menu (`MenuItems`, `MainMenu`).
  - Visible-length counting that skips ANSI escape codes (`Ansi`).
  - Layout arithmetic of the two display managers and the input line (`CoreDisplay`, `ClientDisplay`, `InputLine`).

Everything is sequential and immutable. Each stateful component is a datatype, and each operation is a function or method from the old value to the new one. What goes out is returned as a list of effects: a send to a peer, an event for the application, a line for the window.

Some inputs the program takes from outside are parameters of the operations that use them:

- The clock is a `now` argument.
- Random nonces, key-encapsulation coins and UUIDs are arguments.
- The iteration order of a `HashMap` is an `order` sequence that enumerates the map's keys.
- JSON serialization is a codec record.
- The availability of a port and the parsing of a socket address are functions.

The cryptographic primitives are SHA-256, Kyber768, Dilithium2 and AES-256-GCM. They are the fields of a `Primitives.Suite`. The properties the program relies on are collected in the ghost predicate `Primitives.Sound`:

- digest and key sizes;
- KEM agreement;
- the AEAD round trip.

Sound is what the libraries promise, not something a caller of the program checks. Operations that compute with a primitive's output take it as a precondition, and so do the lemmas.

Rust's integer types are modelled explicitly:

- A `u64` difference `now - t` wraps as in a release build (`Base.WrappingSub`).
- `saturating_sub` saturates (`Base.SaturatingSub`).
- A cast to `u16` truncates (`Base.Truncate16`).
- A slice that would panic gives `None`.

## Model

| member | source | states |
|---|---|---|
| Session.Generate | shared/src/crypto/session.rs:25-39 | a freshly generated key has 32 bytes, records the given peer, and is not expired at its creation time |
| Session.FromSharedSecret | shared/src/crypto/session.rs:42-64 | the derived key has 32 bytes, records the given peer fingerprint and the creation time, and is not expired then |
| Session.SameSecretSameKey | shared/src/crypto/session.rs:45-52 | the key bytes depend on the shared secret alone: two derivations from one secret agree whatever peer and time each records |
| Session.IsExpired | shared/src/crypto/session.rs:82-89 | with the clock at or after creation, expired exactly when more than 3600 seconds have passed; with the clock behind, the wrapping subtraction makes the key count as expired |
| Session.Encrypt | shared/src/crypto/session.rs:92-107 | the output is the 12-byte nonce followed by the ciphertext, so it is at least 12 bytes long |
| Session.Decrypt | shared/src/crypto/session.rs:110-127 | input under 12 bytes is refused as too short; otherwise the first 12 bytes are the nonce and the rest is opened with the key |
| Session.DecryptEncrypt | shared/src/crypto/session.rs:221-229 | a key with the same bytes decrypts what was encrypted back to the plaintext |
| Session.GetSession | shared/src/crypto/session.rs:152-154 | a key is returned exactly when the peer has a session |
| Session.ActivePeers | shared/src/crypto/session.rs:177-189 | the active peers are exactly the fingerprints with a session, as many as the session count |
| Session.SessionCount | shared/src/crypto/session.rs:187-189 | the count is zero exactly when no peer has a session |
| Session.AddSession | shared/src/crypto/session.rs:146-149 | the peer then maps to the new key, replacing any older one; every other peer's session is unchanged; the count grows by one only for a new peer |
| Session.RemoveSession | shared/src/crypto/session.rs:157-160 | the stored key (if any) is returned, the peer has no session afterwards, the other sessions stay, and the count drops by one exactly when there was a session |
| Session.CleanupExpired | shared/src/crypto/session.rs:163-174 | exactly the unexpired sessions stay, each unchanged |
| Session.AddThenRemove | shared/src/crypto/session.rs:232-244 | for a peer without a session, adding a key and removing it returns that key and restores the manager |
| MessageCrypto.EncryptMessage | shared/src/crypto/message_crypto.rs:54-72 | the envelope carries the session's peer fingerprint, the message's timestamp and type in clear, the given sequence number, and content that starts with the 12-byte nonce |
| MessageCrypto.EncryptMessageAsSender | shared/src/crypto/message_crypto.rs:9-10 | the corrected envelope carries the sender's own fingerprint, with the same sealed content, timestamp, type and sequence number |
| MessageCrypto.DecryptEncryptAsSender | shared/src/crypto/message_crypto.rs:54-72 | the relabelled envelope opens to the sealed message under the same key bytes |
| MessageCrypto.DecryptMessage | shared/src/crypto/message_crypto.rs:75-86 | content under 12 bytes fails as too short; a success is exactly the deserialization of the opened content |
| MessageCrypto.DecryptEncryptMessage | shared/src/crypto/message_crypto.rs:221-234 | a message encrypted under a key is decrypted, in full, by a key with the same bytes |
| MessageCrypto.CreateMessage | shared/src/crypto/message_crypto.rs:89-118 | a text or system message carries the given sender, content and type, stamped with the clock |
| MessageCrypto.CreateTypingMessage | shared/src/crypto/message_crypto.rs:121-131 | a typing indicator has the fixed content "typing..." and the given sender |
| MessageCrypto.VerifyMessageIntegrity | shared/src/crypto/message_crypto.rs:134-158 | accepted exactly when the wrapped age is within the limit and the sender matches; the age check comes first |
| MessageCrypto.FutureTimestampRejected | shared/src/crypto/message_crypto.rs:146-148 | a timestamp ahead of the clock wraps the age round to a huge value and is rejected as too old |
| MessageCrypto.NextSequence | shared/src/crypto/message_crypto.rs:177-180 | the number handed out is above the previous counter and becomes the new counter; peer records are untouched |
| MessageCrypto.NextSequencesConsecutive | shared/src/crypto/message_crypto.rs:177-180 | successive calls hand out consecutive numbers, so no outgoing number repeats |
| MessageCrypto.ValidateSequence | shared/src/crypto/message_crypto.rs:183-202 | accepted exactly when the peer is new or the number is above its last; an accepted number becomes the peer's last and nothing else changes |
| MessageCrypto.ResetPeerSequence | shared/src/crypto/message_crypto.rs:205-207 | the peer is forgotten, so any number from it is accepted next; our own counter and the other peers' records are unchanged |
| MessageCrypto.ReplayRejected | shared/src/crypto/message_crypto.rs:189-193 | after a number is accepted from a peer, it and every lower number are rejected |
| MessageCrypto.AcceptedStrictlyIncreasing | shared/src/crypto/message_crypto.rs:183-202 | over any arrival order, the numbers accepted from one peer strictly increase and exceed the last number recorded before |
| MessageCrypto.SequenceScenario | shared/src/crypto/message_crypto.rs:236-246 | a fresh manager hands out 1 then 2, accepts 1 and 2 from a peer and then rejects 1 |
| KyberKex.DeriveSharedSecret | shared/src/crypto/kyber_kex.rs:176-188 | the derived secret is a 32-byte digest of the KEM secret, the context and the fixed label |
| KyberKex.InitiateKeyExchange | shared/src/crypto/kyber_kex.rs:57-78 | the fresh key pair is stored, and the initiator data publishes its public half, stamped with the clock and without a ciphertext; a held secret is kept as it was |
| KyberKex.RespondToKeyExchange | shared/src/crypto/kyber_kex.rs:81-120 | succeeds exactly for initiator data without a ciphertext and with a well-sized public key; the response carries only the ciphertext, and the derived secret is stored and returned, so the manager holds a 32-byte secret |
| KyberKex.CompleteKeyExchange | shared/src/crypto/kyber_kex.rs:123-156 | succeeds exactly for responder data with a well-sized ciphertext at a manager holding a key pair; the secret derived from the decapsulation is stored and returned, so the manager holds a 32-byte secret |
| KyberKex.Clear | shared/src/crypto/kyber_kex.rs:164-173 | afterwards neither a key pair nor a shared secret is held |
| KyberKex.GetSharedSecret | shared/src/crypto/kyber_kex.rs:159-161 | a fresh manager holds no secret, and a secret held by a manager whose secrets are derived (as every key-exchange step keeps them) is 32 bytes |
| KyberKex.VerifyKeyExchange | shared/src/crypto/kyber_kex.rs:191-236 | accepted exactly when the wrapped age is within the limit and the data has its role's shape; age is checked first, and initiator data with no public key gets its own error |
| KyberKex.VerifiedIsAccepted | shared/src/crypto/kyber_kex.rs:191-236 | data that passes verification is accepted by the step that consumes it |
| KyberKex.KeyExchangeAgreement | shared/src/crypto/kyber_kex.rs:264-285 | after initiate, respond and complete, both managers hold the same derived secret |
| KyberKex.InitiationVerifies | shared/src/crypto/kyber_kex.rs:288-299 | fresh initiator data verifies, and the same data stamped at time 0 is rejected as too old |
| Handshake.NewManager | shared/src/crypto/handshake.rs:67-111 | our identity is stamped with the clock at construction; every peer starts in Initial and nothing is pending |
| Handshake.SetDilithiumKeypair | shared/src/crypto/handshake.rs:114-116 | the signing key is installed and our identity and peer states are unchanged |
| Handshake.SignatureData | shared/src/crypto/handshake.rs:247-271 | the signed data is a 32-byte SHA-256 digest of the identity and key-exchange fields |
| Handshake.Sign | shared/src/crypto/handshake.rs:274-294 | a signature is never empty; without a Dilithium key it is a 32-byte placeholder digest |
| Handshake.VerifyHandshake | shared/src/crypto/handshake.rs:297-334 | accepted exactly when the version matches, the key exchange verifies within 300 seconds, the signature is non-empty and the verifier does not answer an explicit false |
| Handshake.VerifierErrorAccepted | shared/src/crypto/handshake.rs:325-332 | a signature the verifier cannot parse lets the handshake through |
| Handshake.Outgoing | shared/src/crypto/handshake.rs:137-143 | a handshake we send carries our identity, the key exchange and the protocol version |
| Handshake.InitiateHandshake | shared/src/crypto/handshake.rs:119-151 | the peer becomes Initiated with the offer pending and a stored key pair; the offer is initiator data without a ciphertext; other peers' states, pending offers and key-exchange managers are untouched |
| Handshake.ProcessHandshake | shared/src/crypto/handshake.rs:154-216 | succeeds only for data that verifies; afterwards the peer is Completed with nothing pending and its session key names it; a response is sent exactly when we had not initiated; other peers' states, pending offers and key-exchange managers are untouched |
| Handshake.GetState | shared/src/crypto/handshake.rs:219-223 | a peer never seen is in state Initial |
| Handshake.MarkFailed | shared/src/crypto/handshake.rs:226-230 | the peer's state records the reason and its pending offer is dropped; other peers keep their state |
| Handshake.Cleanup | shared/src/crypto/handshake.rs:233-237 | completed and failed peers go back to Initial and every other state is kept |
| Handshake.GenuineKeySignsAcceptably | shared/src/crypto/handshake.rs:274-281 | a manager that signs with a genuine Dilithium key and presents its public half never has its signatures rejected |
| Handshake.HandshakeAgreement | shared/src/crypto/handshake.rs:369-399 | when one side initiates and the other responds, both reach Completed, each key names the other, and the two keys have the same bytes |
| Handshake.SimultaneousInitiationFails | shared/src/crypto/handshake.rs:165-172 | when both sides initiate at once, each rejects the other's offer |
| Handshake.InitiationScenario | shared/src/crypto/handshake.rs:353-365 | the offer carries our name and the protocol version, a non-empty public key and no ciphertext, and the peer is Initiated |
| SecureClient.HandleHandshake | p2p-core/src/secure_client.rs:182-219 | a handshake that processes installs the session under the fingerprint it claims, records the claimed username, broadcasts any response and then announces the peer; a failure marks the network peer id failed and changes nothing else; sessions stay keyed by their own fingerprint |
| SecureClient.ApplyOutcome | p2p-core/src/secure_client.rs:189-216 | a success installs exactly the new session and announces it, after any response; a failure only marks the peer failed |
| SecureClient.HandleEncryptedMessage | p2p-core/src/secure_client.rs:222-273 | an error is returned exactly when the age check or the replay check fails; otherwise the sequence number is recorded even when there is no session; with a session, a text message is shown as its decrypted sender and content, a system message as its decrypted content, and a failed decryption or any other type shows nothing |
| SecureClient.SenderCheckVacuous | p2p-core/src/secure_client.rs:227-230 | the sender test can never fail, because the expected sender is the envelope's own field; only the age test remains |
| SecureClient.SequenceBurnedWithoutSession | p2p-core/src/secure_client.rs:233-241 | an envelope from a peer without a session shows nothing, yet its number is used up, so a later envelope with that number or a lower one is refused |
| SecureClient.HandleReceivedData | p2p-core/src/secure_client.rs:160-179 | data is handled as a handshake if it decodes as one, otherwise as an envelope, and anything else is ignored without a state change |
| SecureClient.SealForEach | p2p-core/src/secure_client.rs:308-322 | one envelope per listed peer, in list order, addressed to that peer and numbered consecutively above the counter, which advances by the number of peers |
| SecureClient.SendMessageToAll | p2p-core/src/secure_client.rs:298-328 | one envelope per session with strictly increasing numbers above the counter, then the local chat line; only the outgoing counter changes |
| SecureClient.EnumeratedHaveSessions | p2p-core/src/secure_client.rs:308-309 | every fingerprint the loop visits has a session, so the lookup inside the loop always succeeds |
| SecureClient.SendsThenShow | p2p-core/src/secure_client.rs:308-325 | the outputs are the sealed envelopes in increasing number order, followed by the local line |
| SecureClient.SealedWith | p2p-core/src/secure_client.rs:308-316 | the i-th envelope is the message sealed under the i-th peer's session key with its own nonce and the counter's value plus i + 1 |
| SecureClient.SentEnvelopesNameRecipient | p2p-core/src/secure_client.rs:308-315 | each envelope is labelled with its recipient's fingerprint, not the sender's, and the recipient's key opens it to the typed message |
| SecureClient.OwnLabelShowsNothing | p2p-core/src/secure_client.rs:236-241 | a receiver looks the session up under its own fingerprint, so without a session under that name it shows nothing |
| SecureClient.SenderLabelShowsChat | p2p-core/src/secure_client.rs:222-265 | with the envelope labelled by the sender's own fingerprint, a receiver holding a session with the sender under it, with the same key, and a fresh sequence number shows the sender's chat line |
| SecureClient.HandlePeerDisconnect | p2p-core/src/secure_client.rs:343-359 | the peer's session, username and address are removed and its sequence reset; other peers' sessions, usernames, addresses and sequence records, our own counter, the handshake state and our identity are kept; the UI is told only when a username was known |
| Routing.NewRouter | shared/src/p2p/routing.rs:27-35 | a new router knows no peer and has seen no message |
| Routing.AddPeer | shared/src/p2p/routing.rs:38-42 | the record is stored under its own id, replacing any older one, and every other entry stays |
| Routing.RemovePeer | shared/src/p2p/routing.rs:45-50 | only that id is forgotten |
| Routing.GetPeers | shared/src/p2p/routing.rs:53-56 | lists every known record exactly once, in the map's iteration order, and nothing else |
| Routing.Retain | shared/src/p2p/routing.rs:77-78 | keeps exactly the cache entries seen after the cutoff, unchanged |
| Routing.MarkSeen | shared/src/p2p/routing.rs:65-79 | the id is recorded at the current time; while the cache then holds at most 10000 entries nothing is pruned and the cache is the old one plus the id; above that, exactly the entries seen after the wrapped `now - 300` stay, unchanged, so the new id survives once the clock is past 300 seconds |
| Routing.CleanupCache | shared/src/p2p/routing.rs:82-97 | keeps exactly the entries seen after the wrapped cutoff `now - 300` |
| Routing.CleanupKeepsRecent | shared/src/p2p/routing.rs:82-97 | past 300 seconds the cleanup keeps exactly the ids seen less than 300 seconds ago; earlier, the wrapped cutoff empties the cache of every past entry |
| Routing.PeerCount | shared/src/p2p/routing.rs:100-103 | the count is the number of known peer ids |
| Routing.ForwardTargets | shared/src/p2p/routing.rs:181-190 | the targets are exactly the listed peers other than the neighbour it came from, its sender and the nodes in its seen-by list |
| Routing.InsertAll | shared/src/p2p/routing.rs:236-245 | a received peer list adds all its ids; a later record for an id overrides an earlier one; unlisted entries stay |
| Routing.ProcessChat | shared/src/p2p/routing.rs:138-204 | dropped, with no change, exactly when the id was seen, the hop count is 0 or this node is in the seen-by list; otherwise the id is recorded and the message is delivered and forwarded |
| Routing.ProcessMessage | shared/src/p2p/routing.rs:132-268 | each message kind gets its action: announcements add the peer, list requests get every known record back, lists are merged, heartbeats refresh, disconnects remove the peer |
| Routing.CreateChatMessage | shared/src/p2p/routing.rs:271-282 | a local chat message names this node as sender, carries 7 hops and lists this node as having seen it |
| Routing.CreatePeerAnnounce | shared/src/p2p/routing.rs:285-291 | the announcement carries this node's id and name and the given address |
| Routing.CreateHandshake | shared/src/p2p/routing.rs:294-300 | the handshake carries this node's id and name and protocol version "1.0" |
| Routing.GetNetworkStats | shared/src/p2p/routing.rs:303-311 | reports the number of known peers and of cached message ids |
| Routing.StatsAfterChat | shared/src/p2p/routing.rs:303-311 | routing a chat message adds no peer and at most one cached id; a new router reports zeros |
| Routing.AnnounceRegistersSender | shared/src/p2p/routing.rs:206-223 | a node that routes our announcement records us under our id with the announced address and our name |
| Routing.AcceptedOnce | shared/src/p2p/routing.rs:146-165 | a chat message accepted after the first 300 seconds is dropped when it arrives again, from any neighbour at any time |
| Routing.OwnMessageDropped | shared/src/p2p/routing.rs:158-162 | a node's own chat message echoed back to it is dropped |
| Routing.ForwardingAvoidsSeen | shared/src/p2p/routing.rs:168-190 | a forwarded copy goes only to known peers it has not passed through and has fewer hops left |
| Peers.NewPeer | shared/src/p2p/peer.rs:28-47 | a new peer is connected and last heard from at the current time |
| Peers.UpdateHeartbeatAt | shared/src/p2p/peer.rs:50-55 | only the last-heard time changes, to the current time |
| Peers.AliveWindow | shared/src/p2p/peer.rs:58-65 | with the clock not behind, a peer is alive exactly while fewer than `timeout` seconds have passed since it was last heard; a peer just heard from is alive for any positive timeout |
| Peers.IsAlive | shared/src/p2p/peer.rs:57-64 | a zero timeout makes every peer dead, and a peer heard from at this very second is alive exactly when the timeout is positive |
| Peers.ToPeerInfo | shared/src/p2p/peer.rs:68-75 | the record carries the peer's id, address and name, with the last heartbeat as last seen |
| Peers.NewManager | shared/src/p2p/peer.rs:238-256 | a new table has no connections and the given limit |
| Peers.AddPeer | shared/src/p2p/peer.rs:259-293 | a peer already connected is accepted with no change; a full table refuses a newcomer; otherwise exactly that peer is added; the table stays within its limit and keyed by peer id |
| Peers.Goodbye | shared/src/p2p/peer.rs:211-223 | the goodbye goes to the removed peer and names that peer's own id |
| Peers.RemovePeer | shared/src/p2p/peer.rs:296-302 | only that id is removed, and a goodbye is sent exactly when it was connected |
| Peers.SendToPeer | shared/src/p2p/peer.rs:304-318 | the message is sent exactly when the peer is connected; otherwise the error names the peer |
| Peers.SendEach | shared/src/p2p/peer.rs:324-328 | one copy of the message per listed id, in order |
| Peers.BroadcastMessage | shared/src/p2p/peer.rs:321-329 | every connected peer, and only those, gets one copy of the message |
| Peers.GetConnectedPeers | shared/src/p2p/peer.rs:332-335 | the records of the connected peers, and nothing else |
| Peers.ConnectionCount | shared/src/p2p/peer.rs:338-341 | the count is the number of connected ids |
| Peers.IsPeerConnected | shared/src/p2p/peer.rs:343-347 | a connected peer means the table is not empty; connected exactly when a send to that peer succeeds, and, with every connection keyed by its own id, exactly when the peer's record is among the connected peers |
| Peers.DeadPeers | shared/src/p2p/peer.rs:354-358 | lists exactly the connected peers that are not alive |
| Peers.Goodbyes | shared/src/p2p/peer.rs:360-365 | one goodbye for each dead peer, in order |
| Peers.Alive | shared/src/p2p/peer.rs:360-365 | the connections still alive, unchanged |
| Peers.CleanupDeadConnections | shared/src/p2p/peer.rs:350-366 | removes exactly the peers not heard from within the timeout, sends each of them, and only them, a timeout goodbye, and keeps the others unchanged |
| Peers.UpdatePeerHeartbeat | shared/src/p2p/peer.rs:369-377 | the heartbeat update looks the peer up but writes nothing, so the table is unchanged |
| Peers.HeartbeatsDoNotKeepAlive | shared/src/p2p/peer.rs:369-377 | however many heartbeats a peer sends, the sweep removes it once the timeout has passed since it connected |
| Peers.RepeatedlyUnchanged | shared/src/p2p/peer.rs:369-377 | any number of heartbeat updates leaves the connections as they were |
| Peers.UpdatePeerHeartbeatAt | shared/src/p2p/peer.rs:369-377 | the evidently intended update: the peer's record, if any, takes the arrival time as its last heartbeat; every other record, the set of peers and the bounds are unchanged |
| Peers.HeartbeatKeepsAlive | shared/src/p2p/peer.rs:369-377 | with the heartbeat recorded, a peer heard from less than the timeout before the sweep survives it |
| Peers.TableStaysBounded | shared/src/p2p/peer.rs:271-275 | the table never exceeds its limit, and a refusal happens only when it is full and the peer is new |
| Discovery.NewDiscovery | shared/src/p2p/discovery.rs:72-87 | a new service has discovered nothing and announces protocol "1.0" |
| Discovery.OwnAnnouncement | shared/src/p2p/discovery.rs:157-166 | the periodic announcement carries this node's id, listen address, name and protocol version, stamped with the clock |
| Discovery.OnDatagram | shared/src/p2p/discovery.rs:187-214 | a peer is discovered exactly from an announcement by another node, with the announcement's timestamp as last seen |
| Discovery.OwnAnnouncementIgnored | shared/src/p2p/discovery.rs:196 | a node never discovers itself from its own announcement |
| Discovery.BootstrapPeers | shared/src/p2p/discovery.rs:291-306 | a bootstrap query yields the list of a peer response, and nothing for any other reply, a timeout or an error |
| Discovery.AddManualPeer | shared/src/p2p/discovery.rs:310-313 | the peer is stored under its id, replacing any older entry; all else stays |
| Discovery.GetDiscoveredPeers | shared/src/p2p/discovery.rs:316-318 | exactly the discovered peers |
| Discovery.RemovePeer | shared/src/p2p/discovery.rs:321-325 | only that id is forgotten |
| Discovery.CleanupOldPeers | shared/src/p2p/discovery.rs:328-345 | removes exactly the peers whose wrapped age exceeds the limit and keeps the others unchanged |
| Discovery.CleanupByAge | shared/src/p2p/discovery.rs:337 | a peer seen at most `maxAge` seconds ago survives; one stamped in the future wraps round and is removed |
| Discovery.DefaultDiscoveryMethods | shared/src/p2p/discovery.rs:349-360 | multicast on 239.255.42.99:8899 with no interface, then manual additions |
| Node.DefaultConfig | shared/src/p2p/node.rs:39-52 | the default node listens on 127.0.0.1 port 0 as "Anonymous", with TLS on, 50 connections, 30-second timeouts, the default discovery methods and no bootstrap peers |
| Node.NewNode | shared/src/p2p/node.rs:84-133 | every component is created for the node's id and configured name; nothing is connected, known or bound, and the statistics are zero |
| Node.SendAll | shared/src/p2p/node.rs:370-375 | the forward copy goes to every listed id that has a connection, and to nothing else |
| Node.Dispatch | shared/src/p2p/node.rs:348-386 | a dropped message has no effect; a delivered one becomes one event; a forwarded one becomes one event plus a send to each connected target; a response goes to its peer if connected; the connection table never changes |
| Node.OnMessage | shared/src/p2p/node.rs:344-388 | the router's decision updates the router and is then dispatched |
| Node.RelayIsLoopFree | shared/src/p2p/node.rs:361-377 | a relayed chat message is seen by the application at most once and is sent, with one hop less, only to connected known peers it has not passed through and not back to where it came from |
| Node.ForwardingNeedsSharedIds | shared/src/p2p/node.rs:267-290 | when no announced id is also a connection id, a relayed chat message reaches no connection |
| Node.SendAllToStrangers | shared/src/p2p/node.rs:372-375 | handing a message to ids without a connection sends nothing |
| Node.OnConnectionLost | shared/src/p2p/node.rs:390-402 | only that peer is removed, it is sent at most a goodbye, and the application is told the connection was lost |
| Node.AdmitConnection | shared/src/p2p/node.rs:267-297 | a connection is admitted under its temporary id with the name "Peer@<addr>" and protocol "1.0", and the application is told; a refused peer causes no event; the table stays within its limit |
| Node.SendChatMessage | shared/src/p2p/node.rs:188-199 | one new chat message goes to every connection and exactly one more message is counted as sent |
| Node.Stop | shared/src/p2p/node.rs:167-185 | every connection, and only those, is told the node is shutting down |
| Node.Sweep | shared/src/p2p/node.rs:418-424 | the periodic sweep keeps exactly the peers heard from within 120 seconds |
| Node.GetStats | shared/src/p2p/node.rs:202-207 | the stored counters, with the live connection count |
| Node.ListenAddr | shared/src/p2p/node.rs:518-521 | the bound address once known, else the configured one |
| Net.Show | shared/src/p2p/node.rs:276 | the text form of an address is its IP, a colon and the port in decimal, which reads back as the port |
| EventHandler.HandleP2PEvent | p2p-core/src/client/core/event_handler.rs:15-115 | a connection records the peer's name and address together; a disconnection removes both and reports the name known (or "Unknown") and any address; other events leave the maps alone; a chat message shows its author and text |
| EventHandler.MapsStayInStep | p2p-core/src/client/core/event_handler.rs:22-62 | across any sequence of events, the name map and the address map describe the same peers |
| EventHandler.UnknownDisconnect | p2p-core/src/client/core/event_handler.rs:41-59 | disconnecting a peer never known changes nothing and reports "Unknown" without an address |
| Validators.UsernameRejections | shared/src/utils/mod.rs:4-8 | a username is refused when empty, longer than 32 bytes, or holding a character other than a letter, digit, '_' or '-', and accepted when it passes all three |
| Validators.ValidUsernameIsShortAscii | shared/src/utils/mod.rs:4-8 | under the model's ASCII reading of `is_alphanumeric`, an accepted username is plain ASCII, so its byte length is its character count, at most 32 |
| Validators.MessageContentRejections | shared/src/utils/mod.rs:11-13 | content that is all white space (the empty message included) or over 1024 bytes is refused; anything else is accepted |
| Validators.IsValidUsername | shared/src/utils/mod.rs:4-8 | an accepted username is non-empty, at most 32 characters, and holds no white space, ':' or '*' (so it cannot break a chat line or pass for a notice) |
| Validators.IsValidMessageContent | shared/src/utils/mod.rs:11-13 | accepted content is non-empty, at most 1024 characters, and has a character that is not white space |
| RelayMessage.Render | shared/src/message/mod.rs:19-30 | a chat line starts with the author and ": " and ends with the text; every other message starts with "*** "; a system line ends with its text and a user list with the names joined by ", " |
| RelayMessage.NoticesAreMarked | shared/src/message/mod.rs:19-30 | every rendering except a chat line starts with "*** ", and a chat line from a name not starting with '*' does not, so notices and chat cannot be confused |
| RelayMessage.ChatLineSplits | shared/src/message/mod.rs:23 | a chat line "u: c" from a name without ':' splits back at its first ':' into the author and the text |
| RelayMessage.NoticesReadBack | shared/src/message/mod.rs:22-25 | join and leave lines carry the name right after "*** " followed by the fixed wording; a system line is "*** " followed by its text |
| RelayState.NamesUnique | server/src/state/mod.rs:12-14 | in a registry whose names are all indexed to their holders, no two clients hold the same name |
| RelayState.AddClient | server/src/state/mod.rs:27-31 | the client is registered without a name, other clients and the name index are untouched, and the indexing invariant is kept |
| RelayState.RemoveClient | server/src/state/mod.rs:34-44 | the client and its current name leave; the name is returned exactly when the client had one; other clients and names stay; the invariant is kept |
| RelayState.SetUsername | server/src/state/mod.rs:47-60 | a name already indexed is refused with "Username already taken" before the client is looked up, an unknown client with "Client not found"; otherwise the client takes the name and the index records it, keeping the invariant |
| RelayState.RenameLeavesStaleName | server/src/state/mod.rs:47-56 | a client that names itself twice and leaves keeps its first name claimed in the index, so that name can never be taken again |
| RelayState.SetUsernameReleasing | server/src/state/mod.rs:47-60 | the evidently intended `set_username`: the same errors in the same order, and on success the client takes the name while its previous name leaves the index; the index invariant is kept |
| RelayState.RenameReleasesOldName | server/src/state/mod.rs:47-60 | with that correction, a client that names itself twice and then leaves holds neither name afterwards |
| RelayState.BroadcastTargets | server/src/state/mod.rs:72-78 | the recipients are exactly the registered clients other than the sender |
| RelayState.GetUsernames | server/src/state/mod.rs:87-92 | the list holds exactly the names of named clients visited, at most one per client |
| RelayState.UsernamesListed | server/src/state/mod.rs:87-92 | over an enumeration of all clients, a name is listed exactly when some client holds it |
| RelayHandler.Broadcast | server/src/state/mod.rs:72-83 | every copy carries the message and goes to a listed client other than the sender, and every listed client other than the sender gets one |
| RelayHandler.BroadcastOnce | server/src/state/mod.rs:72-83 | over an order without repeats, no client receives the same broadcast twice |
| RelayHandler.BroadcastReachesOthers | server/src/state/mod.rs:63-84 | over an enumeration of the registry, a broadcast reaches exactly the clients other than the sender, each once |
| RelayHandler.Reply | server/src/handler/mod.rs:106-109 | a reply goes to the connection's own client, and only while that client is registered |
| RelayHandler.OnConnect | server/src/handler/mod.rs:23-34 | the new client is registered without a name, greeted with one System message, and nobody else is told |
| RelayHandler.Joined | server/src/handler/mod.rs:120-145 | after a name is taken, every other client hears the Join and the last delivery is the name list to the new client |
| RelayHandler.ChooseName | server/src/handler/mod.rs:96-155 | the trimmed first line becomes the name exactly when it is valid, free and the client is registered; on refusal the registry is unchanged and at most one System message goes to the client alone (the validity reason when the name is invalid) |
| RelayHandler.RelayChat | server/src/handler/mod.rs:156-193 | invalid content gets a System reply only; valid content from a named client goes as Chat(name, trimmed content) to every other client; from an unnamed client nothing is sent |
| RelayHandler.HandleClientMessage | server/src/handler/mod.rs:90-196 | before a name is accepted the line is a name attempt, afterwards it is chat and the registry does not change; the indexing invariant is kept |
| RelayHandler.OnDisconnect | server/src/handler/mod.rs:70-85 | the client leaves the registry; a Leave goes to every other client exactly when it had a name, and nothing is sent otherwise |
| RelayHandler.JoinerSeesOwnName | server/src/handler/mod.rs:125-144 | a connected client that sends a valid, untaken name is registered, and the name list it then receives includes that name |
| RelayHandler.UnnamedClientsOverhear | server/src/handler/mod.rs:174-192 | a client still at the username prompt receives other users' chat, since broadcast skips only the sender |
| RelayHandler.TrimPadded | server/src/handler/mod.rs:98 | blanks around a name without outer white space are exactly what trimming removes |
| RelayHandler.PaddedNameIsSameName | server/src/handler/mod.rs:98-117 | once a name is taken, the same name wrapped in blanks is refused too |
| PortConfig.LocalNetworkIp | shared/src/config/mod.rs:56-72 | the probed address is kept exactly when it starts with "192.168.", "10." or "172.", and is then returned unchanged |
| PortConfig.ToIp | shared/src/config/mod.rs:36-45 | Localhost gives "127.0.0.1", Wildcard "0.0.0.0", LocalNetwork the probed private address or "127.0.0.1" when there is none |
| PortConfig.LocalNetworkIsPrivateOrLoopback | shared/src/config/mod.rs:39-42 | the local-network choice is always loopback or a private-prefix address |
| PortConfig.FindAvailablePort | shared/src/config/mod.rs:81-95 | 40000 when it is free; otherwise the lowest free port of 40001..=40010; an error exactly when all eleven are taken; any port returned is in range and free, and every lower candidate was taken |
| TlsSettings.ValidateTls | shared/src/tls/config.rs:91-104 | always accepted while TLS is off; with TLS on, accepted exactly when the certificate and key paths are both given or both absent, each one-sided case with its own message |
| TlsSettings.WithCertAndKey | shared/src/tls/config.rs:71-75 | both paths are set and no other field changes, so the result always validates |
| TlsSettings.WithPeerVerification | shared/src/tls/config.rs:78-81 | only the verification flag changes, and validity is unaffected |
| TlsSettings.WithTlsVersions | shared/src/tls/config.rs:84-88 | only the version range changes (without checking min against max), and validity is unaffected |
| TlsSettings.ValidateP2P | shared/src/tls/config.rs:171-187 | a TLS error is reported first and unchanged; then a zero connection limit, a zero timeout, a zero TTL, in that order; accepted exactly when none applies |
| TlsSettings.NewP2P | shared/src/tls/config.rs:145-150 | the defaults with another listening address, and always valid |
| TlsSettings.WithBootstrapPeers | shared/src/tls/config.rs:153-156 | the peer list is replaced, nothing else changes, and validity is unaffected |
| TlsSettings.WithTls | shared/src/tls/config.rs:159-162 | only the TLS settings change |
| TlsSettings.WithMaxConnections | shared/src/tls/config.rs:165-168 | only the limit changes; from a valid configuration the result is valid exactly when the limit is positive |
| TlsSettings.DefaultsValidate | shared/src/tls/config.rs:34-46 | the default TLS settings, the disabled ones and the default P2P configuration all validate |
| Base64.Encode | identity-gen/src/identity.rs:27-28 | standard Base64 with padding: four characters per started group of three bytes |
| Base64.Decode | identity-gen/src/identity.rs:58-68 | refuses a length that is not a multiple of four, a character outside the alphabet, misplaced padding and non-zero unused bits |
| Base64.DecodeEncode | identity-gen/src/identity.rs:27-28 | decoding a stored key gives back the bytes that were encoded, for every byte string |
| Base64.EncodeDecode | identity-gen/src/identity.rs:58-68 | the decoder accepts only the encoder's output: whatever it decodes encodes back to the same text |
| Identity.HexValue | identity-gen/src/identity.rs:51 | reading a lowercase hex digit inverts writing it |
| Identity.ParseHexPair | identity-gen/src/identity.rs:51 | two digits that parse are the `{:02x}` form of the byte they parse to |
| Identity.Format | identity-gen/src/identity.rs:49-53 | n bytes give n two-digit groups joined by ':', 3n - 1 characters |
| Identity.ParseFingerprint | identity-gen/src/identity.rs:49-53 | a fingerprint that parses is the formatting of the bytes it parses to |
| Identity.ParseFormat | identity-gen/src/identity.rs:49-53 | reading a formatted digest back gives its bytes |
| Identity.GenerateFingerprint | identity-gen/src/identity.rs:42-56 | 17 characters with a ':' at every third position, reading back as the first six bytes of the key's SHA-256 digest |
| Identity.ShortFingerprint | identity-gen/src/identity.rs:86-93 | the short form is a prefix of the fingerprint |
| Identity.ShortFingerprintOfFormat | identity-gen/src/identity.rs:86-93 | for a generated fingerprint the short form is its first five characters, the first two digest bytes |
| Identity.IsExpired | identity-gen/src/identity.rs:78-84 | never without an expiry date, otherwise exactly once the clock is past it |
| Identity.ExpiryIsPermanent | identity-gen/src/identity.rs:78-84 | an identity expired at one time stays expired at every later time |
| Identity.NewIdentity | identity-gen/src/identity.rs:20-40 | both keys are stored so that reading them back gives the given bytes, and the fingerprint is that of the raw public key |
| Identity.GetPublicKeyBytes | identity-gen/src/identity.rs:58-62 | succeeds exactly for valid Base64, and the bytes encode back to the stored text |
| Identity.GetSecretKeyBytes | identity-gen/src/identity.rs:64-68 | succeeds exactly for valid Base64, and the bytes encode back to the stored text |
| SecretFraming.Frame | identity-gen/src/crypto.rs:76-84 | the blob is the salt, a '\|' byte, the nonce, another '\|' and the ciphertext, in that order |
| SecretFraming.Unframe | identity-gen/src/crypto.rs:87-99 | non-UTF-8 input is refused first; success exactly when the text has three '\|'-separated pieces, which frame back to the blob |
| SecretFraming.UnframeWhenClean | identity-gen/src/crypto.rs:150-158 | the round trip works only when the nonce and ciphertext hold no '\|' byte and the blob happens to be UTF-8 |
| SecretFraming.SeparatorBreaksRoundTrip | identity-gen/src/crypto.rs:92-95 | a '\|' byte in the nonce or ciphertext breaks the round trip |
| SecretFraming.NonUtf8BreaksRoundTrip | identity-gen/src/crypto.rs:89-90 | a byte that never occurs in UTF-8 in the nonce makes decryption refuse the blob as invalid UTF-8 |
| SecretFraming.RoundTripCounterexample | identity-gen/src/crypto.rs:87-99 | a concrete blob written by the encoder that the decoder refuses |
| SecretFraming.UnframeFixed | identity-gen/src/crypto.rs:76-84 | a positional reading: a success frames back to the blob with a 12-byte nonce and a salt free of '\|' |
| SecretFraming.UnframeFixedRoundTrip | identity-gen/src/crypto.rs:76-84 | the positional reading inverts the layout for every nonce and ciphertext |
| FileManager.IdentityFilename | identity-gen/src/file_manager.rs:38-40 | the file name is the lowercased username followed by ".identity.json" |
| FileManager.StemAndExtension | identity-gen/src/file_manager.rs:107-108 | with an extension, the name is stem, '.', extension, and the extension has no '.'; without one, the stem is the whole name |
| FileManager.ListedName | identity-gen/src/file_manager.rs:107-111 | only a name ending in ".identity.json" is listed |
| FileManager.ListedNameOfFilename | identity-gen/src/file_manager.rs:38-40 | for any username whose lowercase form does not itself contain ".identity" (dots allowed, as in "john.doe"), the listing reads the file name back as the lowercased username, so naming and listing are inverse |
| FileManager.SortByName | identity-gen/src/file_manager.rs:118 | the entries are sorted by username and are a permutation of the input |
| FileManager.Collect | identity-gen/src/file_manager.rs:103-115 | every collected entry is a directory file that the filter accepts, under the name the filter gives |
| FileManager.CollectComplete | identity-gen/src/file_manager.rs:103-115 | every file the filter accepts is collected |
| FileManager.ListIdentities | identity-gen/src/file_manager.rs:98-120 | over a listing of the whole directory: a sorted permutation of the collected entries, each one a directory file that lists under its username, and every directory file the filter accepts appears under the name it lists as |
| FileManager.SavedIdentityListed | identity-gen/src/file_manager.rs:38-40 | an identity file in the directory is listed under the lowercased username, for any username whose lowercase form does not contain ".identity" |
| FileManager.SaveIdentity | identity-gen/src/file_manager.rs:43-57 | never overwrites: an existing target is an error; otherwise exactly the target file is added, either the custom path or the default name |
| FileManager.DeleteIdentity | identity-gen/src/file_manager.rs:123-163 | a missing identity file is an error; otherwise it and the ".pub" and ".key" files named after the username as given are removed, and nothing else is |
| FileManager.IdentityExists | identity-gen/src/file_manager.rs:166-172 | true exactly when a save without a custom path would be refused |
| FileManager.SaveDeleteCaseInsensitive | identity-gen/src/file_manager.rs:38-40 | names that differ only in case share one file: a second save is refused, and a delete under either name removes the identity |
| Args.ParseU16 | p2p-core/src/cli/args.rs:42 | accepts an optional '+' and one or more decimal digits whose value is below 65536 |
| Args.ParseU16Decimal | p2p-core/src/cli/args.rs:42 | every port reads back from its decimal form |
| Args.ScanArgs | p2p-core/src/cli/args.rs:28-78 | the loop agrees with the recursive definition of the scan |
| Args.Settle | p2p-core/src/cli/args.rs:80-117 | a blank username gives no arguments; an explicit port is used as given; otherwise the result fails exactly when no port in the fixed-and-fallback range is free, and a success is 40000 if free, else the lowest free fallback port; TLS is always on |
| Args.ParseArgs | p2p-core/src/cli/args.rs:16-118 | a scan that stops gives `Ok(None)`; a value that does not parse is the error; a finished scan is settled as `Settle` promises: a blank username gives no arguments, an explicit port gives exactly the scanned username, final host, that port and the bootstrap list, and without a port it fails exactly when no port from 40000 to 40010 is free, otherwise it picks 40000 if free, else the lowest free fallback port |
| Args.ExplicitPortScan | p2p-core/src/cli/args.rs:28-48 | "-u alice -p 5000" scans to that name and port, and settles to port 5000 on the default host with TLS on |
| Args.BootstrapAccumulates | p2p-core/src/cli/args.rs:58-66 | bootstrap addresses are only ever appended, in order |
| Args.LaterUsernameWins | p2p-core/src/cli/args.rs:31-34 | a second username flag replaces the first |
| Args.LaterHostWins | p2p-core/src/cli/args.rs:49-57 | a second host flag replaces the first |
| Args.LaterPortWins | p2p-core/src/cli/args.rs:40-48 | a second port flag replaces the first with its parsed value, unless the first value is not a port, which fails the scan with that value |
| Args.StopsWithoutValue | p2p-core/src/cli/args.rs:35-38 | a trailing flag with no value, a help flag or an unknown argument ends the scan with no arguments |
| Args.NoFlagsDefaults | p2p-core/src/cli/args.rs:22-25 | with no flags the defaults stand: user "Anonymous", no port, no host, no bootstrap peers |
| Text.TrimSpec | shared/src/utils/mod.rs:12 | `trim` keeps one contiguous piece, removes only white space from around it, and is empty exactly for an all-white-space input |
| Text.TrimIdempotent | p2p-core/src/cli/args.rs:81 | trimming twice is the same as trimming once |
| MessageBuffer.New | p2p-core/src/ui/messages.rs:30-35 | an empty buffer with the given capacity, within its bound |
| MessageBuffer.AddMessage | p2p-core/src/ui/messages.rs:38-54 | the new message is last; below capacity it is only appended; at capacity the oldest message is dropped and the length is unchanged; the bound is kept |
| MessageBuffer.ClearMessages | p2p-core/src/ui/messages.rs:62-64 | the buffer is back to a fresh one with the same capacity |
| MessageBuffer.AddAllKeepsWindow | p2p-core/src/ui/messages.rs:48-53 | popping one message per push is enough: the buffer goes on holding the newest messages of the whole history |
| MessageBuffer.ShowsNewest | p2p-core/src/ui/messages.rs:38-54 | from empty, the buffer holds the newest `max_messages` messages in arrival order |
| History.New | p2p-core/src/client/history.rs:12-17 | an empty history with the given limit |
| History.AddMessage | p2p-core/src/client/history.rs:20-29 | the stored list is the last `max_history` entries of the old list plus the new line; below the limit nothing is dropped, and with a positive limit the new line is last |
| History.AddAllKeepsWindow | p2p-core/src/client/history.rs:20-29 | repeated appends keep the newest entries of everything added |
| History.MessageCount | p2p-core/src/client/history.rs:34-36 | the count is zero exactly when the history is empty |
| History.CountAfterAdds | p2p-core/src/client/history.rs:20-36 | from any history holding the window of what came before, the count after more appends is the total added so far, capped at `max_history` |
| History.KeepsLastAdded | p2p-core/src/client/history.rs:34-36 | the history holds the last `max_history` lines in order, and the count is the smaller of that limit and the number added |
| MenuItems.New | cli/src/ui/menu/menu_item.rs:18-25 | every field is as given |
| MenuItems.Available | cli/src/ui/menu/menu_item.rs:28-30 | an enabled entry with the given id, title and description |
| MenuItems.ComingSoon | cli/src/ui/menu/menu_item.rs:33-35 | a disabled entry with the given id, title and description |
| MenuItems.HelpersDifferOnlyInFlag | cli/src/ui/menu/menu_item.rs:28-35 | the two helpers build entries that differ only in the availability flag |
| MainMenu.Default | cli/src/ui/menu/main_menu.rs:31-58 | four entries with ids 1 to 4, only the first and last enabled, and the first highlighted |
| MainMenu.HandleKeyEvent | cli/src/ui/menu/main_menu.rs:247-276 | each action exactly for its key with no modifier, and Exit also for Control+'c' alone |
| MainMenu.MoveUpIndex | cli/src/ui/menu/main_menu.rs:279-285 | one entry up, wrapping from the first entry to the last, staying in range |
| MainMenu.MoveDownIndex | cli/src/ui/menu/main_menu.rs:288-294 | one entry down, wrapping from the last entry to the first, always in range |
| MainMenu.UpDownInverse | cli/src/ui/menu/main_menu.rs:279-294 | up and down undo each other |
| MainMenu.MoveDownTimesIndex | cli/src/ui/menu/main_menu.rs:288-294 | for k up to the number of entries, k presses of Down advance the highlight by k, wrapping past the last entry once |
| MainMenu.MoveDownTimesMod | cli/src/ui/menu/main_menu.rs:288-294 | for every k, k presses of Down from a highlighted entry land on entry (start + k) modulo the number of entries |
| MainMenu.DownCycles | cli/src/ui/menu/main_menu.rs:288-294 | a full round of Down presses returns to the starting entry |
| MainMenu.SelectedId | cli/src/ui/menu/main_menu.rs:92-97 | gives the highlighted entry's id exactly when that entry is enabled |
| MainMenu.Run | cli/src/ui/menu/main_menu.rs:84-103 | the loop only ever returns the id of an enabled entry, and while it waits the highlight stays on an entry |
| MainMenu.DefaultChoosesOnlyEnabled | cli/src/ui/menu/main_menu.rs:31-58 | from the default menu the only choices that can come out are 1 and 4 |
| Ansi.AfterEscape | p2p-core/src/ui/display.rs:44-47 | what follows the first 'm'; empty when no 'm' closes the escape |
| Ansi.Strip | p2p-core/src/ui/display.rs:39-53 | the visible characters contain no ESC and are at most as many as the input |
| Ansi.VisibleLength | p2p-core/src/ui/display.rs:39-53 | the character-at-a-time escape state machine counts exactly the characters left once each escape segment is deleted |
| Ansi.PlainIsVisible | p2p-chat/src/client/display.rs:20-34 | text without ESC is all visible |
| Ansi.EscapeSegmentInvisible | p2p-chat/src/client/display.rs:20-34 | an escape segment takes no column wherever it stands |
| Ansi.StripAppend | p2p-core/src/ui/display.rs:39-53 | visible text is additive after text whose escapes are all closed |
| Ansi.PlainIsClosed | p2p-core/src/ui/display.rs:39-53 | plain text closes every escape it opens |
| CoreDisplay.ContentWidth | p2p-core/src/ui/display.rs:134 | the width minus 4 for the borders, saturating at 0 |
| CoreDisplay.DisplayMessage | p2p-core/src/ui/display.rs:156-162 | a message that fits is kept and padded with spaces by the difference; a longer one becomes its prefix of exactly `min(len, content_width - 3)` bytes followed by "...", and it is a panic exactly when no character boundary falls at that byte |
| CoreDisplay.PaddedToContentWidth | p2p-core/src/ui/display.rs:161 | a fitting message whose escapes are closed fills exactly the content width |
| CoreDisplay.AsciiMessageNeverPanics | p2p-core/src/ui/display.rs:159 | ASCII text never hits the panic on a byte cut |
| CoreDisplay.HeaderLine | p2p-core/src/ui/display.rs:64-70 | panics exactly when the visible text is wider than `width - 2` |
| CoreDisplay.TopBorder | p2p-core/src/ui/display.rs:60-61 | the border is `width + 2` columns wide |
| CoreDisplay.FramedWidth | p2p-core/src/ui/display.rs:83-86 | plain text on both sides of a closed text adds its own length to the width |
| CoreDisplay.HeaderLineWidth | p2p-core/src/ui/display.rs:60-70 | a header line is `width` columns, two narrower than its border, with the text after the left padding |
| CoreDisplay.Reverse | p2p-core/src/ui/display.rs:113-118 | the i-th element is the i-th from the end |
| CoreDisplay.ShownAreNewest | p2p-core/src/ui/display.rs:110-125 | the chat area shows the newest messages that fit, oldest at the top |
| CoreDisplay.ShownMessages | p2p-core/src/ui/display.rs:113-118 | as many messages as fit (all of them when they fit), and they are the newest ones, oldest first |
| ClientDisplay.TerminalWidth | p2p-chat/src/client/display.rs:11-17 | the detected width, or 80 when it cannot be read |
| ClientDisplay.ClearInputArea | p2p-chat/src/client/display.rs:62-74 | the prompt is written on row 22 after erasing the line, and the cursor ends one column past the prompt's visible part |
| ClientDisplay.ColouredPromptWidth | p2p-chat/src/client/display.rs:20-34 | a coloured prompt is measured without its colour codes |
| InputLine.Prompt | p2p-core/src/ui/input.rs:40 | the speech bubble, a space, the username, then "@chat > " |
| InputLine.VisiblePromptLength | p2p-core/src/ui/input.rs:22-35 | the counting loop gives one column per character plus one more for each speech bubble |
| InputLine.PromptWidthOf | p2p-core/src/ui/input.rs:22-35 | a prompt for a name with no speech bubble is the name's length plus 11 columns wide |
| InputLine.InputRow | p2p-core/src/ui/input.rs:39 | the row `chat_area_height + 5`, wrapping as a `u16` |
| InputLine.PositionCursorForInput | p2p-core/src/ui/input.rs:38-46 | the cursor goes on the input row, 2 columns plus the prompt width in, truncated to `u16`, which is the name length plus 13 for a plain name |
| InputLine.PlainCursorColumn | p2p-core/src/ui/input.rs:43 | for a plain name the cursor column is the name length plus 13 when that fits |
| InputLine.ClearInputArea | p2p-core/src/ui/input.rs:49-66 | the blanks reach exactly 2 columns before the row's end, or none when the prompt leaves no room |

## Left out

- Cryptographic primitives (SHA-256 of FIPS 180-4, Kyber768, Dilithium2, AES-256-GCM of NIST SP 800-38D, Argon2 of RFC 9106) are parameters. Only the properties listed in `Primitives.Sound` are assumed of them, and `shared/src/crypto/dilithium_ops.rs` and `identity_utils.rs` are not part of this model.
- TLS and transport plumbing, tokio tasks, channels, locks and select loops, sockets, multicast and timers are left out. Each store is a sequential state value, and each send is a returned effect.
- The JSON (serde) and line-codec framing are opaque codecs. For the same reason, `Identity::to_json`/`from_json` and `load_identity` are left out.
- Writing to the terminal, colours, `draw_input_area`, `DisplayManager::new`/`update_size` and the `get_messages` accessor are left out. Only the text and the arithmetic that decide what is drawn are modelled.
- The interactive command dispatchers, the entry points and the duplicate argument loops in the binaries' `main.rs` files are left out.
- The file that declares the mesh message and event types is not part of this model. Their shapes follow their uses in `shared/src/p2p/`.
- `p2p-core/src/secure_client.rs` does not compile as written: it uses `handshake_data` after moving it, and it calls a node API that `shared/src/p2p/node.rs` does not have. The model follows its evident meaning: the username comes from the received handshake data, and network sends are effects.
- Base.WrappingSub: each `now - t` on `u64` wraps as in a release build. A debug build panics instead when `t > now`, and that panic is not modelled.
- MessageCrypto.NextSequence: requires the counter to be below `u64::MAX`. The overflow after 2^64 - 1 messages is not modelled, and sequence numbers are otherwise unbounded `nat`s.
- Node.GetStats: message counters are unbounded `nat`s, so their `u64` overflow is not modelled.
- Session.Encrypt: encryption cannot fail in the model. A failure reported by the AES library is not modelled.
- SecureClient.HandleHandshake: the window line the program shows prints `&peer_fingerprint[..8]`, which panics for a fingerprint shorter than 8 bytes. The model's notice carries the whole fingerprint, and failures of `send_handshake` and of network sends are not modelled.
- Peers.AddPeer: the failure of `PeerConnection::new` (spawning the connection task) is not modelled. Only the table bookkeeping is.
- Routing.AddPeer: the peer table is a map keyed by peer id, and a record is always stored under its own id.
- Validators.UsernameRejections: `char::is_alphanumeric` is modelled for ASCII letters and digits only. Other Unicode letters and digits, which the program also accepts, count as disallowed in the model.
- Validators.ValidUsernameIsShortAscii: holds only because of that ASCII reading. The program also accepts a name such as "é", whose byte length exceeds its character count.
- FileManager.IdentityFilename: `to_lowercase` is modelled for ASCII letters only.
- FileManager.ListIdentities: `sort_by` is stable, but the model only promises a sorted permutation. The relative order of equal usernames is not stated.
- FileManager.SaveIdentity: file contents, parent-directory creation and permissions are not modelled. The directory is a set of file names.
- Args.ParseArgs: `SocketAddr` parsing and port availability are parameters, and the help text and error printing are left out.
- PortConfig.LocalNetworkIp: which local address the operating system reports is a parameter.
- Net.Show: only the IPv4 display form "ip:port" is modelled. The bracketed IPv6 form is not.
- InputLine.InputRow: `4 + chat_area_height + 1` on `u16` overflows for heights above 65530. The model wraps as a release build does, and the debug-build panic is not modelled.
- MainMenu.MoveUpIndex: requires a non-empty menu, as `move_up` and `move_down` compute `len() - 1`. The only menu the program builds has four entries.
- CoreDisplay.HeaderLineWidth: states the width in visible columns. The header line is `width` columns, two fewer than the border drawn above it, which is how the program draws it.
- The node's accessors `peer_id()` and `username()` (shared/src/p2p/node.rs:508-515) are left out: they hand back the id and name the node was created with, which Node.NewNode already states.

## Findings

| source | as written | input that shows it | evidently intended | confidence | as-written member | corrected member |
|---|---|---|---|---|---|---|
| shared/src/crypto/message_crypto.rs:66 | `encrypt_message` labels the envelope with `session_key.peer_fingerprint()`, the RECIPIENT's fingerprint, although the field is documented as the sender's (line 9). The receiver looks its session up under that label (p2p-core/src/secure_client.rs:236). | alice sends to bob: the envelope says bob; bob has no session under his own fingerprint, so the message is dropped | the envelope names its sender, so a receiver with a session with the sender shows the chat line | high; not executed | SecureClient.SentEnvelopesNameRecipient, SecureClient.OwnLabelShowsNothing | MessageCrypto.EncryptMessageAsSender, SecureClient.SenderLabelShowsChat |
| identity-gen/src/crypto.rs:87-99 | `decrypt_secret_key` requires the whole blob to be UTF-8 and splits it at every '\|' byte. The random 12-byte nonce and the ciphertext are arbitrary bytes. | a blob whose nonce contains the byte 0x7C ('\|'), or the byte 0xFF, which is never valid UTF-8 | reading the blob back gives the salt, nonce and ciphertext that were framed, for every nonce and ciphertext | high; not executed | SecretFraming.RoundTripCounterexample | SecretFraming.UnframeFixedRoundTrip |
| shared/src/p2p/peer.rs:369-377 | `update_peer_heartbeat` looks the connection up and writes nothing back; its own comment calls this a simplification. | a peer that sends heartbeats every second is still removed by the sweep once the timeout has passed since its last recorded heartbeat | a heartbeat stamps the peer's record, so a peer heard from within the timeout survives the sweep | medium; not executed | Peers.HeartbeatsDoNotKeepAlive | Peers.UpdatePeerHeartbeatAt, Peers.HeartbeatKeepsAlive |
| server/src/state/mod.rs:47-56 | `set_username` adds the new name to the index but never removes the client's previous name, and `remove_client` only removes the current one. The relay handler asks for a name only while a client has none, so no path of the server triggers it. | a client named "ann" renames itself "bob" and leaves: "ann" stays claimed by a departed client, and every later attempt to take it fails | a rename releases the previous name | low; not executed | RelayState.RenameLeavesStaleName | RelayState.SetUsernameReleasing, RelayState.RenameReleasesOldName |

=== FILE: ansi.dfy ===
/** Visible width of terminal text that carries ANSI colour codes, as
    counted by `get_visible_length` (p2p-core/src/ui/display.rs) and its
    copy `get_string_visible_length` (p2p-chat/src/client/display.rs).
    Both skip everything from an ESC character up to and including the
    next 'm' and count every other character as one column.

    The reference definition works on segments: `Strip` deletes each
    escape segment and keeps the rest. The counting loop is the program's
    one-character-at-a-time state machine, proved to agree with it. */
module Ansi {

  const ESC: char := '\U{1B}'

  /** What follows the first 'm' of `s`; empty when there is none (an
      escape that is never closed hides the rest of the text). */
  function AfterEscape(s: string): (r: string)
    ensures |r| <= |s|
    ensures 'm' in s ==> exists k :: 0 <= k < |s| && s[k] == 'm' && 'm' !in s[..k] && r == s[k + 1..]
    ensures 'm' !in s ==> r == []
  {
    if |s| == 0 then []
    else if s[0] == 'm' then s[1..]
    else
      var r := AfterEscape(s[1..]);
      assert 'm' in s[1..] ==> exists k :: 0 <= k < |s| && s[k] == 'm' && 'm' !in s[..k] && r == s[k + 1..] by {
        if 'm' in s[1..] {
          var k :| 0 <= k < |s| - 1 && s[1..][k] == 'm' && 'm' !in s[1..][..k] && r == s[1..][k + 1..];
          assert s[..k + 1] == [s[0]] + s[1..][..k];
          assert s[k + 2..] == s[1..][k + 1..];
        }
      }
      r
  }

  /** The characters that take up a column: `s` with every escape segment
      removed. */
  function Strip(s: string): (r: string)
    ensures |r| <= |s|
    ensures ESC !in r
    decreases |s|
  {
    if |s| == 0 then []
    else if s[0] == ESC then Strip(AfterEscape(s[1..]))
    else [s[0]] + Strip(s[1..])
  }

  /** Visible columns the counting loop has still to add when it stands at
      the start of `rest`, inside an escape or not. */
  function Remaining(rest: string, inEscape: bool): nat {
    if inEscape then |Strip(AfterEscape(rest))| else |Strip(rest)|
  }

  /** The counting loop of `get_visible_length` / `get_string_visible_length`. */
  method VisibleLength(text: string) returns (n: nat)
    ensures n == |Strip(text)|
    ensures n <= |text|
  {
    n := 0;
    var inEscape := false;
    var i := 0;
    while i < |text|
      invariant 0 <= i <= |text|
      invariant n + Remaining(text[i..], inEscape) == |Strip(text)|
    {
      var ch := text[i];
      assert text[i..] == [ch] + text[i + 1..];
      if ch == ESC {
        inEscape := true;
      } else if inEscape && ch == 'm' {
        inEscape := false;
      } else if !inEscape {
        n := n + 1;
      }
      i := i + 1;
    }
  }

  /** Text without an ESC character is all visible. */
  lemma {:induction false} PlainIsVisible(s: string)
    requires ESC !in s
    ensures Strip(s) == s
  {
    if |s| > 0 {
      PlainIsVisible(s[1..]);
      assert s == [s[0]] + s[1..];
    }
  }

  /** An escape segment, ESC up to and including the next 'm', takes no
      column, wherever it stands after plain text. */
  lemma {:induction false} EscapeSegmentInvisible(a: string, body: string, c: string)
    requires ESC !in a && 'm' !in body
    ensures Strip(a + [ESC] + body + ['m'] + c) == a + Strip(c)
    decreases |a|
  {
    var s := a + [ESC] + body + ['m'] + c;
    if |a| == 0 {
      assert s[1..] == body + ['m'] + c;
      AfterBody(body, c);
    } else {
      assert s[1..] == a[1..] + [ESC] + body + ['m'] + c;
      EscapeSegmentInvisible(a[1..], body, c);
      assert a == [a[0]] + a[1..];
    }
  }

  lemma {:induction false} AfterBody(body: string, c: string)
    requires 'm' !in body
    ensures AfterEscape(body + ['m'] + c) == c
  {
    if |body| > 0 {
      assert (body + ['m'] + c)[1..] == body[1..] + ['m'] + c;
      AfterBody(body[1..], c);
    }
  }

  /** Every escape that is opened is closed again, so text appended after
      it is visible. */
  predicate Closed(s: string)
    decreases |s|
  {
    if |s| == 0 then true
    else if s[0] == ESC then 'm' in s[1..] && Closed(AfterEscape(s[1..]))
    else Closed(s[1..])
  }

  lemma {:induction false} AfterEscapeAppend(s: string, t: string)
    requires 'm' in s
    ensures AfterEscape(s + t) == AfterEscape(s) + t
  {
    if s[0] != 'm' {
      assert (s + t)[1..] == s[1..] + t;
      assert 'm' in s[1..] by {
        var k :| 0 <= k < |s| && s[k] == 'm';
        assert s[1..][k - 1] == 'm';
      }
      AfterEscapeAppend(s[1..], t);
    } else {
      assert (s + t)[1..] == s[1..] + t;
    }
  }

  /** Visible text of a concatenation, when the first part closes all of
      its escapes. */
  lemma {:induction false} StripAppend(s: string, t: string)
    requires Closed(s)
    ensures Strip(s + t) == Strip(s) + Strip(t)
    decreases |s|
  {
    if |s| == 0 {
      assert s + t == t;
    } else if s[0] == ESC {
      assert (s + t)[1..] == s[1..] + t;
      AfterEscapeAppend(s[1..], t);
      StripAppend(AfterEscape(s[1..]), t);
    } else {
      assert (s + t)[1..] == s[1..] + t;
      StripAppend(s[1..], t);
    }
  }

  /** Plain text closes every escape it opens, vacuously. */
  lemma {:induction false} PlainIsClosed(s: string)
    requires ESC !in s
    ensures Closed(s)
  {
    if |s| > 0 {
      PlainIsClosed(s[1..]);
    }
  }
}

=== FILE: args.dfy ===
/** `parse_args` of the P2P client (`p2p-core/src/cli/args.rs`): flags
    scanned left to right after the program name, then the username
    checked and the host and port settled. Socket-address parsing and port
    availability are parameters. */
module Args {
  import opened Wrappers
  import Text
  import Net
  import PortConfig

  const DEFAULT_USERNAME := "Anonymous"

  datatype ArgError = BadPort(text: string) | BadAddress(text: string) | NoPort(message: string)

  datatype P2PArgs = P2PArgs(
    username: string,
    finalHost: string,
    finalPort: Net.Port,
    bootstrapPeers: seq<Net.SocketAddr>,
    enableTls: bool)

  /** What the scan has gathered so far. */
  datatype Flags = Flags(username: string, port: Option<Net.Port>, bootstrap: seq<Net.SocketAddr>, host: Option<string>)

  const INITIAL_FLAGS := Flags(DEFAULT_USERNAME, None, [], None)

  /** How a scan ends: all arguments read, stopped early (help, an unknown
      argument or a flag without its value; the caller gets `Ok(None)`),
      or failed on a value that does not parse. */
  datatype Scan = Done(flags: Flags) | Stopped | Failed(error: ArgError)

  /** `str::parse::<u16>`: an optional '+', then one or more decimal
      digits, with a value below 65536. */
  function ParseU16(s: string): (r: Option<Net.Port>)
    ensures r.Some? ==> var d := if |s| > 0 && s[0] == '+' then s[1..] else s;
      |d| > 0 && (forall i :: 0 <= i < |d| ==> '0' <= d[i] <= '9') && Text.DecimalValue(d) == r.value
  {
    var d := if |s| > 0 && s[0] == '+' then s[1..] else s;
    if |d| == 0 || exists i :: 0 <= i < |d| && !('0' <= d[i] <= '9') then None
    else
      var v := Text.DecimalValue(d);
      if v < 0x1_0000 then Some(v) else None
  }

  /** Every port reads back from its decimal form. */
  lemma {:induction false} ParseU16Decimal(p: Net.Port)
    ensures ParseU16(Text.NatToDecimal(p)) == Some(p)
  {
    Text.DecimalRoundTrip(p);
  }

  predicate TakesValue(flag: string) {
    flag in {"--username", "-u", "--port", "-p", "--host", "--bootstrap", "-b"}
  }

  /** The scan from position `i`, as a definition by recursion. */
  function ScanFrom(args: seq<string>, i: nat, f: Flags, parseAddr: string -> Option<Net.SocketAddr>): Scan
    decreases |args| - i
  {
    if i >= |args| then Done(f)
    else if !TakesValue(args[i]) || i + 1 >= |args| then Stopped
    else
      var flag, value := args[i], args[i + 1];
      if flag == "--username" || flag == "-u" then ScanFrom(args, i + 2, f.(username := value), parseAddr)
      else if flag == "--host" then ScanFrom(args, i + 2, f.(host := Some(value)), parseAddr)
      else if flag == "--port" || flag == "-p" then
        match ParseU16(value)
        case None => Failed(BadPort(value))
        case Some(p) => ScanFrom(args, i + 2, f.(port := Some(p)), parseAddr)
      else
        match parseAddr(value)
        case None => Failed(BadAddress(value))
        case Some(a) => ScanFrom(args, i + 2, f.(bootstrap := f.bootstrap + [a]), parseAddr)
  }

  /** The host a finished scan settles on. */
  function FinalHost(f: Flags): string {
    if f.host.Some? then f.host.value else PortConfig.DEFAULT_HOST_LOCALHOST
  }

  /** The outcome of settling finished flags `f`: a blank username gives
      no arguments; an explicit port is used as given; otherwise the
      result fails exactly when no port from 40000 to 40010 is free on the
      final host, and a success is 40000 when it is free and otherwise the
      lowest free port above it. TLS is always on. */
  predicate SettledAs(f: Flags, available: (string, Net.Port) -> bool, r: Result<Option<P2PArgs>, ArgError>) {
    && (Text.Trim(f.username) == [] ==> r == Ok(None))
    && (Text.Trim(f.username) != [] && f.port.Some? ==>
          r == Ok(Some(P2PArgs(f.username, FinalHost(f), f.port.value, f.bootstrap, true))))
    && (Text.Trim(f.username) != [] && f.port.None? ==>
          (r.Err? <==> forall q: Net.Port :: PortConfig.FIXED_PORT <= q <= PortConfig.FALLBACK_PORT_END ==> !available(FinalHost(f), q)))
    && (Text.Trim(f.username) != [] && f.port.None? && r.Ok? ==>
          r.value.Some? && r.value.value.(finalPort := PortConfig.FIXED_PORT) == P2PArgs(f.username, FinalHost(f), PortConfig.FIXED_PORT, f.bootstrap, true)
          && PortConfig.FIXED_PORT <= r.value.value.finalPort <= PortConfig.FALLBACK_PORT_END
          && available(FinalHost(f), r.value.value.finalPort)
          && (available(FinalHost(f), PortConfig.FIXED_PORT) ==> r.value.value.finalPort == PortConfig.FIXED_PORT)
          && forall q: Net.Port :: PortConfig.FIXED_PORT <= q < r.value.value.finalPort ==> !available(FinalHost(f), q))
  }

  /** What `parse_args` does after the loop: refuse a blank username, then
      settle the host and the port. */
  method Settle(f: Flags, available: (string, Net.Port) -> bool) returns (r: Result<Option<P2PArgs>, ArgError>)
    ensures SettledAs(f, available, r)
  {
    if Text.Trim(f.username) == [] {
      return Ok(None);
    }
    var host := FinalHost(f);
    if f.port.Some? {
      return Ok(Some(P2PArgs(f.username, host, f.port.value, f.bootstrap, true)));
    }
    var at := (q: Net.Port) => available(host, q);
    var found := PortConfig.FindAvailablePort(at);
    if found.Err? {
      NoPortSettles(f, available, at, found.error);
      return Err(NoPort(found.error));
    }
    FoundPortSettles(f, available, at, found.value);
    return Ok(Some(P2PArgs(f.username, host, found.value, f.bootstrap, true)));
  }

  /** With every port of the range taken on the final host, the
      `NoPort` error is the settled outcome. */
  lemma NoPortSettles(f: Flags, available: (string, Net.Port) -> bool, at: Net.Port -> bool, e: string)
    requires Text.Trim(f.username) != [] && f.port.None?
    requires forall q: Net.Port :: at(q) == available(FinalHost(f), q)
    requires forall q: Net.Port :: PortConfig.FIXED_PORT <= q <= PortConfig.FALLBACK_PORT_END ==> !at(q)
    ensures SettledAs(f, available, Err(NoPort(e)))
  {
  }

  /** The port `find_available_port` answers is the settled outcome. */
  lemma FoundPortSettles(f: Flags, available: (string, Net.Port) -> bool, at: Net.Port -> bool, port: Net.Port)
    requires Text.Trim(f.username) != [] && f.port.None?
    requires forall q: Net.Port :: at(q) == available(FinalHost(f), q)
    requires PortConfig.FIXED_PORT <= port <= PortConfig.FALLBACK_PORT_END && at(port)
    requires at(PortConfig.FIXED_PORT) ==> port == PortConfig.FIXED_PORT
    requires forall q: Net.Port :: PortConfig.FIXED_PORT <= q < port ==> !at(q)
    ensures SettledAs(f, available, Ok(Some(P2PArgs(f.username, FinalHost(f), port, f.bootstrap, true))))
  {
  }

  /** `parse_args`, with `available(host, port)` standing for
      `is_port_available`. */
  method ParseArgs(args: seq<string>, parseAddr: string -> Option<Net.SocketAddr>, available: (string, Net.Port) -> bool)
    returns (r: Result<Option<P2PArgs>, ArgError>)
    ensures ScanFrom(args, 1, INITIAL_FLAGS, parseAddr) == Stopped ==> r == Ok(None)
    ensures ScanFrom(args, 1, INITIAL_FLAGS, parseAddr).Failed? ==> r == Err(ScanFrom(args, 1, INITIAL_FLAGS, parseAddr).error)
    ensures ScanFrom(args, 1, INITIAL_FLAGS, parseAddr).Done? && r.Ok? && r.value.Some? ==>
      r.value.value.username == ScanFrom(args, 1, INITIAL_FLAGS, parseAddr).flags.username
      && r.value.value.bootstrapPeers == ScanFrom(args, 1, INITIAL_FLAGS, parseAddr).flags.bootstrap
    ensures ScanFrom(args, 1, INITIAL_FLAGS, parseAddr).Done? && Text.Trim(ScanFrom(args, 1, INITIAL_FLAGS, parseAddr).flags.username) == [] ==>
      r == Ok(None)
    ensures ScanFrom(args, 1, INITIAL_FLAGS, parseAddr).Done? ==>
      SettledAs(ScanFrom(args, 1, INITIAL_FLAGS, parseAddr).flags, available, r)
  {
    var scan := ScanArgs(args, parseAddr);
    match scan
    case Stopped => return Ok(None);
    case Failed(e) => return Err(e);
    case Done(f) => r := Settle(f, available);
  }

  /** The `while` loop of `parse_args`: the flags after the program name,
      two arguments at a time. */
  method ScanArgs(args: seq<string>, parseAddr: string -> Option<Net.SocketAddr>) returns (r: Scan)
    ensures r == ScanFrom(args, 1, INITIAL_FLAGS, parseAddr)
  {
    var f := INITIAL_FLAGS;
    var i := 1;
    while i < |args|
      invariant 1 <= i
      invariant ScanFrom(args, i, f, parseAddr) == ScanFrom(args, 1, INITIAL_FLAGS, parseAddr)
      decreases |args| - i
    {
      var flag := args[i];
      if !TakesValue(flag) || i + 1 >= |args| {
        return Stopped;
      }
      var value := args[i + 1];
      if flag == "--username" || flag == "-u" {
        f := f.(username := value);
      } else if flag == "--host" {
        f := f.(host := Some(value));
      } else if flag == "--port" || flag == "-p" {
        var p := ParseU16(value);
        if p.None? {
          return Failed(BadPort(value));
        }
        f := f.(port := Some(p.value));
      } else {
        var a := parseAddr(value);
        if a.None? {
          return Failed(BadAddress(value));
        }
        f := f.(bootstrap := f.bootstrap + [a.value]);
      }
      i := i + 2;
    }
    return Done(f);
  }

  /** Bootstrap addresses accumulate: a finished scan keeps every address
      gathered before, in order, and only appends. */
  lemma {:induction false} BootstrapAccumulates(args: seq<string>, i: nat, f: Flags, parseAddr: string -> Option<Net.SocketAddr>)
    requires ScanFrom(args, i, f, parseAddr).Done?
    ensures f.bootstrap <= ScanFrom(args, i, f, parseAddr).flags.bootstrap
    decreases |args| - i
  {
    if i < |args| {
      var flag, value := args[i], args[i + 1];
      if flag == "--username" || flag == "-u" {
        BootstrapAccumulates(args, i + 2, f.(username := value), parseAddr);
      } else if flag == "--host" {
        BootstrapAccumulates(args, i + 2, f.(host := Some(value)), parseAddr);
      } else if flag == "--port" || flag == "-p" {
        BootstrapAccumulates(args, i + 2, f.(port := Some(ParseU16(value).value)), parseAddr);
      } else {
        var g := f.(bootstrap := f.bootstrap + [parseAddr(value).value]);
        BootstrapAccumulates(args, i + 2, g, parseAddr);
        var b := ScanFrom(args, i + 2, g, parseAddr).flags.bootstrap;
        assert b[..|f.bootstrap|] == g.bootstrap[..|f.bootstrap|];
      }
    }
  }

  /** A later value replaces an earlier one: after "-u a -u b" the earlier
      name is gone, whatever follows. */
  lemma {:induction false} LaterUsernameWins(args: seq<string>, i: nat, f: Flags, parseAddr: string -> Option<Net.SocketAddr>)
    requires i + 3 < |args| && args[i] in {"--username", "-u"} && args[i + 2] in {"--username", "-u"}
    ensures ScanFrom(args, i, f, parseAddr) == ScanFrom(args, i + 4, f.(username := args[i + 3]), parseAddr)
  {
    assert ScanFrom(args, i, f, parseAddr) == ScanFrom(args, i + 2, f.(username := args[i + 1]), parseAddr);
    assert f.(username := args[i + 1]).(username := args[i + 3]) == f.(username := args[i + 3]);
  }

  /** The same holds for the host: after "--host a --host b" only "b"
      counts. */
  lemma {:induction false} LaterHostWins(args: seq<string>, i: nat, f: Flags, parseAddr: string -> Option<Net.SocketAddr>)
    requires i + 3 < |args| && args[i] == "--host" && args[i + 2] == "--host"
    ensures ScanFrom(args, i, f, parseAddr) == ScanFrom(args, i + 4, f.(host := Some(args[i + 3])), parseAddr)
  {
    assert ScanFrom(args, i, f, parseAddr) == ScanFrom(args, i + 2, f.(host := Some(args[i + 1])), parseAddr);
    assert f.(host := Some(args[i + 1])).(host := Some(args[i + 3])) == f.(host := Some(args[i + 3]));
  }

  /** And for the port, as parsed: after "-p a -p b" the port is the one
      "b" parses to, but a first value that is not a port fails the scan
      before the second is looked at. */
  lemma {:induction false} LaterPortWins(args: seq<string>, i: nat, f: Flags, parseAddr: string -> Option<Net.SocketAddr>)
    requires i + 3 < |args| && args[i] in {"--port", "-p"} && args[i + 2] in {"--port", "-p"}
    ensures ParseU16(args[i + 1]).None? ==> ScanFrom(args, i, f, parseAddr) == Failed(BadPort(args[i + 1]))
    ensures ParseU16(args[i + 1]).Some? && ParseU16(args[i + 3]).Some? ==>
      ScanFrom(args, i, f, parseAddr) == ScanFrom(args, i + 4, f.(port := ParseU16(args[i + 3])), parseAddr)
  {
    if ParseU16(args[i + 1]).Some? && ParseU16(args[i + 3]).Some? {
      var g := f.(port := ParseU16(args[i + 1]));
      assert ScanFrom(args, i, f, parseAddr) == ScanFrom(args, i + 2, g, parseAddr);
      assert g.(port := ParseU16(args[i + 3])) == f.(port := ParseU16(args[i + 3]));
    }
  }

  /** "-u alice -p 5000" scans to that name and port, so settling it
      succeeds with port 5000 on the default host, whatever is free. */
  lemma ExplicitPortScan(parseAddr: string -> Option<Net.SocketAddr>, available: (string, Net.Port) -> bool,
                         r: Result<Option<P2PArgs>, ArgError>)
    requires SettledAs(Flags("alice", Some(5000), [], None), available, r)
    ensures ScanFrom(["p2p", "-u", "alice", "-p", "5000"], 1, INITIAL_FLAGS, parseAddr) == Done(Flags("alice", Some(5000), [], None))
    ensures r == Ok(Some(P2PArgs("alice", PortConfig.DEFAULT_HOST_LOCALHOST, 5000, [], true)))
  {
    ScanAlice(parseAddr);
    AliceNotBlank();
  }

  lemma ScanAlice(parseAddr: string -> Option<Net.SocketAddr>)
    ensures ScanFrom(["p2p", "-u", "alice", "-p", "5000"], 1, INITIAL_FLAGS, parseAddr) == Done(Flags("alice", Some(5000), [], None))
  {
    var args := ["p2p", "-u", "alice", "-p", "5000"];
    var f := Flags("alice", Some(5000), [], None);
    PortFiveThousand();
    assert TakesValue(args[1]) && TakesValue(args[3]);
    assert ScanFrom(args, 5, f, parseAddr) == Done(f);
    assert ScanFrom(args, 3, INITIAL_FLAGS.(username := "alice"), parseAddr) == ScanFrom(args, 5, f, parseAddr);
  }

  lemma AliceNotBlank()
    ensures Text.Trim("alice") != []
  {
    Text.TrimEmptyIff("alice");
    assert !Text.IsWhitespace("alice"[0]);
  }

  lemma PortFiveThousand()
    ensures ParseU16("5000") == Some(5000)
  {
    ParseU16Decimal(5000);
    assert Text.NatToDecimal(5000) == "5000" by {
      assert Text.NatToDecimal(5) == "5";
      assert Text.NatToDecimal(50) == "50";
      assert Text.NatToDecimal(500) == "500";
    }
  }

  /** A flag that takes a value but comes last, a help flag, or any
      argument the parser does not know stops the scan. */
  lemma {:induction false} StopsWithoutValue(args: seq<string>, i: nat, f: Flags, parseAddr: string -> Option<Net.SocketAddr>)
    requires i < |args|
    requires i == |args| - 1 || !TakesValue(args[i])
    ensures ScanFrom(args, i, f, parseAddr) == Stopped
  {
  }

  /** Without flags the defaults stand: user "Anonymous", no host, no
      port, no bootstrap peers. */
  lemma {:induction false} NoFlagsDefaults(program: string, parseAddr: string -> Option<Net.SocketAddr>)
    ensures ScanFrom([program], 1, INITIAL_FLAGS, parseAddr) == Done(INITIAL_FLAGS)
  {
  }
}

=== FILE: base.dfy ===
/** Machine-level vocabulary shared by every module: bytes, Rust's `u64`
    arithmetic, and enumerations of a map's keys (the iteration order of a
    `HashMap`, which the program never fixes). */
module Base {

  /** A `u8`. */
  newtype byte = x: int | 0 <= x < 256

  /** A `Vec<u8>` / `&[u8]`. */
  type Bytes = seq<byte>

  const U64_MODULUS: int := 0x1_0000_0000_0000_0000

  /** A `u64`: timestamps in seconds since the Unix epoch and other counters. */
  type u64 = x: int | 0 <= x < U64_MODULUS

  /** A `u16`: terminal dimensions and screen coordinates. */
  type u16 = x: int | 0 <= x < 0x1_0000

  /** `x as u16`: the low 16 bits. */
  function Truncate16(x: nat): (r: u16)
    ensures x < 0x1_0000 ==> r == x
    ensures (r - x) % 0x1_0000 == 0
  {
    x % 0x1_0000
  }

  /** `a - b` on `u64` in a release build: the subtraction wraps around
      instead of panicking when `b > a`. */
  function WrappingSub(a: u64, b: u64): (r: u64)
    ensures b <= a ==> r == a - b
    ensures a < b ==> r == U64_MODULUS - (b - a)
  {
    (a - b) % U64_MODULUS
  }

  /** `usize::saturating_sub`: never below zero. */
  function SaturatingSub(a: nat, b: nat): (r: nat)
    ensures b <= a ==> r + b == a
    ensures a < b ==> r == 0
  {
    if b <= a then a - b else 0
  }

  /** `u64::to_le_bytes`: the eight bytes of `n`, least significant first. */
  function LeBytes(n: nat, count: nat): (r: Bytes)
    ensures |r| == count
  {
    if count == 0 then [] else [(n % 256) as byte] + LeBytes(n / 256, count - 1)
  }

  /** The number a little-endian byte string denotes. */
  function LeValue(b: Bytes): nat {
    if |b| == 0 then 0 else b[0] as nat + 256 * LeValue(b[1..])
  }

  /** Little-endian encoding loses nothing for values that fit in the width. */
  lemma {:induction false} LeBytesRoundTrip(n: nat, count: nat)
    requires n < Pow256(count)
    ensures LeValue(LeBytes(n, count)) == n
  {
    if count > 0 {
      LeBytesRoundTrip(n / 256, count - 1);
      assert LeBytes(n, count)[1..] == LeBytes(n / 256, count - 1);
    }
  }

  /** 256 to the power `count`. */
  function Pow256(count: nat): nat {
    if count == 0 then 1 else 256 * Pow256(count - 1)
  }

  /** `xs` lists every element of `s` exactly once: the order in which a Rust
      `HashMap` or `HashSet` hands out its keys. */
  predicate Enumerates<T(==,!new)>(xs: seq<T>, s: set<T>) {
    (forall i, j :: 0 <= i < j < |xs| ==> xs[i] != xs[j])
    && (forall i :: 0 <= i < |xs| ==> xs[i] in s)
    && (forall x :: x in s ==> x in xs)
  }

  /** The keys of a map listed in some order, as a value: a map's size is
      the length of any enumeration of its keys. */
  lemma {:induction false} EnumerationLength<T(!new)>(xs: seq<T>, s: set<T>)
    requires Enumerates(xs, s)
    ensures |xs| == |s|
  {
    if |xs| > 0 {
      var rest := s - {xs[0]};
      forall x | x in xs[1..]
        ensures x in rest
      {
        var k :| 1 <= k < |xs| && xs[k] == x;
        assert xs[0] != xs[k];
      }
      assert Enumerates(xs[1..], rest);
      EnumerationLength(xs[1..], rest);
    } else {
      assert s == {};
    }
  }

  /** A subset is no larger than its superset. */
  lemma SubsetCard<T>(a: set<T>, b: set<T>)
    requires a <= b
    ensures |a| <= |b|
  {
    if a != b {
      assert |b - a| > 0 by { var x :| x in b && x !in a; assert x in b - a; }
      assert b == a + (b - a);
    }
  }
  /** The last `n` elements of `s`, in order (all of `s` when it is no
      longer than `n`): what a buffer keeping only its newest `n` entries
      holds after being fed `s`. */
  function KeepLast<T>(s: seq<T>, n: nat): (r: seq<T>)
    ensures |r| == (if |s| <= n then |s| else n)
    ensures forall i :: 0 <= i < |r| ==> r[i] == s[|s| - |r| + i]
  {
    if |s| <= n then s else s[|s| - n..]
  }

  /** Trimming before an append and trimming after it agree: the window of
      a window, extended by one, is the window of the extended sequence. */
  lemma {:induction false} KeepLastSnoc<T>(s: seq<T>, x: T, n: nat)
    ensures KeepLast(KeepLast(s, n) + [x], n) == KeepLast(s + [x], n)
  {
    var a := KeepLast(KeepLast(s, n) + [x], n);
    var b := KeepLast(s + [x], n);
    assert |a| == |b|;
    forall i | 0 <= i < |a|
      ensures a[i] == b[i]
    {
      var w := KeepLast(s, n);
      var k := |w| + 1 - |a| + i;
      if k < |w| {
        assert (w + [x])[k] == w[k];
      } else {
        assert (w + [x])[k] == x;
      }
    }
  }
}

=== FILE: base64.dfy ===
/** The standard padded Base64 of section 4 of RFC 4648, as the `base64`
    crate's `STANDARD` engine applies it to identity keys: every 3 bytes
    become 4 characters, a final 1 or 2 bytes become 4 characters ending
    in "==" or "=". The decoder is strict: padding only at the end, and the
    bits a padded group leaves unused must be zero. */
module Base64 {
  import opened Base
  import opened Wrappers

  type Sextet = x: nat | x < 64

  /** The 64-character alphabet of Table 1 in section 4 of RFC 4648. */
  function Char(i: Sextet): (c: char)
    ensures c != '='
  {
    if i < 26 then ('A' as int + i) as char
    else if i < 52 then ('a' as int + (i - 26)) as char
    else if i < 62 then ('0' as int + (i - 52)) as char
    else if i == 62 then '+'
    else '/'
  }

  /** The value of an alphabet character; None for anything else. */
  function Value(c: char): (r: Option<Sextet>)
    ensures r.Some? ==> Char(r.value) == c
  {
    if 'A' <= c <= 'Z' then Some(c as int - 'A' as int)
    else if 'a' <= c <= 'z' then Some(c as int - 'a' as int + 26)
    else if '0' <= c <= '9' then Some(c as int - '0' as int + 52)
    else if c == '+' then Some(62)
    else if c == '/' then Some(63)
    else None
  }

  /** Every alphabet character reads back as its value. */
  lemma {:induction false} ValueChar(i: Sextet)
    ensures Value(Char(i)) == Some(i)
  {
  }

  /** Three bytes as four characters. */
  function EncodeTriple(b0: byte, b1: byte, b2: byte): (s: string)
    ensures |s| == 4 && '=' !in s
  {
    [Char(b0 as int / 4), Char((b0 as int % 4) * 16 + b1 as int / 16),
     Char((b1 as int % 16) * 4 + b2 as int / 64), Char(b2 as int % 64)]
  }

  /** A final single byte: two characters and "==". */
  function EncodeOne(b0: byte): (s: string)
    ensures |s| == 4 && s[0] != '=' && s[1] != '='
  {
    [Char(b0 as int / 4), Char((b0 as int % 4) * 16)] + "=="
  }

  /** A final pair of bytes: three characters and "=". */
  function EncodeTwo(b0: byte, b1: byte): (s: string)
    ensures |s| == 4 && s[0] != '=' && s[1] != '=' && s[2] != '='
  {
    [Char(b0 as int / 4), Char((b0 as int % 4) * 16 + b1 as int / 16), Char((b1 as int % 16) * 4)] + "="
  }

  /** One more group of three bytes is one more group of output. */
  lemma GroupCountStep(n: nat)
    ensures (n + 3 + 2) / 3 == (n + 2) / 3 + 1
  {
  }

  /** One more group of four characters keeps the length a multiple of 4. */
  lemma GroupLengthStep(n: nat)
    ensures (n + 4) % 4 == n % 4
  {
  }

  /** `STANDARD.encode`. */
  function Encode(b: Bytes): (s: string)
    ensures |s| % 4 == 0 && |s| == 4 * ((|b| + 2) / 3)
    ensures forall i :: 0 <= i < |s| - 2 ==> s[i] != '='
    decreases |b|
  {
    if |b| == 0 then ""
    else if |b| == 1 then EncodeOne(b[0])
    else if |b| == 2 then EncodeTwo(b[0], b[1])
    else
      var head := EncodeTriple(b[0], b[1], b[2]);
      var rest := Encode(b[3..]);
      GroupCountStep(|b| - 3);
      assert forall i :: 0 <= i < |rest| - 2 ==> (head + rest)[i + 4] == rest[i];
      head + rest
  }

  /** Four values as three bytes. */
  function DecodeQuad(c0: Sextet, c1: Sextet, c2: Sextet, c3: Sextet): (r: Bytes)
    ensures |r| == 3
  {
    [(c0 * 4 + c1 / 16) as byte, ((c1 % 16) * 16 + c2 / 4) as byte, ((c2 % 4) * 64 + c3) as byte]
  }

  /** The last group, which may carry padding. */
  function DecodeLast(g: string): (r: Option<Bytes>)
    requires |g| == 4
    ensures r.Some? ==> 1 <= |r.value| <= 3
  {
    var v0, v1 := Value(g[0]), Value(g[1]);
    if v0.None? || v1.None? then None
    else if g[2] == '=' && g[3] == '=' then
      if v1.value % 16 != 0 then None
      else Some([(v0.value * 4 + v1.value / 16) as byte])
    else
      var v2 := Value(g[2]);
      if v2.None? then None
      else if g[3] == '=' then
        if v2.value % 4 != 0 then None
        else Some([(v0.value * 4 + v1.value / 16) as byte, ((v1.value % 16) * 16 + v2.value / 4) as byte])
      else
        var v3 := Value(g[3]);
        if v3.None? then None
        else Some(DecodeQuad(v0.value, v1.value, v2.value, v3.value))
  }

  /** `STANDARD.decode`: None for a length that is not a multiple of four,
      a character outside the alphabet, padding before the last group, or
      non-zero unused bits. */
  function Decode(s: string): (r: Option<Bytes>)
    ensures r.Some? ==> |s| % 4 == 0
    ensures r.Some? && |s| > 0 ==> |r.value| > 0
    decreases |s|
  {
    if |s| == 0 then Some([])
    else if |s| < 4 then None
    else if |s| == 4 then DecodeLast(s)
    else
      var v0, v1, v2, v3 := Value(s[0]), Value(s[1]), Value(s[2]), Value(s[3]);
      if v0.None? || v1.None? || v2.None? || v3.None? then None
      else
        GroupLengthStep(|s| - 4);
        match Decode(s[4..])
        case None => None
        case Some(rest) => Some(DecodeQuad(v0.value, v1.value, v2.value, v3.value) + rest)
  }

  /** The byte arithmetic of one full group undoes itself. */
  lemma {:induction false} TripleRoundTrip(b0: byte, b1: byte, b2: byte)
    ensures DecodeQuad(b0 as int / 4, (b0 as int % 4) * 16 + b1 as int / 16,
                       (b1 as int % 16) * 4 + b2 as int / 64, b2 as int % 64) == [b0, b1, b2]
  {
    var x0, x1, x2 := b0 as int, b1 as int, b2 as int;
    assert ((x0 % 4) * 16 + x1 / 16) / 16 == x0 % 4;
    assert ((x0 % 4) * 16 + x1 / 16) % 16 == x1 / 16;
    assert ((x1 % 16) * 4 + x2 / 64) / 4 == x1 % 16;
    assert ((x1 % 16) * 4 + x2 / 64) % 4 == x2 / 64;
  }

  /** A final single byte survives its "==" group. */
  lemma {:induction false} DecodeEncodeOne(b: Bytes)
    requires |b| == 1
    ensures Decode(Encode(b)) == Some(b)
  {
    var s := Encode(b);
    ValueChar(b[0] as int / 4);
    ValueChar((b[0] as int % 4) * 16);
    assert ((b[0] as int % 4) * 16) % 16 == 0 && ((b[0] as int % 4) * 16) / 16 == b[0] as int % 4;
    assert s[2] == '=' && s[3] == '=';
    assert DecodeLast(s) == Some([b[0]]);
    assert b == [b[0]];
  }

  /** A final pair of bytes survives its "=" group. */
  lemma {:induction false} DecodeEncodeTwo(b: Bytes)
    requires |b| == 2
    ensures Decode(Encode(b)) == Some(b)
  {
    var s := Encode(b);
    var x0, x1 := b[0] as int, b[1] as int;
    ValueChar(x0 / 4);
    ValueChar((x0 % 4) * 16 + x1 / 16);
    ValueChar((x1 % 16) * 4);
    assert ((x0 % 4) * 16 + x1 / 16) / 16 == x0 % 4;
    assert ((x0 % 4) * 16 + x1 / 16) % 16 == x1 / 16;
    assert s[3] == '=' && s[2] != '=';
    assert DecodeLast(s) == Some([b[0], b[1]]);
    assert b == [b[0], b[1]];
  }

  /** A full group reads back as its three bytes. */
  lemma {:induction false} DecodeTriple(b0: byte, b1: byte, b2: byte)
    ensures var g := EncodeTriple(b0, b1, b2);
      Value(g[0]).Some? && Value(g[1]).Some? && Value(g[2]).Some? && Value(g[3]).Some?
      && DecodeQuad(Value(g[0]).value, Value(g[1]).value, Value(g[2]).value, Value(g[3]).value) == [b0, b1, b2]
  {
    var x0, x1, x2 := b0 as int, b1 as int, b2 as int;
    ValueChar(x0 / 4);
    ValueChar((x0 % 4) * 16 + x1 / 16);
    ValueChar((x1 % 16) * 4 + x2 / 64);
    ValueChar(x2 % 64);
    TripleRoundTrip(b0, b1, b2);
  }

  /** Exactly three bytes make one unpadded group. */
  lemma {:induction false} DecodeEncodeThree(b: Bytes)
    requires |b| == 3
    ensures Decode(Encode(b)) == Some(b)
  {
    var g := EncodeTriple(b[0], b[1], b[2]);
    DecodeTriple(b[0], b[1], b[2]);
    assert Encode(b[3..]) == "";
    assert Encode(b) == g;
    assert DecodeLast(g) == Some([b[0], b[1], b[2]]);
    assert b == [b[0], b[1], b[2]];
  }

  /** A full group in front of a longer input reads back in front of the
      rest. */
  lemma {:induction false} DecodeEncodeStep(b: Bytes)
    requires |b| > 3
    requires Decode(Encode(b[3..])) == Some(b[3..])
    ensures Decode(Encode(b)) == Some(b)
  {
    var s := Encode(b);
    var g := EncodeTriple(b[0], b[1], b[2]);
    DecodeTriple(b[0], b[1], b[2]);
    var rest := Encode(b[3..]);
    assert s == g + rest;
    assert s[4..] == rest;
    assert s[0] == g[0] && s[1] == g[1] && s[2] == g[2] && s[3] == g[3];
    assert b == [b[0], b[1], b[2]] + b[3..];
  }

  /** Decoding undoes encoding, for every byte string. */
  lemma {:induction false} DecodeEncode(b: Bytes)
    ensures Decode(Encode(b)) == Some(b)
    decreases |b|
  {
    if |b| == 1 {
      DecodeEncodeOne(b);
    } else if |b| == 2 {
      DecodeEncodeTwo(b);
    } else if |b| == 3 {
      DecodeEncodeThree(b);
    } else if |b| > 3 {
      DecodeEncode(b[3..]);
      DecodeEncodeStep(b);
    }
  }

  /** The byte arithmetic of one full group, read the other way. */
  lemma {:induction false} QuadRoundTrip(c0: Sextet, c1: Sextet, c2: Sextet, c3: Sextet)
    ensures var r := DecodeQuad(c0, c1, c2, c3);
      r[0] as int / 4 == c0 && (r[0] as int % 4) * 16 + r[1] as int / 16 == c1
      && (r[1] as int % 16) * 4 + r[2] as int / 64 == c2 && r[2] as int % 64 == c3
  {
    var x0: int, x1: int, x2: int := c0 * 4 + c1 / 16, (c1 % 16) * 16 + c2 / 4, (c2 % 4) * 64 + c3;
    assert x0 / 4 == c0 && x0 % 4 == c1 / 16;
    assert x1 / 16 == c1 % 16 && x1 % 16 == c2 / 4;
    assert x2 / 64 == c2 % 4 && x2 % 64 == c3;
  }

  /** A last group padded with "==" encodes back from its one byte. */
  lemma {:induction false} EncodeDecodeOneByte(g: string)
    requires |g| == 4 && DecodeLast(g).Some? && g[2] == '=' && g[3] == '='
    ensures Encode(DecodeLast(g).value) == g
  {
    var v0: int, v1: int := Value(g[0]).value, Value(g[1]).value;
    var x0: int := v0 * 4 + v1 / 16;
    assert DecodeLast(g).value == [x0 as byte];
    assert x0 / 4 == v0 && (x0 % 4) * 16 == v1;
    assert Encode([x0 as byte]) == [Char(v0), Char(v1)] + "==";
    assert g == [g[0], g[1]] + "==";
  }

  /** A last group padded with "=" encodes back from its two bytes. */
  lemma {:induction false} EncodeDecodeTwoBytes(g: string)
    requires |g| == 4 && DecodeLast(g).Some? && g[2] != '=' && g[3] == '='
    ensures Encode(DecodeLast(g).value) == g
  {
    var v0: int, v1: int, v2: int := Value(g[0]).value, Value(g[1]).value, Value(g[2]).value;
    var x0: int, x1: int := v0 * 4 + v1 / 16, (v1 % 16) * 16 + v2 / 4;
    assert DecodeLast(g).value == [x0 as byte, x1 as byte];
    assert x0 / 4 == v0 && x0 % 4 == v1 / 16;
    assert x1 / 16 == v1 % 16 && (x1 % 16) * 4 == v2;
    assert (x0 % 4) * 16 + x1 / 16 == v1;
    assert Encode([x0 as byte, x1 as byte]) == [Char(v0), Char(v1), Char(v2)] + "=";
    assert g == [g[0], g[1], g[2]] + "=";
  }

  /** An unpadded last group encodes back from its three bytes. */
  lemma {:induction false} EncodeDecodeThreeBytes(g: string)
    requires |g| == 4 && DecodeLast(g).Some? && g[2] != '=' && g[3] != '='
    ensures Encode(DecodeLast(g).value) == g
  {
    var v0, v1, v2, v3 := Value(g[0]).value, Value(g[1]).value, Value(g[2]).value, Value(g[3]).value;
    var b := DecodeLast(g).value;
    assert b == DecodeQuad(v0, v1, v2, v3);
    QuadRoundTrip(v0, v1, v2, v3);
    assert b[3..] == [];
    assert Encode(b) == EncodeTriple(b[0], b[1], b[2]) + Encode(b[3..]);
    assert g == [g[0], g[1], g[2], g[3]];
  }

  /** The last group: encoding what it decodes to gives it back. */
  lemma {:induction false} EncodeDecodeLast(g: string)
    requires |g| == 4 && DecodeLast(g).Some?
    ensures Encode(DecodeLast(g).value) == g
  {
    if g[2] == '=' && g[3] == '=' {
      EncodeDecodeOneByte(g);
    } else if g[3] == '=' {
      EncodeDecodeTwoBytes(g);
    } else {
      EncodeDecodeThreeBytes(g);
    }
  }

  /** The decoder accepts only the encoder's output: whatever it decodes,
      encoding the bytes gives the same text back. */
  lemma {:induction false} EncodeDecode(s: string)
    requires Decode(s).Some?
    ensures Encode(Decode(s).value) == s
    decreases |s|
  {
    if |s| == 4 {
      EncodeDecodeLast(s);
    } else if |s| > 4 {
      EncodeDecode(s[4..]);
      EncodeDecodeGroup(s);
    }
  }

  /** One full group in front of a tail that already round-trips. */
  lemma {:induction false} EncodeDecodeGroup(s: string)
    requires |s| > 4 && Decode(s).Some?
    requires Decode(s[4..]).Some? && Encode(Decode(s[4..]).value) == s[4..]
    ensures Encode(Decode(s).value) == s
  {
    var v0, v1, v2, v3 := Value(s[0]).value, Value(s[1]).value, Value(s[2]).value, Value(s[3]).value;
    var rest := Decode(s[4..]).value;
    var q := DecodeQuad(v0, v1, v2, v3);
    var b := q + rest;
    assert b == Decode(s).value;
    QuadRoundTrip(v0, v1, v2, v3);
    assert b[..3] == q && b[3..] == rest;
    assert EncodeTriple(b[0], b[1], b[2]) == s[..4];
    assert Encode(b) == EncodeTriple(b[0], b[1], b[2]) + Encode(rest);
    assert s == s[..4] + s[4..];
  }
}

=== FILE: client_display.dfy ===
/** The simpler line-mode `DisplayManager` of the p2p-chat client
    (p2p-chat/src/client/display.rs): terminal width with a fallback and
    the escape sequences that put the cursor back after the prompt. */
module ClientDisplay {
  import opened Wrappers
  import Base
  import Text
  import Ansi

  const FALLBACK_WIDTH: nat := 80

  /** The row of the input line: a header, 15 chat lines and a separator
      above it. */
  const INPUT_ROW: nat := 22

  /** `get_terminal_width`: the detected width, or 80 when the terminal
      size cannot be read. */
  function TerminalWidth(size: Option<(Base.u16, Base.u16)>): (w: nat)
    ensures size.Some? ==> w == size.value.0
    ensures size.None? ==> w == FALLBACK_WIDTH
  {
    match size
    case Some((width, _)) => width
    case None => FALLBACK_WIDTH
  }

  /** The ANSI "cursor position" sequence for a 1-based row and column. */
  function MoveTo(row: nat, column: nat): string {
    [Ansi.ESC] + "[" + Text.NatToDecimal(row) + ";" + Text.NatToDecimal(column) + "H"
  }

  /** `clear_input_area`: go to the start of the input row, erase it,
      print the prompt again and leave the cursor just after its visible
      part. Returns what is written and the final cursor column. */
  method ClearInputArea(prompt: string) returns (out: string, column: nat)
    ensures column == |Ansi.Strip(prompt)| + 1
    ensures Ansi.ESC !in prompt ==> column == |prompt| + 1
    ensures out == MoveTo(INPUT_ROW, 1) + [Ansi.ESC] + "[K" + prompt + MoveTo(INPUT_ROW, column)
  {
    var visible := Ansi.VisibleLength(prompt);
    if Ansi.ESC !in prompt {
      Ansi.PlainIsVisible(prompt);
    }
    column := visible + 1;
    out := MoveTo(INPUT_ROW, 1) + [Ansi.ESC] + "[K" + prompt + MoveTo(INPUT_ROW, column);
  }

  /** The two counters in the program agree: the client's
      `get_string_visible_length` counts what the UI's
      `get_visible_length` counts, so a coloured prompt is measured
      without its colour codes. */
  lemma ColouredPromptWidth(prompt: string, body: string, c: string)
    requires Ansi.ESC !in prompt && 'm' !in body && Ansi.ESC !in c
    ensures |Ansi.Strip(prompt + [Ansi.ESC] + body + ['m'] + c)| == |prompt| + |c|
  {
    Ansi.EscapeSegmentInvisible(prompt, body, c);
    Ansi.PlainIsVisible(c);
  }
}

=== FILE: core_display.dfy ===
/** Layout arithmetic of the chat UI's `DisplayManager`
    (p2p-core/src/ui/display.rs): the centred header lines, the chat
    area's choice of messages and the padding or truncation of each
    message line. Colouring is already part of the text handed in;
    writing to the terminal is left out. `None` stands for a panic. */
module CoreDisplay {
  import opened Wrappers
  import Base
  import Text
  import Ansi

  /** Columns left for a message between the two side borders. */
  function ContentWidth(width: Base.u16): (r: nat)
    ensures width >= 4 ==> r == width - 4
    ensures width < 4 ==> r == 0
  {
    Base.SaturatingSub(width, 4)
  }

  /** The line `draw_message` prints for an already formatted (and
      coloured) message: padded with spaces when it fits, otherwise cut
      at byte `content_width - 3` and ended with "...". Cutting inside a
      multi-byte character panics. */
  function DisplayMessage(width: Base.u16, formatted: string): (r: Option<string>)
    ensures |Ansi.Strip(formatted)| <= ContentWidth(width) ==> r.Some?
    ensures |Ansi.Strip(formatted)| <= ContentWidth(width) ==>
      |r.value| == |formatted| + ContentWidth(width) - |Ansi.Strip(formatted)|
      && r.value[..|formatted|] == formatted
      && (forall i :: |formatted| <= i < |r.value| ==> r.value[i] == ' ')
    ensures |Ansi.Strip(formatted)| > ContentWidth(width) ==>
      var limit := Base.SaturatingSub(ContentWidth(width), 3);
      var cut := if Text.Utf8Len(formatted) < limit then Text.Utf8Len(formatted) else limit;
      (r.Some? ==> exists j :: 0 <= j <= |formatted| && r.value == formatted[..j] + "..."
                     && Text.Utf8Len(formatted[..j]) == cut)
      && (r.None? <==> forall j :: 0 <= j <= |formatted| ==> Text.Utf8Len(formatted[..j]) != cut)
  {
    var cw := ContentWidth(width);
    var visible := |Ansi.Strip(formatted)|;
    if visible > cw then
      var cut := if Text.Utf8Len(formatted) < Base.SaturatingSub(cw, 3) then Text.Utf8Len(formatted)
                 else Base.SaturatingSub(cw, 3);
      match Text.BytePrefix(formatted, cut)
      case Some(j) => Some(formatted[..j] + "...")
      case None => None
    else
      var line := formatted + Text.Repeat(' ', cw - visible);
      assert line[..|formatted|] == formatted;
      Some(line)
  }

  /** A message that fits is padded to exactly the content width, as long
      as its colour codes are all closed. */
  lemma PaddedToContentWidth(width: Base.u16, formatted: string)
    requires Ansi.Closed(formatted)
    requires |Ansi.Strip(formatted)| <= ContentWidth(width)
    ensures DisplayMessage(width, formatted).Some?
    ensures |Ansi.Strip(DisplayMessage(width, formatted).value)| == ContentWidth(width)
  {
    var pad := Text.Repeat(' ', ContentWidth(width) - |Ansi.Strip(formatted)|);
    Ansi.StripAppend(formatted, pad);
    Ansi.PlainIsVisible(pad);
  }

  /** Plain ASCII text never hits the panic: every byte is a character
      boundary. */
  lemma AsciiMessageNeverPanics(width: Base.u16, formatted: string)
    requires forall i :: 0 <= i < |formatted| ==> formatted[i] as int < 0x80
    ensures DisplayMessage(width, formatted).Some?
  {
    Text.AsciiUtf8Len(formatted);
    var cw := ContentWidth(width);
    var cut := if |formatted| < Base.SaturatingSub(cw, 3) then |formatted| else Base.SaturatingSub(cw, 3);
    Text.AsciiBytePrefix(formatted, cut);
  }

  /** `draw_header`'s centred line: the left padding is half the spare
      room, the right padding is computed with an unchecked subtraction
      that panics when the text is wider than `width - 2`. */
  function HeaderLine(width: Base.u16, text: string): (r: Option<string>)
    ensures r.None? <==> width < |Ansi.Strip(text)| + 2
    ensures r.Some? ==> |r.value| == width - |Ansi.Strip(text)| + |text|
  {
    var visible := |Ansi.Strip(text)|;
    var padding := Base.SaturatingSub(width, visible + 4) / 2;
    if width < padding + visible + 2 then None
    else Some("║" + Text.Repeat(' ', padding) + text + Text.Repeat(' ', width - padding - visible - 2) + "║")
  }

  /** The left padding `draw_header` puts before `text`. */
  function HeaderPadding(width: Base.u16, text: string): nat {
    Base.SaturatingSub(width, |Ansi.Strip(text)| + 4) / 2
  }

  /** The top border: `width` rules between two corners. */
  function TopBorder(width: Base.u16): (r: string)
    ensures |Ansi.Strip(r)| == width + 2
  {
    var r := "╔" + Text.Repeat('═', width) + "╗";
    Ansi.PlainIsVisible(r);
    r
  }

  /** Plain text on both sides of a closed text adds its own length. */
  lemma {:induction false} FramedWidth(left: string, text: string, right: string)
    requires Ansi.ESC !in left && Ansi.ESC !in right && Ansi.Closed(text)
    ensures |Ansi.Strip(left + text + right)| == |left| + |Ansi.Strip(text)| + |right|
  {
    assert left + text + right == left + (text + right);
    Ansi.PlainIsVisible(left);
    Ansi.PlainIsVisible(right);
    Ansi.PlainIsClosed(left);
    Ansi.StripAppend(left, text + right);
    Ansi.StripAppend(text, right);
  }

  /** A header line that does not panic is `width` columns wide: two
      columns narrower than the border drawn above it, with the text
      starting after `HeaderPadding` spaces. */
  lemma HeaderLineWidth(width: Base.u16, text: string)
    requires Ansi.Closed(text)
    requires HeaderLine(width, text).Some?
    ensures |Ansi.Strip(HeaderLine(width, text).value)| == width
    ensures |Ansi.Strip(TopBorder(width))| == |Ansi.Strip(HeaderLine(width, text).value)| + 2
    ensures HeaderLine(width, text).value[1 + HeaderPadding(width, text)..][..|text|] == text
  {
    var visible := |Ansi.Strip(text)|;
    var padding := HeaderPadding(width, text);
    var left := "║" + Text.Repeat(' ', padding);
    var right := Text.Repeat(' ', width - padding - visible - 2) + "║";
    assert HeaderLine(width, text).value == left + text + right;
    assert |left| == 1 + padding && |right| == width - padding - visible - 1;
    FramedWidth(left, text, right);
    assert (left + text + right)[|left|..][..|text|] == text;
  }

  function Reverse<T>(s: seq<T>): (r: seq<T>)
    ensures |r| == |s|
    ensures forall i :: 0 <= i < |s| ==> r[i] == s[|s| - 1 - i]
  {
    if |s| == 0 then [] else Reverse(s[1..]) + [s[0]]
  }

  /** `draw_chat_area`'s choice of messages: iterate newest first, take
      as many as there are lines, and turn them back into arrival order. */
  function ShownMessages<T>(messages: seq<T>, chatAreaHeight: Base.u16): (r: seq<T>)
    ensures |r| == (if |messages| <= chatAreaHeight then |messages| else chatAreaHeight)
    ensures forall i :: 0 <= i < |r| ==> r[i] == messages[|messages| - |r| + i]
  {
    var newestFirst := Reverse(messages);
    Reverse(newestFirst[..if |newestFirst| < chatAreaHeight then |newestFirst| else chatAreaHeight])
  }

  /** The chat area shows the newest messages that fit, oldest at the
      top; the `i`-th of them goes on screen line `4 + i`. */
  lemma ShownAreNewest<T>(messages: seq<T>, chatAreaHeight: Base.u16)
    ensures ShownMessages(messages, chatAreaHeight) == Base.KeepLast(messages, chatAreaHeight)
  {
    var a := ShownMessages(messages, chatAreaHeight);
    var b := Base.KeepLast(messages, chatAreaHeight);
    assert |a| == |b|;
    forall i | 0 <= i < |a|
      ensures a[i] == b[i]
    {
    }
  }
}

=== FILE: discovery.dfy ===
/** Peer discovery (`shared/src/p2p/discovery.rs`): the datagrams nodes
    announce themselves with, the filter that turns a received datagram
    into a discovered peer, and the table of discovered peers. Sockets,
    timers and channels are left out. */
module Discovery {
  import opened Base
  import opened Wrappers
  import Net

  /** The protocol version a discovery service announces. */
  const DISCOVERY_PROTOCOL_VERSION := "1.0"

  /** The multicast group and port used by default. */
  const DEFAULT_MULTICAST_ADDR := Net.SocketAddr("239.255.42.99", 8899)

  datatype DiscoveryMethod =
    | Multicast(multicastAddr: Net.SocketAddr, iface: Option<string>)
    | Bootstrap(peers: seq<Net.SocketAddr>)
    | Manual

  datatype DiscoveredPeer = DiscoveredPeer(peerId: string, addr: Net.SocketAddr, username: string,
                                           lastSeen: u64, protocolVersion: string)

  datatype DiscoveryMessage =
    | Announce(peerId: string, listenAddr: Net.SocketAddr, username: string,
               protocolVersion: string, timestamp: u64)
    | PeerRequest(peerId: string, timestamp: u64)
    | PeerResponse(peerId: string, peers: seq<DiscoveredPeer>, timestamp: u64)

  datatype PeerDiscovery = PeerDiscovery(peerId: string, username: string, listenAddr: Net.SocketAddr,
                                         methods: seq<DiscoveryMethod>,
                                         discovered: map<string, DiscoveredPeer>,
                                         protocolVersion: string)

  /** `PeerDiscovery::new`: nothing discovered yet, protocol "1.0". */
  function NewDiscovery(peerId: string, username: string, listenAddr: Net.SocketAddr,
                        methods: seq<DiscoveryMethod>): (d: PeerDiscovery)
    ensures d.peerId == peerId && d.username == username && d.listenAddr == listenAddr
    ensures d.methods == methods && |d.discovered| == 0
    ensures d.protocolVersion == DISCOVERY_PROTOCOL_VERSION
  {
    PeerDiscovery(peerId, username, listenAddr, methods, map[], DISCOVERY_PROTOCOL_VERSION)
  }

  /** The announcement the periodic multicast task sends at `now`. */
  function OwnAnnouncement(d: PeerDiscovery, now: u64): (m: DiscoveryMessage)
    ensures m.Announce? && m.peerId == d.peerId && m.listenAddr == d.listenAddr
    ensures m.username == d.username && m.protocolVersion == d.protocolVersion && m.timestamp == now
  {
    Announce(d.peerId, d.listenAddr, d.username, d.protocolVersion, now)
  }

  /** The multicast listener's reaction to one decoded datagram: an
      announcement by another node yields that node, with its timestamp as
      last seen; our own announcement and any other datagram yield nothing. */
  function OnDatagram(ownPeerId: string, m: DiscoveryMessage): (r: Option<DiscoveredPeer>)
    ensures r.Some? <==> m.Announce? && m.peerId != ownPeerId
    ensures r.Some? ==> r.value == DiscoveredPeer(m.peerId, m.listenAddr, m.username, m.timestamp, m.protocolVersion)
  {
    match m
    case Announce(id, addr, user, version, ts) =>
      if id != ownPeerId then Some(DiscoveredPeer(id, addr, user, ts, version)) else None
    case _ => None
  }

  /** A node never discovers itself from its own announcements. */
  lemma OwnAnnouncementIgnored(d: PeerDiscovery, now: u64)
    ensures OnDatagram(d.peerId, OwnAnnouncement(d, now)).None?
  {
  }

  /** The peers a bootstrap query yields from the reply it received, if
      any: the list of a peer response, nothing otherwise. */
  function BootstrapPeers(reply: Option<DiscoveryMessage>): (r: seq<DiscoveredPeer>)
    ensures reply.Some? && reply.value.PeerResponse? ==> r == reply.value.peers
    ensures !(reply.Some? && reply.value.PeerResponse?) ==> r == []
  {
    if reply.Some? && reply.value.PeerResponse? then reply.value.peers else []
  }

  /** `PeerDiscovery::add_manual_peer`: inserts or replaces by id. */
  function AddManualPeer(d: PeerDiscovery, p: DiscoveredPeer): (r: PeerDiscovery)
    ensures p.peerId in r.discovered && r.discovered[p.peerId] == p
    ensures forall q :: q != p.peerId ==> (q in r.discovered <==> q in d.discovered)
    ensures forall q :: q != p.peerId && q in d.discovered ==> r.discovered[q] == d.discovered[q]
    ensures r.(discovered := d.discovered) == d
  {
    d.(discovered := d.discovered[p.peerId := p])
  }

  /** `PeerDiscovery::get_discovered_peers`. */
  function GetDiscoveredPeers(d: PeerDiscovery): (r: set<DiscoveredPeer>)
    ensures forall q :: q in d.discovered ==> d.discovered[q] in r
    ensures forall p :: p in r ==> exists q :: q in d.discovered && d.discovered[q] == p
  {
    d.discovered.Values
  }

  /** `PeerDiscovery::remove_peer`: forgets that id only. */
  function RemovePeer(d: PeerDiscovery, peerId: string): (r: PeerDiscovery)
    ensures peerId !in r.discovered
    ensures forall q :: q != peerId ==> (q in r.discovered <==> q in d.discovered)
    ensures forall q :: q in r.discovered ==> r.discovered[q] == d.discovered[q]
    ensures r.(discovered := d.discovered) == d
  {
    d.(discovered := d.discovered - {peerId})
  }

  /** A peer not heard from for more than `maxAge` seconds, the elapsed
      time being a wrapping u64 subtraction. */
  predicate Stale(p: DiscoveredPeer, maxAge: u64, now: u64) {
    WrappingSub(now, p.lastSeen) > maxAge
  }

  /** `PeerDiscovery::cleanup_old_peers`: removes exactly the stale peers. */
  function CleanupOldPeers(d: PeerDiscovery, maxAge: u64, now: u64): (r: PeerDiscovery)
    ensures forall q :: q in r.discovered <==> q in d.discovered && !Stale(d.discovered[q], maxAge, now)
    ensures forall q :: q in r.discovered ==> r.discovered[q] == d.discovered[q]
    ensures r.(discovered := d.discovered) == d
  {
    d.(discovered := map q | q in d.discovered && !Stale(d.discovered[q], maxAge, now) :: d.discovered[q])
  }

  /** A peer announced `maxAge` seconds ago or less survives the cleanup; a
      peer whose announcement lies in the future wraps around and is
      removed. */
  lemma {:induction false} CleanupByAge(d: PeerDiscovery, maxAge: u64, now: u64, q: string)
    requires q in d.discovered
    ensures d.discovered[q].lastSeen <= now ==>
      (q in CleanupOldPeers(d, maxAge, now).discovered <==> now - d.discovered[q].lastSeen <= maxAge)
    ensures d.discovered[q].lastSeen > now && maxAge < U64_MODULUS - (d.discovered[q].lastSeen - now) ==>
      q !in CleanupOldPeers(d, maxAge, now).discovered
  {
  }

  /** `default_discovery_methods`: multicast on the default group, then
      manual additions. */
  function DefaultDiscoveryMethods(): (r: seq<DiscoveryMethod>)
    ensures |r| == 2
    ensures r[0] == Multicast(Net.SocketAddr("239.255.42.99", 8899), None)
    ensures r[1] == Manual
  {
    [Multicast(DEFAULT_MULTICAST_ADDR, None), Manual]
  }
}

=== FILE: event_handler.dfy ===
/** The chat client's bookkeeping of mesh events
    (`p2p-core/src/client/core/event_handler.rs`): which peers are connected
    under which name and address, and what the chat window is told. */
module EventHandler {
  import opened Wrappers
  import opened Mesh
  import Net
  import Node

  /** The two maps the client keeps per connected peer id. */
  datatype PeerMaps = PeerMaps(connectedPeers: map<string, string>, peerAddresses: map<string, Net.SocketAddr>)

  /** What the chat window is told. `Roster(m)` refreshes the peer list
      with the names of `m`; `PeerList` with names given in order. */
  datatype UiUpdate =
    | Roster(roster: map<string, string>)
    | PeerList(names: seq<string>)
    | Connected(username: string, addr: Net.SocketAddr)
    | Disconnected(username: string, reason: string, lastAddr: Option<Net.SocketAddr>)
    | ChatLine(username: string, content: string)
    | DiscoveredCount(count: nat)
    | TopologyCount(count: nat)
    | ErrorLine(peerId: Option<string>, error: string)

  /** Name shown for a peer the client has no name for. */
  const UNKNOWN_PEER := "Unknown"

  /** Both maps describe the same set of peers. */
  predicate SameKeys(p: PeerMaps) {
    p.connectedPeers.Keys == p.peerAddresses.Keys
  }

  /** `EventHandler::handle_p2p_event`. Connections and disconnections
      update both maps together; every other event leaves them alone. */
  function HandleP2PEvent(p: PeerMaps, e: Node.P2PEvent): (r: (PeerMaps, seq<UiUpdate>))
    ensures SameKeys(p) ==> SameKeys(r.0)
    ensures e.PeerConnected? ==>
      e.peerId in r.0.connectedPeers && r.0.connectedPeers[e.peerId] == e.username
      && e.peerId in r.0.peerAddresses && r.0.peerAddresses[e.peerId] == e.addr
      && (forall q :: q != e.peerId ==>
            (q in r.0.connectedPeers <==> q in p.connectedPeers) && (q in r.0.peerAddresses <==> q in p.peerAddresses))
      && r.1 == [Roster(r.0.connectedPeers), Connected(e.username, e.addr)]
    ensures e.PeerDisconnected? ==>
      e.peerId !in r.0.connectedPeers && e.peerId !in r.0.peerAddresses
      && (forall q :: q != e.peerId ==>
            (q in r.0.connectedPeers <==> q in p.connectedPeers) && (q in r.0.peerAddresses <==> q in p.peerAddresses))
      && |r.1| == 2 && r.1[0] == Roster(r.0.connectedPeers)
      && r.1[1] == Disconnected(
           if e.peerId in p.connectedPeers then p.connectedPeers[e.peerId] else UNKNOWN_PEER,
           e.reason,
           if e.peerId in p.peerAddresses then Some(p.peerAddresses[e.peerId]) else None)
    ensures !e.PeerConnected? && !e.PeerDisconnected? ==> r.0 == p
    ensures e.MessageReceived? ==>
      r.1 == if e.message.ChatMessage? then [ChatLine(e.message.username, e.message.content)] else []
  {
    match e
    case PeerConnected(id, addr, username) =>
      var p' := PeerMaps(p.connectedPeers[id := username], p.peerAddresses[id := addr]);
      (p', [Roster(p'.connectedPeers), Connected(username, addr)])
    case PeerDisconnected(id, reason) =>
      var name := if id in p.connectedPeers then p.connectedPeers[id] else UNKNOWN_PEER;
      var addr := if id in p.peerAddresses then Some(p.peerAddresses[id]) else None;
      var p' := PeerMaps(p.connectedPeers - {id}, p.peerAddresses - {id});
      (p', [Roster(p'.connectedPeers), Disconnected(name, reason, addr)])
    case MessageReceived(m, _) =>
      (p, if m.ChatMessage? then [ChatLine(m.username, m.content)] else [])
    case PeersDiscovered(addrs) => (p, [DiscoveredCount(|addrs|)])
    case TopologyChanged(infos) =>
      (p, [PeerList(seq(|infos|, i requires 0 <= i < |infos| => infos[i].username)),
           TopologyCount(|infos|)])
    case Error(msg, peer) => (p, [ErrorLine(peer, msg)])
  }

  /** The maps stay in step across any sequence of events. */
  lemma {:induction false} MapsStayInStep(p: PeerMaps, es: seq<Node.P2PEvent>)
    requires SameKeys(p)
    ensures SameKeys(Replay(p, es))
    decreases |es|
  {
    if |es| > 0 {
      MapsStayInStep(p, es[..|es| - 1]);
    }
  }

  /** The maps after handling the events of `es` in order. */
  function Replay(p: PeerMaps, es: seq<Node.P2PEvent>): PeerMaps
    decreases |es|
  {
    if |es| == 0 then p else HandleP2PEvent(Replay(p, es[..|es| - 1]), es[|es| - 1]).0
  }

  /** Disconnecting a peer the client never knew succeeds, changes nothing
      and reports the name "Unknown" without an address. */
  lemma UnknownDisconnect(p: PeerMaps, peerId: string, reason: string)
    requires peerId !in p.connectedPeers && peerId !in p.peerAddresses
    ensures var r := HandleP2PEvent(p, Node.PeerDisconnected(peerId, reason));
      r.0 == p && r.1[1] == Disconnected(UNKNOWN_PEER, reason, None)
  {
    assert p.connectedPeers - {peerId} == p.connectedPeers;
    assert p.peerAddresses - {peerId} == p.peerAddresses;
  }
}

=== FILE: file_manager.dfy ===
/** Where identities live on disk (`identity-gen/src/file_manager.rs`),
    over an abstract directory: the set of file names in the identity
    directory. File contents, permissions and the home-directory lookup
    are left out. */
module FileManager {
  import opened Wrappers
  import Text
  import Base

  type Directory = set<string>

  const IDENTITY_SUFFIX := ".identity.json"
  const STEM_SUFFIX := ".identity"

  /** `get_identity_filename`. */
  function IdentityFilename(username: string): (name: string)
    ensures Text.EndsWith(name, IDENTITY_SUFFIX)
    ensures name[..|name| - |IDENTITY_SUFFIX|] == Text.Lower(username)
  {
    var name := Text.Lower(username) + IDENTITY_SUFFIX;
    assert name[|name| - |IDENTITY_SUFFIX|..] == IDENTITY_SUFFIX;
    name
  }

  /** Index of the last '.' in `s`. */
  function LastDot(s: string): (r: Option<nat>)
    ensures r.Some? ==> r.value < |s| && s[r.value] == '.' && '.' !in s[r.value + 1..]
    ensures r.None? ==> '.' !in s
  {
    if |s| == 0 then None
    else if s[|s| - 1] == '.' then Some(|s| - 1)
    else
      var r := LastDot(s[..|s| - 1]);
      assert s == s[..|s| - 1] + [s[|s| - 1]];
      if r.Some? then
        assert s[r.value + 1..] == s[..|s| - 1][r.value + 1..] + [s[|s| - 1]];
        r
      else r
  }

  /** `Path::file_stem` and `Path::extension` of a file name: split at the
      last '.', except that a name whose only '.' is its first character
      has no extension. */
  function StemAndExtension(name: string): (r: (string, Option<string>))
    ensures r.1.None? ==> r.0 == name
    ensures r.1.Some? ==> name == r.0 + "." + r.1.value && |r.0| > 0 && '.' !in r.1.value
  {
    match LastDot(name)
    case Some(k) =>
      if k == 0 then (name, None)
      else
        assert name == name[..k] + "." + name[k + 1..];
        (name[..k], Some(name[k + 1..]))
    case None => (name, None)
  }

  /** The username `list_identities` reads off a directory entry, if it
      lists the entry at all: the extension must be "json" and the stem
      must end in ".identity", which is then removed wherever it occurs. */
  function ListedName(name: string): (r: Option<string>)
    ensures r.Some? ==> Text.EndsWith(name, IDENTITY_SUFFIX)
  {
    var (stem, ext) := StemAndExtension(name);
    if ext == Some("json") && Text.EndsWith(stem, STEM_SUFFIX) then
      assert name == stem + ".json";
      assert name[|name| - |IDENTITY_SUFFIX|..] == stem[|stem| - |STEM_SUFFIX|..] + ".json";
      Some(Text.RemoveAll(stem, STEM_SUFFIX))
    else None
  }

  /** An occurrence in the tail is an occurrence in the whole. */
  lemma ContainsTail<T>(l: seq<T>, p: seq<T>)
    requires |l| > 0
    ensures Text.Contains(l[1..], p) ==> Text.Contains(l, p)
  {
    if Text.Contains(l[1..], p) {
      var i :| 0 <= i <= |l[1..]| - |p| && Text.OccursAt(l[1..], p, i);
      var t := l[1..][i..i + |p|];
      assert forall k :: 0 <= k < |p| ==> t[k] == l[i + 1 + k];
      assert l[i + 1..i + 1 + |p|] == t;
      assert Text.OccursAt(l, p, i + 1);
    }
  }

  /** Removing ".identity" from a name that does not contain it, followed
      by the suffix, leaves the name. No occurrence can straddle the two
      parts, because the suffix's only '.' is its first character. */
  lemma {:induction false} RemoveSuffixOnly(l: string)
    requires !Text.Contains(l, STEM_SUFFIX)
    ensures Text.RemoveAll(l + STEM_SUFFIX, STEM_SUFFIX) == l
  {
    if |l| == 0 {
      assert STEM_SUFFIX[|STEM_SUFFIX|..] == [];
      assert Text.StartsWith(STEM_SUFFIX, STEM_SUFFIX);
    } else {
      var s := l + STEM_SUFFIX;
      if |l| >= |STEM_SUFFIX| {
        assert s[..|STEM_SUFFIX|] == l[..|STEM_SUFFIX|];
        assert !Text.OccursAt(l, STEM_SUFFIX, 0);
      } else {
        assert s[|l|] == '.';
        assert STEM_SUFFIX[|l|] != '.';
      }
      assert !Text.StartsWith(s, STEM_SUFFIX);
      assert s[1..] == l[1..] + STEM_SUFFIX;
      ContainsTail(l, STEM_SUFFIX);
      RemoveSuffixOnly(l[1..]);
    }
  }

  /** The last '.' is the one with none after it. */
  lemma {:induction false} LastDotAt(s: string, k: nat)
    requires k < |s| && s[k] == '.' && '.' !in s[k + 1..]
    ensures LastDot(s) == Some(k)
    decreases |s|
  {
    if k < |s| - 1 {
      assert s[|s| - 1] in s[k + 1..];
      assert s[..|s| - 1][k + 1..] == s[k + 1..|s| - 1];
      LastDotAt(s[..|s| - 1], k);
    }
  }

  /** The file name of a username is listed under that name in lowercase,
      unless the lowercased name itself contains ".identity" (which the
      listing would also strip): listing inverts naming. */
  lemma {:induction false} ListedNameOfFilename(username: string)
    requires !Text.Contains(Text.Lower(username), STEM_SUFFIX)
    ensures ListedName(IdentityFilename(username)) == Some(Text.Lower(username))
  {
    var l := Text.Lower(username);
    var stem := l + STEM_SUFFIX;
    var name := IdentityFilename(username);
    assert name == stem + "." + "json";
    assert name[|stem| + 1..] == "json";
    LastDotAt(name, |stem|);
    assert StemAndExtension(name) == (stem, Some("json")) by {
      assert name[..|stem|] == stem;
    }
    assert stem[|stem| - |STEM_SUFFIX|..] == STEM_SUFFIX;
    RemoveSuffixOnly(l);
  }

  /** One listed identity: the username and its file. */
  datatype Entry = Entry(username: string, file: string)

  /** `String`'s `Ord`: lexicographic by character (UTF-8 byte order and
      code point order agree). */
  predicate LexLe(a: string, b: string)
    decreases |a|
  {
    |a| == 0 || (|b| > 0 && (a[0] < b[0] || (a[0] == b[0] && LexLe(a[1..], b[1..]))))
  }

  lemma {:induction false} LexTotal(a: string, b: string)
    ensures LexLe(a, b) || LexLe(b, a)
    decreases |a|
  {
    if |a| > 0 && |b| > 0 && a[0] == b[0] {
      LexTotal(a[1..], b[1..]);
    }
  }

  predicate SortedByName(es: seq<Entry>) {
    forall i :: 0 < i < |es| ==> LexLe(es[i - 1].username, es[i].username)
  }

  /** `e` placed before the first entry whose name is not below it. */
  function Insert(e: Entry, es: seq<Entry>): (r: seq<Entry>)
    requires SortedByName(es)
    ensures SortedByName(r)
    ensures multiset(r) == multiset(es) + multiset{e}
    ensures |r| > 0 && (r[0] == e || (|es| > 0 && r[0] == es[0]))
  {
    if |es| == 0 || LexLe(e.username, es[0].username) then [e] + es
    else
      LexTotal(e.username, es[0].username);
      var rest := Insert(e, es[1..]);
      assert es == [es[0]] + es[1..];
      [es[0]] + rest
  }

  /** `sort_by` on the username. */
  function SortByName(es: seq<Entry>): (r: seq<Entry>)
    ensures SortedByName(r)
    ensures multiset(r) == multiset(es)
  {
    if |es| == 0 then []
    else
      assert es == [es[0]] + es[1..];
      Insert(es[0], SortByName(es[1..]))
  }

  /** The entries a directory listing yields, in listing order, for a
      name filter `listed` (`ListedName` in the program). */
  function Collect(names: seq<string>, listed: string -> Option<string>): (r: seq<Entry>)
    ensures forall i :: 0 <= i < |r| ==> r[i].file in names && listed(r[i].file) == Some(r[i].username)
  {
    if |names| == 0 then []
    else
      var rest := Collect(names[1..], listed);
      assert forall i :: 0 <= i < |rest| ==> rest[i].file in names by {
        forall i | 0 <= i < |rest| ensures rest[i].file in names {
          var k :| 0 <= k < |names[1..]| && names[1..][k] == rest[i].file;
          assert names[k + 1] == rest[i].file;
        }
      }
      match listed(names[0])
      case Some(u) => [Entry(u, names[0])] + rest
      case None => rest
  }

  /** Every file the filter accepts is collected, under its name. */
  lemma {:induction false} CollectComplete(names: seq<string>, listed: string -> Option<string>, i: nat)
    requires i < |names| && listed(names[i]).Some?
    ensures Entry(listed(names[i]).value, names[i]) in Collect(names, listed)
  {
    if i > 0 {
      CollectComplete(names[1..], listed, i - 1);
      assert names[1..][i - 1] == names[i];
    }
  }

  /** `list_identities` over a listing `order` of the whole directory (the
      order `read_dir` hands the entries out in): the listed files with
      their usernames, sorted by username, and every file the filter
      accepts among them. */
  function ListIdentities(dir: Directory, order: seq<string>): (r: seq<Entry>)
    requires Base.Enumerates(order, dir)
    ensures SortedByName(r)
    ensures multiset(r) == multiset(Collect(order, ListedName))
    ensures forall i :: 0 <= i < |r| ==> r[i].file in dir && ListedName(r[i].file) == Some(r[i].username)
    ensures forall f :: f in dir && ListedName(f).Some? ==> Entry(ListedName(f).value, f) in r
  {
    var c := Collect(order, ListedName);
    var r := SortByName(c);
    PermutedEntries(dir, order, r);
    r
  }

  /** What a reordering of the collected entries inherits from them: each
      entry is a directory file listed under its name, and every file the
      filter accepts is there. */
  lemma PermutedEntries(dir: Directory, order: seq<string>, r: seq<Entry>)
    requires Base.Enumerates(order, dir)
    requires multiset(r) == multiset(Collect(order, ListedName))
    ensures forall i :: 0 <= i < |r| ==> r[i].file in dir && ListedName(r[i].file) == Some(r[i].username)
    ensures forall f :: f in dir && ListedName(f).Some? ==> Entry(ListedName(f).value, f) in r
  {
    var c := Collect(order, ListedName);
    forall i | 0 <= i < |r| ensures r[i].file in dir && ListedName(r[i].file) == Some(r[i].username) {
      InCollected(order, r, i);
    }
    CollectCovers(dir, order);
    forall f | f in dir && ListedName(f).Some? ensures Entry(ListedName(f).value, f) in r {
      assert Entry(ListedName(f).value, f) in multiset(c);
    }
  }

  lemma InCollected(order: seq<string>, r: seq<Entry>, i: nat)
    requires multiset(r) == multiset(Collect(order, ListedName))
    requires i < |r|
    ensures r[i].file in order && ListedName(r[i].file) == Some(r[i].username)
  {
    var c := Collect(order, ListedName);
    assert r[i] in multiset(c);
    var j :| 0 <= j < |c| && c[j] == r[i];
  }

  /** Collecting over a listing of the whole directory misses no file the
      filter accepts. */
  lemma CollectCovers(dir: Directory, order: seq<string>)
    requires Base.Enumerates(order, dir)
    ensures forall f :: f in dir && ListedName(f).Some? ==> Entry(ListedName(f).value, f) in Collect(order, ListedName)
  {
    forall f | f in dir && ListedName(f).Some?
      ensures Entry(ListedName(f).value, f) in Collect(order, ListedName)
    {
      var k :| 0 <= k < |order| && order[k] == f;
      CollectComplete(order, ListedName, k);
    }
  }

  /** A saved identity shows up in the listing under its lowercased name. */
  lemma {:induction false} SavedIdentityListed(dir: Directory, order: seq<string>, username: string)
    requires Base.Enumerates(order, dir)
    requires IdentityFilename(username) in dir
    requires !Text.Contains(Text.Lower(username), STEM_SUFFIX)
    ensures Entry(Text.Lower(username), IdentityFilename(username)) in ListIdentities(dir, order)
  {
    ListedNameOfFilename(username);
  }

  datatype FileError = AlreadyExists(file: string) | IdentityNotFound(username: string)

  /** The existence check of `save_identity`: an existing file is never
      overwritten; otherwise exactly that file is added. The target is the
      custom path if given, else the identity's file name. */
  function SaveIdentity(dir: Directory, username: string, customPath: Option<string>): (r: Result<Directory, FileError>)
    ensures var target := if customPath.Some? then customPath.value else IdentityFilename(username);
      (target in dir ==> r == Err(AlreadyExists(target)))
      && (target !in dir ==> r == Ok(dir + {target}))
  {
    var target := if customPath.Some? then customPath.value else IdentityFilename(username);
    if target in dir then Err(AlreadyExists(target)) else Ok(dir + {target})
  }

  /** `delete_identity`: an error if the identity file is absent;
      otherwise it goes, with the ".pub" and ".key" files named after the
      username as given (not lowercased). */
  function DeleteIdentity(dir: Directory, username: string): (r: Result<Directory, FileError>)
    ensures IdentityFilename(username) !in dir ==> r == Err(IdentityNotFound(username))
    ensures IdentityFilename(username) in dir ==>
      r.Ok? && IdentityFilename(username) !in r.value && r.value <= dir
      && username + ".pub" !in r.value && username + ".key" !in r.value
      && forall f :: f in dir && f !in {IdentityFilename(username), username + ".pub", username + ".key"} ==> f in r.value
  {
    var file := IdentityFilename(username);
    if file in dir then Ok(dir - {file, username + ".pub", username + ".key"})
    else Err(IdentityNotFound(username))
  }

  /** `identity_exists`. */
  function IdentityExists(dir: Directory, username: string): (r: bool)
    ensures r <==> SaveIdentity(dir, username, None).Err?
  {
    IdentityFilename(username) in dir
  }

  /** Saving then deleting under the same name leaves no identity file,
      and a second save under a name differing only in case is refused. */
  lemma {:induction false} SaveDeleteCaseInsensitive(dir: Directory, username: string, other: string)
    requires Text.Lower(other) == Text.Lower(username)
    requires SaveIdentity(dir, username, None).Ok?
    ensures var d1 := SaveIdentity(dir, username, None).value;
      SaveIdentity(d1, other, None).Err?
      && DeleteIdentity(d1, other).Ok? && !IdentityExists(DeleteIdentity(d1, other).value, username)
  {
  }
}

=== FILE: handshake.dfy ===
/** The signed Kyber handshake (`shared/src/crypto/handshake.rs`): each side
    sends its identity (`PeerInfo`), a Kyber key-exchange message and a
    Dilithium signature over both; the initiator's message is answered with
    the responder's, and each side ends with a session key. */
module Handshake {
  import opened Base
  import opened Wrappers
  import opened Primitives
  import opened KyberKex
  import Session
  import Text

  /** Version string both sides must send. */
  const PROTOCOL_VERSION: string := "dpq-chat-v2-kyber"

  /** Oldest key-exchange data accepted, in seconds. */
  const MAX_EXCHANGE_AGE: u64 := 300

  /** Suffix of the placeholder signature used without a Dilithium key. */
  const PLACEHOLDER_LABEL: Bytes := Text.Ascii("dpq-chat-dilithium-signature")

  /** Identity a peer presents. */
  datatype PeerInfo = PeerInfo(username: string, fingerprint: string, publicKey: Bytes, timestamp: u64)

  datatype HandshakeData = HandshakeData(peerInfo: PeerInfo, kyberExchange: KeyExchange, signature: Bytes, protocolVersion: string)

  datatype HandshakeState = Initial | Initiated | Received | Completed | Failed(reason: string)

  /** `HandshakeManager`: per-peer state, the handshake we sent and are
      waiting on, one key-exchange manager per peer, and our signing key
      (absent for managers built with `new`). */
  datatype HandshakeManager = HandshakeManager(
    ourInfo: PeerInfo,
    peerStates: map<string, HandshakeState>,
    pending: map<string, HandshakeData>,
    kyberManagers: map<string, KexManager>,
    dilithium: Option<KeyPair>)

  datatype HandshakeError =
    | UnsupportedVersion
    | BadKeyExchange(cause: KexError)
    | EmptySignature
    | InvalidSignature
    | NoKyberManager

  /** `HandshakeManager::new` and `new_with_dilithium`: our identity is
      stamped with the clock at construction and never again. */
  function NewManager(username: string, fingerprint: string, publicKey: Bytes, dilithium: Option<KeyPair>, now: u64)
    : (m: HandshakeManager)
    ensures m.ourInfo == PeerInfo(username, fingerprint, publicKey, now)
    ensures forall fp :: GetState(m, fp) == Initial
    ensures m.pending == map[] && m.kyberManagers == map[] && m.dilithium == dilithium
  {
    HandshakeManager(PeerInfo(username, fingerprint, publicKey, now), map[], map[], map[], dilithium)
  }

  /** `set_dilithium_keypair`. */
  function SetDilithiumKeypair(m: HandshakeManager, kp: KeyPair): (r: HandshakeManager)
    ensures r.dilithium == Some(kp) && r.ourInfo == m.ourInfo && r.peerStates == m.peerStates
  {
    m.(dilithium := Some(kp))
  }

  /** The name `format!("{:?}", role)` prints. */
  function RoleName(r: Role): string {
    match r
    case Initiator => "Initiator"
    case Responder => "Responder"
  }

  /** The bytes `create_signature_data` feeds to SHA-256, in order: the
      identity fields, then the key exchange (its ciphertext only when
      present). */
  function SignatureInput(info: PeerInfo, kx: KeyExchange): Bytes {
    Text.Utf8Encode(info.username) + Text.Utf8Encode(info.fingerprint) + info.publicKey
    + LeBytes(info.timestamp, 8) + kx.publicKey
    + (if kx.ciphertext.Some? then kx.ciphertext.value else [])
    + LeBytes(kx.timestamp, 8) + Text.Ascii(RoleName(kx.role))
  }

  /** `create_signature_data`: the digest that gets signed. */
  function SignatureData(p: Suite, info: PeerInfo, kx: KeyExchange): (d: Bytes)
    requires Sound(p)
    ensures |d| == SHA256_BYTES
  {
    p.sha256(SignatureInput(info, kx))
  }

  /** `sign_handshake_data`: a Dilithium signature with our key, or without
      one a SHA-256 placeholder over the data, our fingerprint and a label. */
  function Sign(p: Suite, m: HandshakeManager, data: Bytes): (s: Bytes)
    requires Sound(p)
    ensures |s| > 0
    ensures m.dilithium.None? ==> |s| == SHA256_BYTES
  {
    match m.dilithium
    case Some(kp) => p.sigSign(kp.secretKey, data)
    case None => p.sha256(data + Text.Utf8Encode(m.ourInfo.fingerprint) + PLACEHOLDER_LABEL)
  }

  /** `verify_handshake`: protocol version, then the key-exchange checks with
      a 300-second age limit, then a non-empty signature. The Dilithium
      verdict rejects only an explicit `Ok(false)`: a verifier error (for
      instance a public key that is not a Dilithium key) lets the handshake
      through. */
  function VerifyHandshake(p: Suite, hd: HandshakeData, now: u64): (r: Result<(), HandshakeError>)
    requires Sound(p)
    ensures r.Ok? <==>
      hd.protocolVersion == PROTOCOL_VERSION
      && VerifyKeyExchange(hd.kyberExchange, MAX_EXCHANGE_AGE, now).Ok?
      && hd.signature != []
      && p.sigVerify(SignatureData(p, hd.peerInfo, hd.kyberExchange), hd.signature, hd.peerInfo.publicKey)
         != Verified(false)
    ensures hd.protocolVersion != PROTOCOL_VERSION ==> r == Err(UnsupportedVersion)
  {
    if hd.protocolVersion != PROTOCOL_VERSION then Err(UnsupportedVersion)
    else match VerifyKeyExchange(hd.kyberExchange, MAX_EXCHANGE_AGE, now)
      case Err(e) => Err(BadKeyExchange(e))
      case Ok(_) =>
        var data := SignatureData(p, hd.peerInfo, hd.kyberExchange);
        if hd.signature == [] then Err(EmptySignature)
        else match p.sigVerify(data, hd.signature, hd.peerInfo.publicKey)
          case Verified(true) => Ok(())
          case Verified(false) => Err(InvalidSignature)
          case VerifyError => Ok(())
  }

  /** A signature that Dilithium cannot even parse is accepted: with every
      other check passing, a verifier error yields success. */
  lemma VerifierErrorAccepted(p: Suite, hd: HandshakeData, now: u64)
    requires Sound(p)
    requires hd.protocolVersion == PROTOCOL_VERSION
    requires VerifyKeyExchange(hd.kyberExchange, MAX_EXCHANGE_AGE, now).Ok?
    requires hd.signature != []
    requires p.sigVerify(SignatureData(p, hd.peerInfo, hd.kyberExchange), hd.signature, hd.peerInfo.publicKey) == VerifyError
    ensures VerifyHandshake(p, hd, now).Ok?
  {
  }

  /** The handshake message a manager sends for a key exchange. */
  function Outgoing(p: Suite, m: HandshakeManager, kx: KeyExchange): (hd: HandshakeData)
    requires Sound(p)
    ensures hd.peerInfo == m.ourInfo && hd.kyberExchange == kx && hd.protocolVersion == PROTOCOL_VERSION
  {
    HandshakeData(m.ourInfo, kx, Sign(p, m, SignatureData(p, m.ourInfo, kx)), PROTOCOL_VERSION)
  }

  /** `initiate_handshake`: a fresh key-exchange manager (key pair from
      `seed`) is stored for the peer, the signed offer is recorded as pending
      and the peer's state becomes `Initiated`. Nothing else changes. */
  function InitiateHandshake(p: Suite, m: HandshakeManager, peerFp: string, seed: Bytes, now: u64)
    : (r: (HandshakeManager, HandshakeData))
    requires Sound(p)
    ensures var (m', hd) := r;
      GetState(m', peerFp) == Initiated
      && peerFp in m'.pending && m'.pending[peerFp] == hd
      && peerFp in m'.kyberManagers && m'.kyberManagers[peerFp].ourKeypair == Some(p.kemKeypair(seed))
      && hd.peerInfo == m.ourInfo && hd.protocolVersion == PROTOCOL_VERSION
      && hd.kyberExchange.role == Initiator && hd.kyberExchange.ciphertext.None?
      && |hd.kyberExchange.publicKey| == KYBER_PUBLIC_KEY_BYTES
      && m'.ourInfo == m.ourInfo && m'.dilithium == m.dilithium
      && (forall q :: q != peerFp ==> GetState(m', q) == GetState(m, q))
      && m'.pending - {peerFp} == m.pending - {peerFp}
      && m'.kyberManagers - {peerFp} == m.kyberManagers - {peerFp}
  {
    var (kxm, kx) := InitiateKeyExchange(p, NEW_KEX_MANAGER, seed, now);
    var hd := Outgoing(p, m, kx);
    (m.(kyberManagers := m.kyberManagers[peerFp := kxm],
        peerStates := m.peerStates[peerFp := Initiated],
        pending := m.pending[peerFp := hd]),
     hd)
  }

  /** What a successful `process_handshake` yields. */
  datatype Processed = Processed(manager: HandshakeManager, sessionKey: Session.SessionKey, response: Option<HandshakeData>)

  /** `process_handshake`. The peer is the fingerprint the data claims. The
      data is verified before anything changes; a failure anywhere returns
      an error and no new manager, so the caller's manager is untouched.
      If we had initiated with that peer, our stored key-exchange manager
      completes the exchange and no response is sent; otherwise a fresh
      manager responds and the signed response is returned. Either way the
      session key comes from the derived secret, the peer's state becomes
      `Completed` and its pending offer is dropped. */
  function ProcessHandshake(p: Suite, m: HandshakeManager, hd: HandshakeData, coins: Bytes, now: u64)
    : (r: Result<Processed, HandshakeError>)
    requires Sound(p)
    ensures r.Ok? ==> VerifyHandshake(p, hd, now).Ok?
    ensures VerifyHandshake(p, hd, now).Err? ==> r == Err(VerifyHandshake(p, hd, now).error)
    ensures r.Ok? ==> var fp := hd.peerInfo.fingerprint;
      GetState(r.value.manager, fp) == Completed
      && fp !in r.value.manager.pending
      && r.value.sessionKey.peerFingerprint == fp
      && r.value.sessionKey.createdAt == now
      && Session.ValidKey(r.value.sessionKey)
      && (r.value.response.Some? <==> GetState(m, fp) != Initiated)
      && (forall q :: q != fp ==> GetState(r.value.manager, q) == GetState(m, q))
      && r.value.manager.pending == m.pending - {fp}
      && r.value.manager.kyberManagers - {fp} == m.kyberManagers - {fp}
      && r.value.manager.ourInfo == m.ourInfo && r.value.manager.dilithium == m.dilithium
    ensures r.Ok? && r.value.response.Some? ==>
      r.value.response.value.peerInfo == m.ourInfo
      && r.value.response.value.kyberExchange.role == Responder
  {
    var fp := hd.peerInfo.fingerprint;
    var _ :- VerifyHandshake(p, hd, now);
    if fp in m.peerStates && m.peerStates[fp] == Initiated then
      if fp !in m.kyberManagers then Err(NoKyberManager)
      else match CompleteKeyExchange(p, m.kyberManagers[fp], hd.kyberExchange)
        case Err(e) => Err(BadKeyExchange(e))
        case Ok((kxm, secret)) =>
          var key := Session.FromSharedSecret(p, secret, fp, now);
          Ok(Processed(MarkCompleted(m, fp, kxm), key, None))
    else
      match RespondToKeyExchange(p, NEW_KEX_MANAGER, hd.kyberExchange, coins, now)
      case Err(e) => Err(BadKeyExchange(e))
      case Ok((kxm, kx, secret)) =>
        var response := Outgoing(p, m, kx);
        var key := Session.FromSharedSecret(p, secret, fp, now);
        Ok(Processed(MarkCompleted(m, fp, kxm), key, Some(response)))
  }

  /** The manager after a finished handshake with `fp`: the peer is
      `Completed`, its offer is no longer pending and `kxm` is its
      key-exchange manager; every other peer is as before. */
  function MarkCompleted(m: HandshakeManager, fp: string, kxm: KexManager): (r: HandshakeManager)
    ensures GetState(r, fp) == Completed && fp !in r.pending
    ensures forall q :: q != fp ==> GetState(r, q) == GetState(m, q)
    ensures r.pending == m.pending - {fp}
    ensures r.kyberManagers - {fp} == m.kyberManagers - {fp}
    ensures r.ourInfo == m.ourInfo && r.dilithium == m.dilithium
  {
    m.(kyberManagers := m.kyberManagers[fp := kxm],
       peerStates := m.peerStates[fp := Completed],
       pending := m.pending - {fp})
  }

  /** `get_state`: a peer never seen is `Initial`. */
  function GetState(m: HandshakeManager, fp: string): (s: HandshakeState)
    ensures fp !in m.peerStates ==> s == Initial
  {
    if fp in m.peerStates then m.peerStates[fp] else Initial
  }

  /** `mark_failed`: the peer's state records the reason and its pending
      offer is dropped; its key-exchange manager stays. */
  function MarkFailed(m: HandshakeManager, fp: string, reason: string): (r: HandshakeManager)
    ensures GetState(r, fp) == Failed(reason) && fp !in r.pending
    ensures forall q :: q != fp ==> GetState(r, q) == GetState(m, q)
    ensures r.kyberManagers == m.kyberManagers
  {
    m.(peerStates := m.peerStates[fp := Failed(reason)], pending := m.pending - {fp})
  }

  /** A finished handshake, successful or not. */
  predicate Finished(s: HandshakeState) {
    s.Completed? || s.Failed?
  }

  /** `cleanup`: finished peers revert to `Initial`, the others keep their
      state. Pending offers and key-exchange managers are left alone. */
  function Cleanup(m: HandshakeManager): (r: HandshakeManager)
    ensures forall q :: GetState(r, q) == (if Finished(GetState(m, q)) then Initial else GetState(m, q))
    ensures r.pending == m.pending && r.kyberManagers == m.kyberManagers
  {
    m.(peerStates := map q | q in m.peerStates && !Finished(m.peerStates[q]) :: m.peerStates[q])
  }

  /** `our_info`. */
  function OurInfo(m: HandshakeManager): PeerInfo {
    m.ourInfo
  }

  /** A manager whose signatures its own public key never rejects: true of a
      genuine Dilithium key pair, and of a manager without one whose public
      key the verifier cannot parse. */
  ghost predicate SignsAcceptably(p: Suite, m: HandshakeManager)
    requires Sound(p)
  {
    forall d :: p.sigVerify(d, Sign(p, m, d), m.ourInfo.publicKey) != Verified(false)
  }

  /** A manager holding a genuine Dilithium key pair, whose public half it
      presents as its identity key, signs acceptably. */
  lemma GenuineKeySignsAcceptably(p: Suite, m: HandshakeManager, sigSeed: Bytes)
    requires Sound(p)
    requires m.dilithium == Some(p.sigKeypair(sigSeed))
    requires m.ourInfo.publicKey == p.sigKeypair(sigSeed).publicKey
    ensures SignsAcceptably(p, m)
  {
  }

  /** The full flow of the module's test, for any two acceptable signers:
      Alice initiates towards Bob's fingerprint; Bob, who had not initiated
      towards Alice, answers; Alice completes. Both reach `Completed`, each
      session key names the other, and the two keys have the same bytes. */
  lemma HandshakeAgreement(p: Suite, alice: HandshakeManager, bob: HandshakeManager,
                           seed: Bytes, coins: Bytes, coins2: Bytes, t0: u64, t1: u64, t2: u64)
    requires Sound(p)
    requires SignsAcceptably(p, alice) && SignsAcceptably(p, bob)
    requires GetState(bob, alice.ourInfo.fingerprint) != Initiated
    requires t0 <= t1 <= t2 && t1 - t0 <= MAX_EXCHANGE_AGE && t2 - t1 <= MAX_EXCHANGE_AGE
    ensures var (alice1, offer) := InitiateHandshake(p, alice, bob.ourInfo.fingerprint, seed, t0);
      var atBob := ProcessHandshake(p, bob, offer, coins, t1);
      atBob.Ok? && atBob.value.response.Some?
      && var atAlice := ProcessHandshake(p, alice1, atBob.value.response.value, coins2, t2);
      atAlice.Ok? && atAlice.value.response.None?
      && GetState(atAlice.value.manager, bob.ourInfo.fingerprint) == Completed
      && GetState(atBob.value.manager, alice.ourInfo.fingerprint) == Completed
      && atAlice.value.sessionKey.peerFingerprint == bob.ourInfo.fingerprint
      && atBob.value.sessionKey.peerFingerprint == alice.ourInfo.fingerprint
      && atAlice.value.sessionKey.key == atBob.value.sessionKey.key
  {
    var bobFp := bob.ourInfo.fingerprint;
    var (alice1, offer) := InitiateHandshake(p, alice, bobFp, seed, t0);
    var offerSig := SignatureData(p, offer.peerInfo, offer.kyberExchange);
    assert p.sigVerify(offerSig, offer.signature, offer.peerInfo.publicKey) != Verified(false);
    assert VerifyHandshake(p, offer, t1).Ok?;
    var bobKx := RespondToKeyExchange(p, NEW_KEX_MANAGER, offer.kyberExchange, coins, t1);
    assert bobKx.Ok?;
    var (_, kx, bobSecret) := bobKx.value;
    var atBob := ProcessHandshake(p, bob, offer, coins, t1);
    var response := atBob.value.response.value;
    assert response == Outgoing(p, bob, kx);
    var respSig := SignatureData(p, response.peerInfo, response.kyberExchange);
    assert p.sigVerify(respSig, response.signature, response.peerInfo.publicKey) != Verified(false);
    assert VerifyHandshake(p, response, t2).Ok?;
    assert GetState(alice1, bobFp) == Initiated;
    var enc := EncapsulateTo(p, seed, coins);
    assert p.kemDecapsulate(enc.ciphertext, p.kemKeypair(seed).secretKey) == enc.sharedSecret;
    var done := CompleteKeyExchange(p, alice1.kyberManagers[bobFp], response.kyberExchange);
    assert done.Ok? && done.value.1 == bobSecret;
  }

  /** When both sides initiate towards each other at once, each rejects the
      other's offer: a peer in state `Initiated` expects a response and
      refuses initiator data. */
  lemma SimultaneousInitiationFails(p: Suite, m: HandshakeManager, hd: HandshakeData, coins: Bytes, now: u64)
    requires Sound(p)
    requires GetState(m, hd.peerInfo.fingerprint) == Initiated
    requires hd.kyberExchange.role == Initiator
    ensures ProcessHandshake(p, m, hd, coins, now).Err?
  {
  }

  /** The module's initiation test: the offer carries our identity and the
      protocol version, a non-empty public key and no ciphertext, and the
      peer's state is `Initiated`. */
  lemma InitiationScenario(p: Suite, seed: Bytes, now: u64)
    requires Sound(p)
    ensures var m := NewManager("alice", "alice_fp", [1, 2, 3, 4], None, now);
      var (m', hd) := InitiateHandshake(p, m, "bob_fp", seed, now);
      hd.peerInfo.username == "alice" && hd.protocolVersion == PROTOCOL_VERSION
      && GetState(m', "bob_fp") == Initiated
      && hd.kyberExchange.publicKey != [] && hd.kyberExchange.ciphertext.None?
  {
  }
}

=== FILE: history.dfy ===
/** The client's `MessageHistory` (p2p-core/src/client/history.rs): a
    list of sent lines that, after every append, drains its oldest entries
    so that at most `maxHistory` remain. */
module History {
  import Base

  datatype MessageHistory = MessageHistory(messages: seq<string>, maxHistory: nat)

  /** `MessageHistory::new`. */
  function New(maxHistory: nat): (r: MessageHistory)
    ensures r.messages == [] && r.maxHistory == maxHistory
  {
    MessageHistory([], maxHistory)
  }

  /** `add_message`: push, then drain the front `len - maxHistory` entries
      when the list has grown past its limit. */
  function AddMessage(h: MessageHistory, message: string): (r: MessageHistory)
    ensures r.maxHistory == h.maxHistory
    ensures |h.messages| < h.maxHistory ==> r.messages == h.messages + [message]
    ensures h.maxHistory > 0 ==> |r.messages| > 0 && r.messages[|r.messages| - 1] == message
    ensures r.messages == Base.KeepLast(h.messages + [message], h.maxHistory)
  {
    var pushed := h.messages + [message];
    var len := |pushed|;
    if len > h.maxHistory then
      MessageHistory(pushed[len - h.maxHistory..], h.maxHistory)
    else
      MessageHistory(pushed, h.maxHistory)
  }

  /** `message_count`. */
  function MessageCount(h: MessageHistory): (n: nat)
    ensures n == 0 <==> h.messages == []
  {
    |h.messages|
  }

  /** A run of `add_message` calls, oldest first. */
  function AddAll(h: MessageHistory, items: seq<string>): MessageHistory
    decreases |items|
  {
    if |items| == 0 then h else AddAll(AddMessage(h, items[0]), items[1..])
  }

  /** The count grows by one per added line until it reaches the limit,
      and then stays there. */
  lemma {:induction false} CountAfterAdds(h: MessageHistory, before: seq<string>, items: seq<string>)
    requires h.messages == Base.KeepLast(before, h.maxHistory)
    ensures var total := |before| + |items|;
      MessageCount(AddAll(h, items)) == if total <= h.maxHistory then total else h.maxHistory
  {
    AddAllKeepsWindow(h, before, items);
  }

  /** Draining after each push keeps the newest entries of everything that
      has been added. */
  lemma {:induction false} AddAllKeepsWindow(h: MessageHistory, before: seq<string>, items: seq<string>)
    requires h.messages == Base.KeepLast(before, h.maxHistory)
    ensures AddAll(h, items).maxHistory == h.maxHistory
    ensures AddAll(h, items).messages == Base.KeepLast(before + items, h.maxHistory)
    decreases |items|
  {
    if |items| > 0 {
      Base.KeepLastSnoc(before, items[0], h.maxHistory);
      AddAllKeepsWindow(AddMessage(h, items[0]), before + [items[0]], items[1..]);
      assert before + [items[0]] + items[1..] == before + items;
    } else {
      assert before + items == before;
    }
  }

  /** The stored list is always the last `maxHistory` lines added, in
      order, and `message_count` is their number. */
  lemma KeepsLastAdded(maxHistory: nat, items: seq<string>)
    ensures AddAll(New(maxHistory), items).messages == Base.KeepLast(items, maxHistory)
    ensures MessageCount(AddAll(New(maxHistory), items))
      == (if |items| <= maxHistory then |items| else maxHistory)
  {
    AddAllKeepsWindow(New(maxHistory), [], items);
    assert [] + items == items;
  }
}

=== FILE: identity.dfy ===
/** A user's stored identity (`identity-gen/src/identity.rs`): keys kept
    as Base64 text, a short hexadecimal fingerprint of the public key, and
    an optional expiry. Times are seconds on one clock, passed in. */
module Identity {
  import opened Base
  import opened Wrappers
  import Text
  import Primitives
  import Base64

  datatype Identity = Identity(
    username: string,
    algorithm: string,
    publicKey: string,
    secretKey: string,
    fingerprint: string,
    createdAt: int,
    expiresAt: Option<int>)

  /** Bytes of the digest shown in a fingerprint. */
  const FINGERPRINT_BYTES: nat := 6

  type Nibble = x: nat | x < 16

  /** A lowercase hexadecimal digit. */
  function HexDigit(n: Nibble): (c: char)
    ensures c != ':'
  {
    if n < 10 then ('0' as int + n) as char else ('a' as int + (n - 10)) as char
  }

  /** The value of a lowercase hexadecimal digit. */
  function HexValue(c: char): (r: Option<Nibble>)
    ensures r.Some? ==> HexDigit(r.value) == c
    ensures forall n: Nibble :: HexDigit(n) == c ==> r == Some(n)
  {
    if '0' <= c <= '9' then Some(c as int - '0' as int)
    else if 'a' <= c <= 'f' then Some(c as int - 'a' as int + 10)
    else None
  }

  /** `format!("{:02x}", b)`. */
  function HexPair(b: byte): (s: string)
    ensures |s| == 2 && ':' !in s
  {
    [HexDigit(b as int / 16), HexDigit(b as int % 16)]
  }

  /** Two lowercase hexadecimal digits read as a byte. */
  function ParseHexPair(s: string): (r: Option<byte>)
    ensures r.Some? ==> HexPair(r.value) == s
  {
    if |s| != 2 then None
    else match (HexValue(s[0]), HexValue(s[1]))
      case (Some(hi), Some(lo)) =>
        var x: int := hi as int * 16 + lo;
        assert x / 16 == hi && x % 16 == lo;
        Some(x as byte)
      case _ => None
  }

  /** Each byte as its two digits. */
  function Pairs(bs: Bytes): (r: seq<string>)
    ensures |r| == |bs|
    ensures forall i :: 0 <= i < |bs| ==> r[i] == HexPair(bs[i])
  {
    if |bs| == 0 then [] else [HexPair(bs[0])] + Pairs(bs[1..])
  }

  /** The digit pairs joined by ':', as `generate_fingerprint` lays out
      its bytes. */
  function Format(bs: Bytes): (s: string)
    ensures |bs| > 0 ==> |s| == 3 * |bs| - 1
  {
    FormatLength(bs);
    Text.Join(Pairs(bs), ":")
  }

  lemma {:induction false} FormatLength(bs: Bytes)
    ensures |bs| > 0 ==> |Text.Join(Pairs(bs), ":")| == 3 * |bs| - 1
    decreases |bs|
  {
    if |bs| > 1 {
      FormatLength(bs[1..]);
      assert Pairs(bs)[1..] == Pairs(bs[1..]);
    }
  }

  /** Every piece read as a byte. */
  function ParsePairs(parts: seq<string>): (r: Option<Bytes>)
    ensures r.Some? ==> |r.value| == |parts|
  {
    if |parts| == 0 then Some([])
    else match (ParseHexPair(parts[0]), ParsePairs(parts[1..]))
      case (Some(b), Some(rest)) => Some([b] + rest)
      case _ => None
  }

  /** A fingerprint read back into the digest bytes it shows. */
  function ParseFingerprint(f: string): (r: Option<Bytes>)
    ensures r.Some? ==> Format(r.value) == f
  {
    var parts := Text.Split(f, ':');
    var r := ParsePairs(parts);
    if r.Some? then
      ParsePairsFormat(parts);
      Text.JoinSplit(f, ':');
      r
    else None
  }

  lemma {:induction false} ParsePairsFormat(parts: seq<string>)
    requires ParsePairs(parts).Some?
    ensures Pairs(ParsePairs(parts).value) == parts
  {
    if |parts| > 0 {
      ParsePairsFormat(parts[1..]);
      var bs := ParsePairs(parts).value;
      assert bs[1..] == ParsePairs(parts[1..]).value;
      assert Pairs(bs) == [HexPair(bs[0])] + Pairs(bs[1..]);
    }
  }

  /** Reading the digit pairs back inverts formatting them. */
  lemma {:induction false} ParseFormat(bs: Bytes)
    requires |bs| > 0
    ensures ParseFingerprint(Format(bs)) == Some(bs)
  {
    var ps := Pairs(bs);
    Text.SplitJoin(ps, ':');
    PairsParse(bs);
  }

  lemma {:induction false} PairsParse(bs: Bytes)
    ensures ParsePairs(Pairs(bs)) == Some(bs)
    decreases |bs|
  {
    if |bs| > 0 {
      var b := bs[0];
      var x := b as int;
      assert HexValue(HexDigit(x / 16)) == Some(x / 16);
      assert HexValue(HexDigit(x % 16)) == Some(x % 16);
      assert ParseHexPair(HexPair(b)) == Some(b);
      PairsParse(bs[1..]);
      assert Pairs(bs)[1..] == Pairs(bs[1..]);
      assert bs == [b] + bs[1..];
    }
  }

  /** `generate_fingerprint`: the first six bytes of the SHA-256 digest of
      the public key as "xx:xx:xx:xx:xx:xx"; it depends only on the key. */
  function GenerateFingerprint(p: Primitives.Suite, publicKey: Bytes): (f: string)
    requires |p.sha256(publicKey)| >= FINGERPRINT_BYTES
    ensures |f| == 17
    ensures forall k :: 0 <= k < 5 ==> f[3 * k + 2] == ':'
    ensures ParseFingerprint(f) == Some(p.sha256(publicKey)[..FINGERPRINT_BYTES])
  {
    var bs := p.sha256(publicKey)[..FINGERPRINT_BYTES];
    var f := Format(bs);
    ParseFormat(bs);
    FormatColons(bs);
    f
  }

  lemma {:induction false} FormatCons(bs: Bytes)
    requires |bs| >= 2
    ensures Format(bs) == HexPair(bs[0]) + ":" + Format(bs[1..])
  {
    assert Pairs(bs)[1..] == Pairs(bs[1..]);
  }

  /** In a formatted digest every third character, from the third on, is
      a separator. */
  lemma {:induction false} FormatColons(bs: Bytes)
    requires |bs| > 0
    ensures forall k :: 0 <= k < |bs| - 1 ==> Format(bs)[3 * k + 2] == ':'
    decreases |bs|
  {
    if |bs| >= 2 {
      FormatCons(bs);
      FormatColons(bs[1..]);
      var f, t := Format(bs), Format(bs[1..]);
      forall k | 0 <= k < |bs| - 1 ensures f[3 * k + 2] == ':' {
        if k > 0 {
          assert f[3 * k + 2] == t[3 * (k - 1) + 2];
        }
      }
    }
  }

  /** `short_fingerprint`: the first two ':'-separated segments. */
  function ShortFingerprint(f: string): (r: string)
    ensures Text.StartsWith(f, r)
  {
    var parts := Text.Split(f, ':');
    var r := Text.Join(parts[..if |parts| < 2 then |parts| else 2], ":");
    ShortIsPrefix(f);
    r
  }

  lemma {:induction false} ShortIsPrefix(f: string)
    ensures var parts := Text.Split(f, ':');
      Text.StartsWith(f, Text.Join(parts[..if |parts| < 2 then |parts| else 2], ":"))
  {
    var parts := Text.Split(f, ':');
    Text.JoinSplit(f, ':');
    if |parts| > 2 {
      JoinTwoIsPrefix(parts, f);
    } else {
      assert parts[..|parts|] == parts;
    }
  }

  /** The first two parts of a join of three or more, joined again, are
      where the whole join starts. */
  lemma {:induction false} JoinTwoIsPrefix(parts: seq<string>, f: string)
    requires |parts| > 2 && f == Text.Join(parts, ":")
    ensures Text.StartsWith(f, Text.Join(parts[..2], ":"))
  {
    var pre := parts[0] + ":" + parts[1];
    var j2 := Text.Join(parts[2..], ":");
    assert parts[1..][1..] == parts[2..];
    assert Text.Join(parts[1..], ":") == parts[1] + ":" + j2;
    assert parts[..2][1..] == [parts[1]];
    assert Text.Join(parts[..2], ":") == pre;
    assert f == pre + (":" + j2);
    assert f[..|pre|] == pre;
  }

  /** For a generated fingerprint the short form is its first five
      characters: the first two digest bytes. */
  lemma {:induction false} ShortFingerprintOfFormat(bs: Bytes)
    requires |bs| == FINGERPRINT_BYTES
    ensures ShortFingerprint(Format(bs)) == Format(bs[..2]) == Format(bs)[..5]
  {
    var ps := Pairs(bs);
    Text.SplitJoin(ps, ':');
    assert Text.Split(Format(bs), ':')[..2] == Pairs(bs[..2]);
    ShortIsPrefix(Format(bs));
  }

  /** `is_expired`: never without an expiry date, otherwise once the
      clock is past it. */
  function IsExpired(id: Identity, now: int): (r: bool)
    ensures id.expiresAt.None? ==> !r
    ensures id.expiresAt.Some? ==> (r <==> now > id.expiresAt.value)
  {
    match id.expiresAt
    case None => false
    case Some(t) => now > t
  }

  /** Expiry is permanent: an identity expired at one time is expired at
      every later time. */
  lemma {:induction false} ExpiryIsPermanent(id: Identity, now: int, later: int)
    requires now <= later && IsExpired(id, now)
    ensures IsExpired(id, later)
  {
  }

  /** `Identity::new`: both keys stored as Base64, the fingerprint taken
      from the raw public key, created at `now`. */
  function NewIdentity(p: Primitives.Suite, username: string, algorithm: string, publicKeyBytes: Bytes,
                       encryptedSecretKey: Bytes, expiresAt: Option<int>, now: int): (r: Identity)
    requires |p.sha256(publicKeyBytes)| >= FINGERPRINT_BYTES
    ensures r.username == username && r.algorithm == algorithm && r.expiresAt == expiresAt && r.createdAt == now
    ensures r.fingerprint == GenerateFingerprint(p, publicKeyBytes)
    ensures GetPublicKeyBytes(r) == Ok(publicKeyBytes)
    ensures GetSecretKeyBytes(r) == Ok(encryptedSecretKey)
  {
    Base64.DecodeEncode(publicKeyBytes);
    Base64.DecodeEncode(encryptedSecretKey);
    Identity(username, algorithm, Base64.Encode(publicKeyBytes), Base64.Encode(encryptedSecretKey),
             GenerateFingerprint(p, publicKeyBytes), now, expiresAt)
  }

  const INVALID_BASE64 := "Base64 decode error"

  /** `get_public_key_bytes`: the stored public key decoded; an error for
      text that is not standard Base64. */
  function GetPublicKeyBytes(id: Identity): (r: Result<Bytes, string>)
    ensures r.Ok? <==> Base64.Decode(id.publicKey).Some?
    ensures r.Ok? ==> Base64.Encode(r.value) == id.publicKey
  {
    match Base64.Decode(id.publicKey)
    case Some(b) =>
      Base64.EncodeDecode(id.publicKey);
      Ok(b)
    case None => Err(INVALID_BASE64)
  }

  /** `get_secret_key_bytes`, the same for the encrypted secret key. */
  function GetSecretKeyBytes(id: Identity): (r: Result<Bytes, string>)
    ensures r.Ok? <==> Base64.Decode(id.secretKey).Some?
    ensures r.Ok? ==> Base64.Encode(r.value) == id.secretKey
  {
    match Base64.Decode(id.secretKey)
    case Some(b) =>
      Base64.EncodeDecode(id.secretKey);
      Ok(b)
    case None => Err(INVALID_BASE64)
  }
}

=== FILE: input_line.dfy ===
/** Cursor arithmetic of the chat UI's `InputHandler`
    (p2p-core/src/ui/input.rs). The prompt's width counts the speech-bubble
    emoji as two columns and every other character as one; the cursor goes
    two columns in from the border, just after the prompt, on the row
    below the chat area. Screen coordinates are `u16`: the casts truncate
    and the additions wrap as in a release build. */
module InputLine {
  import Base

  /** The speech-bubble emoji, U+1F4AC. */
  const SPEECH_BUBBLE: char := '\U{1F4AC}'

  /** `format!("💬 {}@chat > ", username)`. */
  function Prompt(username: string): (p: string)
    ensures |p| == |username| + 10
    ensures p[0] == SPEECH_BUBBLE && p[2..2 + |username|] == username
  {
    [SPEECH_BUBBLE] + " " + username + "@chat > "
  }

  /** Display width of `prompt` by the emoji rule: one column per
      character, plus one more for each speech bubble. */
  function PromptWidth(prompt: string): nat {
    |prompt| + multiset(prompt)[SPEECH_BUBBLE]
  }

  /** `get_visible_prompt_length`: the counting loop. */
  method VisiblePromptLength(prompt: string) returns (n: nat)
    ensures n == PromptWidth(prompt)
  {
    n := 0;
    var i := 0;
    while i < |prompt|
      invariant 0 <= i <= |prompt|
      invariant n == i + multiset(prompt[..i])[SPEECH_BUBBLE]
    {
      assert prompt[..i + 1] == prompt[..i] + [prompt[i]];
      if prompt[i] == SPEECH_BUBBLE {
        n := n + 2;
      } else {
        n := n + 1;
      }
      i := i + 1;
    }
    assert prompt[..i] == prompt;
  }

  /** The prompt of a user whose name has no speech bubble is the name's
      length plus 11 columns. */
  lemma PromptWidthOf(username: string)
    requires SPEECH_BUBBLE !in username
    ensures PromptWidth(Prompt(username)) == |username| + 11
  {
    var tail: string := "@chat > ";
    assert Prompt(username) == [SPEECH_BUBBLE] + [' '] + username + tail;
    assert multiset([SPEECH_BUBBLE] + [' '] + username + tail)
      == multiset([SPEECH_BUBBLE]) + multiset([' ']) + multiset(username) + multiset(tail);
    assert multiset(username)[SPEECH_BUBBLE] == 0;
    assert multiset(tail)[SPEECH_BUBBLE] == 0 by {
      assert SPEECH_BUBBLE !in tail;
    }
  }

  /** A cursor position: column and row. */
  datatype Cursor = Cursor(column: Base.u16, row: Base.u16)

  /** The input row, `4 + chat_area_height + 1`. */
  function InputRow(chatAreaHeight: Base.u16): (r: Base.u16)
    ensures chatAreaHeight + 5 < 0x1_0000 ==> r == chatAreaHeight + 5
    ensures chatAreaHeight + 5 >= 0x1_0000 ==> r == chatAreaHeight + 5 - 0x1_0000
  {
    (4 + chatAreaHeight + 1) % 0x1_0000
  }

  /** `position_cursor_for_input`: right after the prompt on the input
      row. */
  method PositionCursorForInput(username: string, chatAreaHeight: Base.u16) returns (c: Cursor)
    ensures c.row == InputRow(chatAreaHeight)
    ensures c.column == Base.Truncate16(2 + PromptWidth(Prompt(username)))
    ensures SPEECH_BUBBLE !in username && |username| + 13 < 0x1_0000 ==> c.column == |username| + 13
  {
    var width := VisiblePromptLength(Prompt(username));
    PlainCursorColumn(username);
    c := Cursor(Base.Truncate16(2 + width), InputRow(chatAreaHeight));
  }

  /** After the prompt of a name without a speech bubble the cursor is
      13 columns past the name's length, when that fits in a `u16`. */
  lemma PlainCursorColumn(username: string)
    ensures SPEECH_BUBBLE !in username && |username| + 13 < 0x1_0000 ==>
      Base.Truncate16(2 + PromptWidth(Prompt(username))) == |username| + 13
  {
    if SPEECH_BUBBLE !in username {
      PromptWidthOf(username);
    }
  }

  /** `clear_input_area`: the cursor goes where `position_cursor_for_input`
      puts it, and the blanks written cover the rest of the row up to two
      columns before its end. */
  method ClearInputArea(username: string, chatAreaHeight: Base.u16, terminalWidth: Base.u16)
    returns (c: Cursor, clearWidth: nat)
    ensures c.row == InputRow(chatAreaHeight)
    ensures c.column == Base.Truncate16(2 + PromptWidth(Prompt(username)))
    ensures terminalWidth >= 2 + PromptWidth(Prompt(username)) + 2 ==>
      2 + PromptWidth(Prompt(username)) + clearWidth + 2 == terminalWidth
    ensures terminalWidth < 2 + PromptWidth(Prompt(username)) + 2 ==> clearWidth == 0
  {
    var width := VisiblePromptLength(Prompt(username));
    var cursorPos := 2 + width;
    c := Cursor(Base.Truncate16(cursorPos), InputRow(chatAreaHeight));
    clearWidth := Base.SaturatingSub(terminalWidth, cursorPos + 2);
  }
}

=== FILE: kyber_kex.dfy ===
/** The Kyber768 key exchange (`shared/src/crypto/kyber_kex.rs`): the
    initiator publishes a fresh public key, the responder encapsulates a
    secret to it and returns the ciphertext, the initiator decapsulates; both
    run the result through a SHA-256 based derivation. */
module KyberKex {
  import opened Base
  import opened Wrappers
  import opened Primitives
  import Text

  datatype Role = Initiator | Responder

  /** `KyberKeyExchange`, the data carried inside a handshake. */
  datatype KeyExchange = KeyExchange(publicKey: Bytes, ciphertext: Option<Bytes>, timestamp: u64, role: Role)

  /** `KyberKeyExchangeManager`: our key pair once we initiated, and the
      derived secret once an exchange finished. */
  datatype KexManager = KexManager(ourKeypair: Option<KeyPair>, sharedSecret: Option<Bytes>)

  const NEW_KEX_MANAGER: KexManager := KexManager(None, None)

  /** Context label used by both sides of the handshake. */
  const SESSION_CONTEXT: Bytes := Text.Ascii("kyber-session")

  /** Fixed suffix of every derivation. */
  const KDF_LABEL: Bytes := Text.Ascii("terminal-chat-kyber-kdf")

  /** One error per message the source returns. */
  datatype KexError =
    | WrongRole
    | InitiatorHasCiphertext
    | InvalidPublicKey
    | ResponderLacksCiphertext
    | NoKeypair
    | InvalidCiphertext
    | TooOld
    | MissingPublicKey
    | PublicKeyLength
    | CiphertextLength

  /** `derive_shared_secret`: SHA-256 over the KEM secret, the context and a
      fixed label; a function of those inputs alone. */
  function DeriveSharedSecret(p: Suite, kemSecret: Bytes, context: Bytes): (r: Bytes)
    requires Sound(p)
    ensures |r| == SHA256_BYTES
  {
    p.sha256(kemSecret + context + KDF_LABEL)
  }

  /** `initiate_key_exchange`: a fresh key pair (drawn from `seed`) is stored
      and its public half published with no ciphertext. */
  function InitiateKeyExchange(p: Suite, m: KexManager, seed: Bytes, now: u64): (r: (KexManager, KeyExchange))
    ensures r.0.ourKeypair == Some(p.kemKeypair(seed)) && r.0.sharedSecret == m.sharedSecret
    ensures r.1.role == Initiator && r.1.ciphertext == None && r.1.timestamp == now
    ensures r.1.publicKey == p.kemKeypair(seed).publicKey
    ensures SecretSized(m) ==> SecretSized(r.0)
  {
    var kp := p.kemKeypair(seed);
    (m.(ourKeypair := Some(kp)), KeyExchange(kp.publicKey, None, now, Initiator))
  }

  /** `PublicKey::from_bytes` accepts exactly the bytes of the right length. */
  predicate WellSizedPublicKey(b: Bytes) {
    |b| == KYBER_PUBLIC_KEY_BYTES
  }

  /** `Ciphertext::from_bytes` accepts exactly the bytes of the right length. */
  predicate WellSizedCiphertext(b: Bytes) {
    |b| == KYBER_CIPHERTEXT_BYTES
  }

  /** `respond_to_key_exchange`: accepted exactly for initiator data without a
      ciphertext and with a well-sized public key; the secret encapsulated with
      `coins` (the library's randomness) is derived, stored and returned with
      a response carrying only the ciphertext. The key pair is not touched. */
  function RespondToKeyExchange(p: Suite, m: KexManager, initiator: KeyExchange, coins: Bytes, now: u64)
    : (r: Result<(KexManager, KeyExchange, Bytes), KexError>)
    requires Sound(p)
    ensures r.Ok? <==> initiator.role == Initiator && initiator.ciphertext.None?
                       && WellSizedPublicKey(initiator.publicKey)
    ensures initiator.role != Initiator ==> r == Err(WrongRole)
    ensures r.Ok? ==> var (m', resp, secret) := r.value;
      m'.sharedSecret == Some(secret) && m'.ourKeypair == m.ourKeypair
      && resp.role == Responder && resp.publicKey == [] && resp.timestamp == now
      && resp.ciphertext == Some(p.kemEncapsulate(initiator.publicKey, coins).ciphertext)
      && secret == DeriveSharedSecret(p, p.kemEncapsulate(initiator.publicKey, coins).sharedSecret, SESSION_CONTEXT)
    ensures r.Ok? ==> SecretSized(r.value.0)
  {
    if initiator.role != Initiator then Err(WrongRole)
    else if initiator.ciphertext.Some? then Err(InitiatorHasCiphertext)
    else if !WellSizedPublicKey(initiator.publicKey) then Err(InvalidPublicKey)
    else
      var enc := p.kemEncapsulate(initiator.publicKey, coins);
      var derived := DeriveSharedSecret(p, enc.sharedSecret, SESSION_CONTEXT);
      var response := KeyExchange([], Some(enc.ciphertext), now, Responder);
      Ok((m.(sharedSecret := Some(derived)), response, derived))
  }

  /** `complete_key_exchange`: accepted exactly for responder data with a
      well-sized ciphertext, by a manager that holds a key pair; the
      decapsulated secret is derived, stored and returned. */
  function CompleteKeyExchange(p: Suite, m: KexManager, responder: KeyExchange)
    : (r: Result<(KexManager, Bytes), KexError>)
    requires Sound(p)
    ensures r.Ok? <==> responder.role == Responder && responder.ciphertext.Some?
                       && m.ourKeypair.Some? && WellSizedCiphertext(responder.ciphertext.value)
    ensures r.Ok? ==> r.value.0.sharedSecret == Some(r.value.1) && r.value.0.ourKeypair == m.ourKeypair
    ensures r.Ok? ==> r.value.1 == DeriveSharedSecret(
      p, p.kemDecapsulate(responder.ciphertext.value, m.ourKeypair.value.secretKey), SESSION_CONTEXT)
    ensures r.Ok? ==> SecretSized(r.value.0)
  {
    if responder.role != Responder then Err(WrongRole)
    else if responder.ciphertext.None? then Err(ResponderLacksCiphertext)
    else if m.ourKeypair.None? then Err(NoKeypair)
    else if !WellSizedCiphertext(responder.ciphertext.value) then Err(InvalidCiphertext)
    else
      var ss := p.kemDecapsulate(responder.ciphertext.value, m.ourKeypair.value.secretKey);
      var derived := DeriveSharedSecret(p, ss, SESSION_CONTEXT);
      Ok((m.(sharedSecret := Some(derived)), derived))
  }

  /** A held secret is a derived one: SHA-256 sized. Every step that stores
      a secret keeps this, starting from a fresh manager. */
  predicate SecretSized(m: KexManager) {
    m.sharedSecret.Some? ==> |m.sharedSecret.value| == SHA256_BYTES
  }

  /** `get_shared_secret`: nothing before an exchange completes, and a
      32-byte secret once one has. */
  function GetSharedSecret(m: KexManager): (r: Option<Bytes>)
    ensures m == NEW_KEX_MANAGER ==> r.None?
    ensures SecretSized(m) && r.Some? ==> |r.value| == SHA256_BYTES
  {
    m.sharedSecret
  }

  /** `clear` (also run on drop): key pair and secret are gone. */
  function Clear(m: KexManager): (r: KexManager)
    ensures r.ourKeypair.None? && GetSharedSecret(r).None?
    ensures SecretSized(r)
  {
    NEW_KEX_MANAGER
  }

  /** `verify_key_exchange`: the age test (a wrapping `u64` subtraction) comes
      first; then the role-specific shape tests, in the source's order. */
  function VerifyKeyExchange(d: KeyExchange, maxAge: u64, now: u64): (r: Result<(), KexError>)
    ensures r.Ok? <==> WrappingSub(now, d.timestamp) <= maxAge && WellFormed(d)
    ensures WrappingSub(now, d.timestamp) > maxAge ==> r == Err(TooOld)
    ensures d.role == Initiator && d.publicKey == [] && WrappingSub(now, d.timestamp) <= maxAge
            ==> r == Err(MissingPublicKey)
  {
    if WrappingSub(now, d.timestamp) > maxAge then Err(TooOld)
    else match d.role
      case Initiator =>
        if d.publicKey == [] then Err(MissingPublicKey)
        else if d.ciphertext.Some? then Err(InitiatorHasCiphertext)
        else if !WellSizedPublicKey(d.publicKey) then Err(PublicKeyLength)
        else Ok(())
      case Responder =>
        if d.ciphertext.None? then Err(ResponderLacksCiphertext)
        else if !WellSizedCiphertext(d.ciphertext.value) then Err(CiphertextLength)
        else Ok(())
  }

  /** The shape `verify_key_exchange` demands of each role. */
  predicate WellFormed(d: KeyExchange) {
    match d.role
    case Initiator => d.ciphertext.None? && WellSizedPublicKey(d.publicKey)
    case Responder => d.ciphertext.Some? && WellSizedCiphertext(d.ciphertext.value)
  }

  /** Data that passed verification is accepted by the step that consumes
      it: initiator data by `respond_to_key_exchange`, responder data by
      `complete_key_exchange` of a manager holding a key pair. */
  lemma VerifiedIsAccepted(p: Suite, m: KexManager, d: KeyExchange, maxAge: u64, now: u64, coins: Bytes, t: u64)
    requires Sound(p)
    requires VerifyKeyExchange(d, maxAge, now).Ok?
    ensures d.role == Initiator ==> RespondToKeyExchange(p, m, d, coins, t).Ok?
    ensures d.role == Responder && m.ourKeypair.Some? ==> CompleteKeyExchange(p, m, d).Ok?
  {
  }

  /** Both ends of an exchange hold the same derived secret: the initiator
      publishes a key pair's public half, any responder encapsulates to it,
      and the initiator's completion recovers the responder's secret. */
  lemma KeyExchangeAgreement(p: Suite, alice: KexManager, bob: KexManager, seed: Bytes, coins: Bytes, t0: u64, t1: u64)
    requires Sound(p)
    ensures var (alice1, offer) := InitiateKeyExchange(p, alice, seed, t0);
      var reply := RespondToKeyExchange(p, bob, offer, coins, t1);
      reply.Ok?
      && var (bob1, response, bobSecret) := reply.value;
      var done := CompleteKeyExchange(p, alice1, response);
      done.Ok? && done.value.1 == bobSecret
      && GetSharedSecret(done.value.0) == GetSharedSecret(bob1) == Some(bobSecret)
  {
    var (alice1, offer) := InitiateKeyExchange(p, alice, seed, t0);
    var enc := EncapsulateTo(p, seed, coins);
    assert p.kemDecapsulate(enc.ciphertext, p.kemKeypair(seed).secretKey) == enc.sharedSecret;
  }

  /** The unit test's claims: fresh initiator data verifies, and the same
      data stamped at time 0 is too old once more than `maxAge` seconds of
      the epoch have passed. */
  lemma InitiationVerifies(p: Suite, m: KexManager, seed: Bytes, t0: u64, now: u64, maxAge: u64)
    requires Sound(p)
    requires t0 <= now && now - t0 <= maxAge
    ensures VerifyKeyExchange(InitiateKeyExchange(p, m, seed, t0).1, maxAge, now).Ok?
    ensures maxAge < now ==> VerifyKeyExchange(InitiateKeyExchange(p, m, seed, t0).1.(timestamp := 0), maxAge, now) == Err(TooOld)
  {
  }
}

=== FILE: main_menu.dfy ===
/** The start-up menu (cli/src/ui/menu/main_menu.rs): a list of entries
    with a highlighted index that the arrow keys move with wrap-around,
    Enter choosing the highlighted entry when it is enabled and Esc or
    Ctrl+C cancelling. Terminal drawing is left out; the keyboard is a
    sequence of key events. */
module MainMenu {
  import opened Wrappers
  import MenuItems

  datatype Modifier = Shift | Control | Alt | Super | Hyper | Meta

  /** The key codes the menu tells apart; every other key is `OtherKey`. */
  datatype KeyCode = Up | Down | Enter | Esc | Char(c: char) | OtherKey(name: string)

  /** A key press: its code and the exact set of modifiers held. */
  datatype KeyEvent = KeyEvent(code: KeyCode, modifiers: set<Modifier>)

  datatype MenuAction = MoveUp | MoveDown | Select | Exit | NoAction

  datatype Menu = Menu(items: seq<MenuItems.MenuItem>, selectedIndex: nat)

  predicate InRange(m: Menu) {
    m.selectedIndex < |m.items|
  }

  /** `MainMenu::new`: four entries with ids 1 to 4, of which "Join Chat
      Room" and "Settings" are not available yet; the first is highlighted. */
  function Default(): (m: Menu)
    ensures |m.items| == 4 && m.selectedIndex == 0
    ensures forall i :: 0 <= i < 4 ==> m.items[i].id == i + 1
    ensures forall i :: 0 <= i < 4 ==> (m.items[i].available <==> i == 0 || i == 3)
  {
    Menu([
      MenuItems.Available(1, "Create P2P Chat", "Start a new peer-to-peer chat session"),
      MenuItems.ComingSoon(2, "Join Chat Room", "Join an existing chat room (Coming Soon)"),
      MenuItems.ComingSoon(3, "Settings", "Configure application settings (Coming Soon)"),
      MenuItems.Available(4, "Exit", "Exit the application")
    ], 0)
  }

  /** `handle_key_event`: Up, Down, Enter and Esc count only with no
      modifier held, Ctrl+C only with Control alone; everything else is
      ignored. */
  function HandleKeyEvent(k: KeyEvent): (a: MenuAction)
    ensures a == MoveUp <==> k.code == Up && k.modifiers == {}
    ensures a == MoveDown <==> k.code == Down && k.modifiers == {}
    ensures a == Select <==> k.code == Enter && k.modifiers == {}
    ensures a == Exit <==>
      (k.code == Esc && k.modifiers == {}) || (k.code == Char('c') && k.modifiers == {Control})
  {
    if k.modifiers == {} then
      match k.code
      case Up => MoveUp
      case Down => MoveDown
      case Enter => Select
      case Esc => Exit
      case _ => NoAction
    else if k.code == Char('c') && k.modifiers == {Control} then
      Exit
    else
      NoAction
  }

  /** `move_up`: one entry up, from the first entry to the last. */
  function MoveUpIndex(m: Menu): (r: Menu)
    requires |m.items| > 0
    ensures r.items == m.items
    ensures m.selectedIndex > 0 ==> r.selectedIndex + 1 == m.selectedIndex
    ensures m.selectedIndex == 0 ==> r.selectedIndex == |m.items| - 1
    ensures InRange(m) ==> InRange(r)
  {
    if m.selectedIndex > 0 then m.(selectedIndex := m.selectedIndex - 1)
    else m.(selectedIndex := |m.items| - 1)
  }

  /** `move_down`: one entry down, from the last entry (or beyond) to the
      first. */
  function MoveDownIndex(m: Menu): (r: Menu)
    requires |m.items| > 0
    ensures r.items == m.items
    ensures InRange(r)
    ensures m.selectedIndex < |m.items| - 1 ==> r.selectedIndex == m.selectedIndex + 1
    ensures m.selectedIndex >= |m.items| - 1 ==> r.selectedIndex == 0
  {
    if m.selectedIndex < |m.items| - 1 then m.(selectedIndex := m.selectedIndex + 1)
    else m.(selectedIndex := 0)
  }

  /** Up and down undo each other on a highlighted entry. */
  lemma UpDownInverse(m: Menu)
    requires |m.items| > 0 && InRange(m)
    ensures MoveUpIndex(MoveDownIndex(m)) == m
    ensures MoveDownIndex(MoveUpIndex(m)) == m
  {
  }

  function MoveDownTimes(m: Menu, k: nat): Menu
    requires |m.items| > 0
  {
    if k == 0 then m else MoveDownIndex(MoveDownTimes(m, k - 1))
  }

  /** Pressing Down `k` times (at most once round) advances the highlight
      by `k`, wrapping past the last entry back to the first. */
  lemma {:induction false} MoveDownTimesIndex(m: Menu, k: nat)
    requires |m.items| > 0 && InRange(m) && k <= |m.items|
    ensures MoveDownTimes(m, k).items == m.items
    ensures m.selectedIndex + k < |m.items| ==> MoveDownTimes(m, k).selectedIndex == m.selectedIndex + k
    ensures m.selectedIndex + k >= |m.items| ==>
      MoveDownTimes(m, k).selectedIndex == m.selectedIndex + k - |m.items|
  {
    if k > 0 {
      MoveDownTimesIndex(m, k - 1);
    }
  }

  /** Pressing Down any number of times advances the highlight by that
      number modulo the number of entries. */
  lemma {:induction false} MoveDownTimesMod(m: Menu, k: nat)
    requires |m.items| > 0 && InRange(m)
    ensures MoveDownTimes(m, k).items == m.items
    ensures MoveDownTimes(m, k).selectedIndex == (m.selectedIndex + k) % |m.items|
  {
    if k > 0 {
      MoveDownTimesMod(m, k - 1);
      ModStep(m.selectedIndex + k - 1, |m.items|);
    }
  }

  /** One more step past `x` modulo `n`: up by one, or round to zero. */
  lemma ModStep(x: nat, n: nat)
    requires n > 0
    ensures x % n < n - 1 ==> (x + 1) % n == x % n + 1
    ensures x % n == n - 1 ==> (x + 1) % n == 0
  {
    var q, r := x / n, x % n;
    var q', r' := (x + 1) / n, (x + 1) % n;
    assert n * (q' - q) == (r + 1) - r' by {
      assert x == n * q + r && x + 1 == n * q' + r';
      assert n * (q' - q) == n * q' - n * q;
    }
    MultipleSign(n, q' - q);
    MultipleSign(n, q' - q - 1);
    assert n * (q' - q - 1) == n * (q' - q) - n;
  }

  /** A non-zero multiple of `n` is at least `n` away from zero. */
  lemma MultipleSign(n: int, d: int)
    requires n > 0
    ensures d >= 1 ==> n * d >= n
    ensures d <= -1 ==> n * d <= -n
  {
  }

  /** A full round of Down presses comes back to the starting entry. */
  lemma DownCycles(m: Menu)
    requires |m.items| > 0 && InRange(m)
    ensures MoveDownTimes(m, |m.items|) == m
  {
    MoveDownTimesIndex(m, |m.items|);
  }

  /** The `Select` arm of the menu loop: the highlighted entry's id if it
      is enabled, nothing (the loop goes on) otherwise. */
  function SelectedId(m: Menu): (r: Option<nat>)
    requires InRange(m)
    ensures r.Some? <==> m.items[m.selectedIndex].available
    ensures r.Some? ==> r.value == m.items[m.selectedIndex].id
  {
    var item := m.items[m.selectedIndex];
    if item.available then Some(item.id) else None
  }

  /** Where the menu loop is after a run of key presses. */
  datatype Outcome = Chose(id: nat) | Cancelled | Waiting(menu: Menu)

  /** `run_menu_loop` fed the key presses `events`, oldest first. */
  function Run(m: Menu, events: seq<KeyEvent>): (r: Outcome)
    requires |m.items| > 0 && InRange(m)
    ensures r.Chose? ==> exists i :: 0 <= i < |m.items| && m.items[i].available && m.items[i].id == r.id
    ensures r.Waiting? ==> r.menu.items == m.items && InRange(r.menu)
    decreases |events|
  {
    if |events| == 0 then Waiting(m)
    else
      match HandleKeyEvent(events[0])
      case MoveUp => Run(MoveUpIndex(m), events[1..])
      case MoveDown => Run(MoveDownIndex(m), events[1..])
      case Select =>
        (match SelectedId(m)
         case Some(id) => Chose(id)
         case None => Run(m, events[1..]))
      case Exit => Cancelled
      case NoAction => Run(m, events[1..])
  }

  /** From the default menu the only choices that can come out are
      "Create P2P Chat" (1) and "Exit" (4). */
  lemma DefaultChoosesOnlyEnabled(events: seq<KeyEvent>)
    ensures Run(Default(), events).Chose? ==> Run(Default(), events).id in {1, 4}
  {
    var m := Default();
    var r := Run(m, events);
    if r.Chose? {
      var i :| 0 <= i < |m.items| && m.items[i].available && m.items[i].id == r.id;
      assert i == 0 || i == 3;
    }
  }
}

=== FILE: menu_item.dfy ===
/** A main-menu entry (cli/src/ui/menu/menu_item.rs) and its three
    constructors. */
module MenuItems {

  datatype MenuItem = MenuItem(id: nat, title: string, description: string, available: bool)

  /** `MenuItem::new`: every field as given. */
  function New(id: nat, title: string, description: string, available: bool): (r: MenuItem)
    ensures r.id == id && r.title == title && r.description == description
    ensures r.available == available
  {
    MenuItem(id, title, description, available)
  }

  /** `MenuItem::available`: an enabled entry. */
  function Available(id: nat, title: string, description: string): (r: MenuItem)
    ensures r.available
    ensures r.id == id && r.title == title && r.description == description
  {
    New(id, title, description, true)
  }

  /** `MenuItem::coming_soon`: a disabled entry. */
  function ComingSoon(id: nat, title: string, description: string): (r: MenuItem)
    ensures !r.available
    ensures r.id == id && r.title == title && r.description == description
  {
    New(id, title, description, false)
  }

  /** The two helpers build the same entry except for the availability flag. */
  lemma HelpersDifferOnlyInFlag(id: nat, title: string, description: string)
    ensures Available(id, title, description).(available := false) == ComingSoon(id, title, description)
    ensures Available(id, title, description) != ComingSoon(id, title, description)
  {
  }
}

=== FILE: mesh.dfy ===
/** The mesh layer's wire vocabulary: what peers tell each other about
    themselves, the messages they exchange, and the sends a node performs.
    The shapes follow their uses in `shared/src/p2p/`; the declaring file is
    not part of this model. */
module Mesh {
  import opened Base
  import Net

  /** What a node knows about another node of the mesh. */
  datatype PeerInfo = PeerInfo(peerId: string, addr: Net.SocketAddr, username: string, lastSeen: u64)

  /** Messages carried between connected peers. A chat message is flooded:
      `ttl` bounds the hops still allowed and `seenBy` lists the nodes it
      has already passed through. */
  datatype P2PMessage =
    | ChatMessage(messageId: string, senderId: string, username: string, content: string,
                  ttl: nat, seenBy: seq<string>)
    | PeerAnnounce(peerId: string, listenAddr: Net.SocketAddr, username: string)
    | PeerListRequest(peerId: string)
    | PeerListResponse(peers: seq<PeerInfo>)
    | Handshake(peerId: string, username: string, protocolVersion: string)
    | Heartbeat(peerId: string, timestamp: u64)
    | Disconnect(peerId: string, reason: string)

  /** One message handed to one peer's connection. */
  datatype Outgoing = Outgoing(to: string, message: P2PMessage)
}

=== FILE: message_buffer.dfy ===
/** The chat UI's `MessageManager` (p2p-core/src/ui/messages.rs): a
    double-ended queue of display messages that keeps at most
    `maxMessages` of them by dropping the oldest one when an append
    overflows it. The wall-clock timestamp a message is stamped with is
    part of the message handed in. */
module MessageBuffer {
  import Base

  datatype MessageType = UserMessage | SystemMessage | ConnectionInfo | ErrorMessage

  datatype ChatMessage = ChatMessage(
    timestamp: string,
    sender: string,
    content: string,
    messageType: MessageType)

  datatype MessageManager = MessageManager(messages: seq<ChatMessage>, maxMessages: nat)

  /** The bound `add_message` keeps, given that it held before. */
  ghost predicate Bounded(m: MessageManager) {
    |m.messages| <= m.maxMessages
  }

  /** `MessageManager::new`: an empty buffer with the given capacity. */
  function New(maxMessages: nat): (r: MessageManager)
    ensures r.messages == [] && r.maxMessages == maxMessages
    ensures Bounded(r)
  {
    MessageManager([], maxMessages)
  }

  /** `add_message`: push at the back, then pop one message off the front
      if the queue has grown past its capacity. */
  function AddMessage(m: MessageManager, msg: ChatMessage): (r: MessageManager)
    ensures r.maxMessages == m.maxMessages
    ensures m.maxMessages > 0 ==> |r.messages| > 0 && r.messages[|r.messages| - 1] == msg
    ensures |m.messages| < m.maxMessages ==> r.messages == m.messages + [msg]
    ensures |m.messages| >= m.maxMessages ==>
      |r.messages| == |m.messages| && r.messages == (m.messages + [msg])[1..]
    ensures Bounded(m) ==> Bounded(r)
  {
    var pushed := m.messages + [msg];
    if |pushed| > m.maxMessages then
      MessageManager(pushed[1..], m.maxMessages)
    else
      MessageManager(pushed, m.maxMessages)
  }

  /** `clear_messages`: nothing is left, the capacity is kept. */
  function ClearMessages(m: MessageManager): (r: MessageManager)
    ensures r == New(m.maxMessages)
  {
    MessageManager([], m.maxMessages)
  }

  /** A run of `add_message` calls, oldest first. */
  function AddAll(m: MessageManager, msgs: seq<ChatMessage>): MessageManager
    decreases |msgs|
  {
    if |msgs| == 0 then m else AddAll(AddMessage(m, msgs[0]), msgs[1..])
  }

  /** If the buffer holds the newest messages of some history, it still
      does after more arrive: the one-at-a-time front pop never falls
      behind. */
  lemma {:induction false} AddAllKeepsWindow(m: MessageManager, before: seq<ChatMessage>, msgs: seq<ChatMessage>)
    requires m.messages == Base.KeepLast(before, m.maxMessages)
    ensures AddAll(m, msgs).maxMessages == m.maxMessages
    ensures AddAll(m, msgs).messages == Base.KeepLast(before + msgs, m.maxMessages)
    decreases |msgs|
  {
    if |msgs| > 0 {
      var next := AddMessage(m, msgs[0]);
      Base.KeepLastSnoc(before, msgs[0], m.maxMessages);
      assert next.messages == Base.KeepLast(before + [msgs[0]], m.maxMessages);
      AddAllKeepsWindow(next, before + [msgs[0]], msgs[1..]);
      assert before + [msgs[0]] + msgs[1..] == before + msgs;
    } else {
      assert before + msgs == before;
    }
  }

  /** A fresh (or cleared) buffer shows exactly the newest `maxMessages`
      messages added to it, in arrival order. */
  lemma ShowsNewest(maxMessages: nat, msgs: seq<ChatMessage>)
    ensures AddAll(New(maxMessages), msgs).messages == Base.KeepLast(msgs, maxMessages)
  {
    AddAllKeepsWindow(New(maxMessages), [], msgs);
    assert [] + msgs == msgs;
  }
}

=== FILE: message_crypto.dfy ===
/** End-to-end message encryption and replay protection
    (`shared/src/crypto/message_crypto.rs`): a `PlainMessage` is serialized
    and sealed under a session key into an `EncryptedMessage` envelope, and
    a per-peer sequence counter rejects replays. */
module MessageCrypto {
  import opened Base
  import opened Wrappers
  import opened Primitives
  import opened Session

  datatype MessageType =
    | Text
    | File(filename: string, size: u64)
    | System
    | Typing
    | Ack(messageId: u64)

  datatype PlainMessage = PlainMessage(content: string, sender: string, timestamp: u64, messageType: MessageType)

  /** The envelope that travels on the wire. */
  datatype EncryptedMessage = EncryptedMessage(
    senderFingerprint: string,
    encryptedContent: Bytes,
    timestamp: u64,
    messageType: MessageType,
    sequence: u64)

  /** `serde_json::to_vec` / `serde_json::from_slice` for `PlainMessage`. */
  datatype PlainCodec = PlainCodec(encode: PlainMessage -> Bytes, decode: Bytes -> Option<PlainMessage>)

  /** Deserializing what was serialized gives the message back. */
  ghost predicate Faithful(c: PlainCodec) {
    forall m :: c.decode(c.encode(m)) == Some(m)
  }

  datatype CryptoError = SessionFailure(cause: SessionError) | Malformed

  /** `MessageCrypto::encrypt_message`. The envelope is labelled with the
      fingerprint the session key records, which is the PEER's fingerprint,
      not the sender's own; timestamp and type are copied in clear. */
  function EncryptMessage(p: Suite, c: PlainCodec, k: SessionKey, m: PlainMessage, sequence: u64, nonce: Bytes)
    : (e: EncryptedMessage)
    requires |nonce| == AES_NONCE_BYTES
    ensures e.senderFingerprint == k.peerFingerprint
    ensures e.timestamp == m.timestamp && e.messageType == m.messageType && e.sequence == sequence
    ensures |e.encryptedContent| >= AES_NONCE_BYTES && e.encryptedContent[..AES_NONCE_BYTES] == nonce
  {
    EncryptedMessage(k.peerFingerprint, Encrypt(p, k, c.encode(m), nonce), m.timestamp, m.messageType, sequence)
  }

  /** `MessageCrypto::decrypt_message`: open the content, then deserialize it.
      Nothing of the envelope except its content is consulted. */
  function DecryptMessage(p: Suite, c: PlainCodec, k: SessionKey, e: EncryptedMessage)
    : (r: Result<PlainMessage, CryptoError>)
    ensures |e.encryptedContent| < AES_NONCE_BYTES ==> r == Err(SessionFailure(TooShort))
    ensures r.Ok? ==> Decrypt(p, k, e.encryptedContent).Ok?
                      && c.decode(Decrypt(p, k, e.encryptedContent).value) == Some(r.value)
  {
    match Decrypt(p, k, e.encryptedContent)
    case Err(cause) => Err(SessionFailure(cause))
    case Ok(bytes) =>
      match c.decode(bytes)
      case Some(m) => Ok(m)
      case None => Err(Malformed)
  }

  /** A message sealed under a key is recovered, in full, by anyone holding
      the same key bytes. */
  lemma DecryptEncryptMessage(p: Suite, c: PlainCodec, k: SessionKey, k': SessionKey,
                              m: PlainMessage, sequence: u64, nonce: Bytes)
    requires Sound(p) && Faithful(c) && ValidKey(k) && k'.key == k.key
    requires |nonce| == AES_NONCE_BYTES
    ensures DecryptMessage(p, c, k', EncryptMessage(p, c, k, m, sequence, nonce)) == Ok(m)
  {
    DecryptEncrypt(p, k, k', c.encode(m), nonce);
  }

  /** `encrypt_message` as its field's documentation intends: the same
      sealed content, labelled with the sender's OWN fingerprint, under
      which the receiver keeps its session with the sender. */
  function EncryptMessageAsSender(p: Suite, c: PlainCodec, k: SessionKey, m: PlainMessage, sequence: u64,
                                  nonce: Bytes, ourFingerprint: string)
    : (e: EncryptedMessage)
    requires |nonce| == AES_NONCE_BYTES
    ensures e.senderFingerprint == ourFingerprint
    ensures e.timestamp == m.timestamp && e.messageType == m.messageType && e.sequence == sequence
    ensures e.encryptedContent == EncryptMessage(p, c, k, m, sequence, nonce).encryptedContent
  {
    EncryptMessage(p, c, k, m, sequence, nonce).(senderFingerprint := ourFingerprint)
  }

  /** The relabelled envelope still opens, in full, under the same key. */
  lemma DecryptEncryptAsSender(p: Suite, c: PlainCodec, k: SessionKey, k': SessionKey,
                               m: PlainMessage, sequence: u64, nonce: Bytes, ourFingerprint: string)
    requires Sound(p) && Faithful(c) && ValidKey(k) && k'.key == k.key
    requires |nonce| == AES_NONCE_BYTES
    ensures DecryptMessage(p, c, k', EncryptMessageAsSender(p, c, k, m, sequence, nonce, ourFingerprint)) == Ok(m)
  {
    DecryptEncryptMessage(p, c, k, k', m, sequence, nonce);
  }

  /** `MessageCrypto::create_text_message` (and the system and typing
      variants): `now` is the clock. */
  function CreateMessage(sender: string, content: string, kind: MessageType, now: u64): (m: PlainMessage)
    ensures m.sender == sender && m.content == content && m.messageType == kind && m.timestamp == now
  {
    PlainMessage(content, sender, now, kind)
  }

  /** `MessageCrypto::create_typing_message`: the content is fixed. */
  function CreateTypingMessage(sender: string, now: u64): (m: PlainMessage)
    ensures m.messageType == Typing && m.content == "typing..." && m.sender == sender
  {
    CreateMessage(sender, "typing...", Typing, now)
  }

  datatype IntegrityError = TooOld | SenderMismatch

  /** `MessageCrypto::verify_message_integrity`: the age test comes first,
      then the sender test. The age is `now - timestamp` on `u64`, which
      wraps for a timestamp in the future. */
  function VerifyMessageIntegrity(e: EncryptedMessage, expectedSender: string, maxAge: u64, now: u64)
    : (r: Result<(), IntegrityError>)
    ensures r.Ok? <==> WrappingSub(now, e.timestamp) <= maxAge && e.senderFingerprint == expectedSender
    ensures r == Err(SenderMismatch) ==> WrappingSub(now, e.timestamp) <= maxAge
    ensures e.timestamp <= now && now - e.timestamp > maxAge ==> r == Err(TooOld)
  {
    if WrappingSub(now, e.timestamp) > maxAge then Err(TooOld)
    else if e.senderFingerprint != expectedSender then Err(SenderMismatch)
    else Ok(())
  }

  /** An envelope stamped in the future is rejected as too old unless it is
      within `maxAge` of wrapping all the way round. */
  lemma FutureTimestampRejected(e: EncryptedMessage, expectedSender: string, maxAge: u64, now: u64)
    requires now < e.timestamp && e.timestamp - now < U64_MODULUS - maxAge
    ensures VerifyMessageIntegrity(e, expectedSender, maxAge, now) == Err(TooOld)
  {
  }

  /** `MessageSequenceManager`: the last sequence number accepted from each
      peer, and our own outgoing counter. */
  datatype SequenceManager = SequenceManager(peerSequences: map<string, u64>, ourSequence: u64)

  const NEW_SEQUENCE_MANAGER: SequenceManager := SequenceManager(map[], 0)

  /** `MessageSequenceManager::next_sequence`: increment, then hand out. */
  function NextSequence(m: SequenceManager): (r: (SequenceManager, u64))
    requires m.ourSequence < U64_MODULUS - 1
    ensures r.1 > m.ourSequence && r.0.ourSequence == r.1
    ensures r.0.peerSequences == m.peerSequences
  {
    var n := m.ourSequence + 1;
    (m.(ourSequence := n), n)
  }

  /** `count` successive calls of `next_sequence`. */
  function NextSequences(m: SequenceManager, count: nat): (r: (SequenceManager, seq<u64>))
    requires m.ourSequence + count < U64_MODULUS
    ensures |r.1| == count
    ensures r.0.peerSequences == m.peerSequences
    decreases count
  {
    if count == 0 then (m, [])
    else
      var (m1, s) := NextSequence(m);
      var (m2, rest) := NextSequences(m1, count - 1);
      (m2, [s] + rest)
  }

  /** Outgoing sequence numbers are consecutive and never repeat: `count`
      calls hand out `ourSequence + 1` through `ourSequence + count`. */
  lemma {:induction false} NextSequencesConsecutive(m: SequenceManager, count: nat)
    requires m.ourSequence + count < U64_MODULUS
    ensures NextSequences(m, count).0.ourSequence == m.ourSequence + count
    ensures forall i :: 0 <= i < count ==> NextSequences(m, count).1[i] == m.ourSequence + i + 1
    decreases count
  {
    if count > 0 {
      var (m1, s) := NextSequence(m);
      NextSequencesConsecutive(m1, count - 1);
    }
  }

  datatype SequenceError = DuplicateOrOld

  /** `MessageSequenceManager::validate_sequence`: accepted iff the number is
      above the last one accepted from that peer (any number for a peer not
      heard from); an accepted number becomes the peer's last. A rejection
      leaves the manager unchanged, so the error carries no new state. */
  function ValidateSequence(m: SequenceManager, fp: string, sequence: u64)
    : (r: Result<SequenceManager, SequenceError>)
    ensures r.Ok? <==> (fp !in m.peerSequences || sequence > m.peerSequences[fp])
    ensures r.Ok? ==> fp in r.value.peerSequences && r.value.peerSequences[fp] == sequence
    ensures r.Ok? ==> forall q :: q != fp ==> (q in r.value.peerSequences <==> q in m.peerSequences)
    ensures r.Ok? ==> forall q :: q != fp && q in m.peerSequences ==> r.value.peerSequences[q] == m.peerSequences[q]
    ensures r.Ok? ==> r.value.ourSequence == m.ourSequence
  {
    if fp in m.peerSequences && sequence <= m.peerSequences[fp] then Err(DuplicateOrOld)
    else Ok(m.(peerSequences := m.peerSequences[fp := sequence]))
  }

  /** `MessageSequenceManager::reset_peer_sequence`: the peer is forgotten,
      so its next message is accepted whatever its number. */
  function ResetPeerSequence(m: SequenceManager, fp: string): (r: SequenceManager)
    ensures fp !in r.peerSequences
    ensures forall q, s :: q != fp ==> ValidateSequence(r, q, s).Ok? == ValidateSequence(m, q, s).Ok?
    ensures forall s :: ValidateSequence(r, fp, s).Ok?
    ensures r.ourSequence == m.ourSequence
    ensures r.peerSequences - {fp} == m.peerSequences - {fp}
  {
    m.(peerSequences := m.peerSequences - {fp})
  }

  /** Once a sequence number is accepted from a peer, that number and every
      lower one are rejected from it until the peer is reset. */
  lemma ReplayRejected(m: SequenceManager, fp: string, s: u64, t: u64)
    requires ValidateSequence(m, fp, s).Ok?
    requires t <= s
    ensures ValidateSequence(ValidateSequence(m, fp, s).value, fp, t) == Err(DuplicateOrOld)
  {
  }

  /** Feed a stream of incoming sequence numbers from one peer through the
      validator; collect the ones it accepts. */
  function Accepted(m: SequenceManager, fp: string, incoming: seq<u64>): (r: (SequenceManager, seq<u64>))
    decreases |incoming|
  {
    if |incoming| == 0 then (m, [])
    else
      match ValidateSequence(m, fp, incoming[0])
      case Ok(m1) =>
        var (m2, rest) := Accepted(m1, fp, incoming[1..]);
        (m2, [incoming[0]] + rest)
      case Err(_) => Accepted(m, fp, incoming[1..])
  }

  /** Whatever order messages arrive in, the sequence numbers accepted from
      one peer are strictly increasing and above the last one accepted
      before: no number is ever accepted twice. */
  lemma {:induction false} AcceptedStrictlyIncreasing(m: SequenceManager, fp: string, incoming: seq<u64>)
    ensures var acc := Accepted(m, fp, incoming).1;
      (forall i, j :: 0 <= i < j < |acc| ==> acc[i] < acc[j])
      && (fp in m.peerSequences ==> forall i :: 0 <= i < |acc| ==> acc[i] > m.peerSequences[fp])
    ensures |Accepted(m, fp, incoming).1| > 0 ==>
      var acc := Accepted(m, fp, incoming).1;
      var m' := Accepted(m, fp, incoming).0;
      fp in m'.peerSequences && m'.peerSequences[fp] == acc[|acc| - 1]
    ensures |Accepted(m, fp, incoming).1| == 0 ==> Accepted(m, fp, incoming).0 == m
    decreases |incoming|
  {
    if |incoming| > 0 {
      match ValidateSequence(m, fp, incoming[0])
      case Ok(m1) =>
        AcceptedStrictlyIncreasing(m1, fp, incoming[1..]);
      case Err(_) =>
        AcceptedStrictlyIncreasing(m, fp, incoming[1..]);
    }
  }

  /** The scenario of the module's unit test: a fresh manager hands out 1
      then 2; from "peer1" it accepts 1 and 2, then rejects 1. */
  lemma SequenceScenario()
    ensures NextSequences(NEW_SEQUENCE_MANAGER, 2).1 == [1, 2]
    ensures var r1 := ValidateSequence(NEW_SEQUENCE_MANAGER, "peer1", 1);
      r1.Ok? && ValidateSequence(r1.value, "peer1", 2).Ok?
      && ValidateSequence(ValidateSequence(r1.value, "peer1", 2).value, "peer1", 1).Err?
  {
    NextSequencesConsecutive(NEW_SEQUENCE_MANAGER, 2);
  }
}

=== FILE: net.dfy ===
/** Network addresses as the program uses them: a `SocketAddr` is an IP
    address (kept in its textual form) and a 16-bit port. */
module Net {
  import Text

  /** A `u16` port number. */
  type Port = x: int | 0 <= x < 0x1_0000

  datatype SocketAddr = SocketAddr(ip: string, port: Port)

  /** The `Display` form of an IPv4 socket address, "ip:port": the address,
      a colon, and the port in decimal, which reads back as the port. */
  function Show(a: SocketAddr): (s: string)
    ensures |s| > |a.ip| + 1 && s[..|a.ip|] == a.ip && s[|a.ip|] == ':'
    ensures forall i :: |a.ip| + 1 <= i < |s| ==> '0' <= s[i] <= '9'
    ensures Text.DecimalValue(s[|a.ip| + 1..]) == a.port
  {
    var digits := Text.NatToDecimal(a.port);
    var s := a.ip + ":" + digits;
    Text.DecimalRoundTrip(a.port);
    assert s[|a.ip| + 1..] == digits;
    s
  }
}

=== FILE: node.dfy ===
/** The mesh node (`shared/src/p2p/node.rs`): its configuration, its
    statistics, and the sequential core of its tasks — acting on the
    router's decision for each incoming message, reacting to a lost
    connection, admitting connections, sending chat and shutting down.
    Events for the application and messages for peers are returned. */
module Node {
  import opened Base
  import opened Wrappers
  import opened Mesh
  import Net
  import Routing
  import Peers
  import Discovery

  /** Reason reported when a connection's task ends. */
  const CONNECTION_LOST := "Connection lost"
  /** Reason sent to every peer when the node stops. */
  const SHUTDOWN_REASON := "Node shutting down"
  /** Seconds of silence after which the periodic sweep drops a peer. */
  const DEAD_PEER_TIMEOUT: u64 := 120

  datatype P2PNodeConfig = P2PNodeConfig(
    listenAddr: Net.SocketAddr,
    username: string,
    enableTls: bool,
    maxConnections: nat,
    connectionTimeoutSecs: u64,
    heartbeatIntervalSecs: u64,
    discoveryMethods: seq<Discovery.DiscoveryMethod>,
    bootstrapPeers: seq<Net.SocketAddr>)

  /** `P2PNodeConfig::default`. */
  function DefaultConfig(): (c: P2PNodeConfig)
    ensures c.listenAddr == Net.SocketAddr("127.0.0.1", 0) && c.username == "Anonymous"
    ensures c.enableTls && c.maxConnections == 50
    ensures c.connectionTimeoutSecs == 30 && c.heartbeatIntervalSecs == 30
    ensures c.discoveryMethods == Discovery.DefaultDiscoveryMethods() && c.bootstrapPeers == []
  {
    P2PNodeConfig(Net.SocketAddr("127.0.0.1", 0), "Anonymous", true, 50, 30, 30,
                  Discovery.DefaultDiscoveryMethods(), [])
  }

  /** What the node tells the application. */
  datatype P2PEvent =
    | PeerConnected(peerId: string, addr: Net.SocketAddr, username: string)
    | PeerDisconnected(peerId: string, reason: string)
    | MessageReceived(message: P2PMessage, fromPeer: string)
    | TopologyChanged(connectedPeers: seq<PeerInfo>)
    | PeersDiscovered(peers: seq<Net.SocketAddr>)
    | Error(error: string, errorPeer: Option<string>)

  /** Network statistics; counters are unbounded here. */
  datatype P2PStats = P2PStats(
    connectedPeers: nat, totalMessagesSent: nat, totalMessagesReceived: nat,
    bytesSent: nat, bytesReceived: nat, uptimeSecs: nat, discoveryAttempts: nat,
    successfulConnections: nat, failedConnections: nat)

  /** `P2PStats::default`: every counter zero. */
  const DEFAULT_STATS := P2PStats(0, 0, 0, 0, 0, 0, 0, 0, 0)

  datatype NodeState = NodeState(
    peerId: string,
    config: P2PNodeConfig,
    peers: Peers.PeerManager,
    router: Routing.Router,
    discovery: Discovery.PeerDiscovery,
    stats: P2PStats,
    actualListenAddr: Option<Net.SocketAddr>)

  /** `P2PNode::new` with the generated id `peerId`: every component is
      created for that id and the configured name, nothing is connected or
      bound yet. */
  function NewNode(config: P2PNodeConfig, peerId: string): (n: NodeState)
    ensures n.peerId == peerId && n.config == config
    ensures |n.peers.connections| == 0 && n.peers.maxConnections == config.maxConnections
    ensures n.peers.localPeerId == peerId && n.router.localPeerId == peerId
    ensures n.router.localUsername == config.username
    ensures |n.router.table.peers| == 0 && |n.router.table.cache| == 0
    ensures n.discovery.peerId == peerId && |n.discovery.discovered| == 0
    ensures n.stats == DEFAULT_STATS && n.actualListenAddr.None?
  {
    NodeState(peerId, config,
              Peers.NewManager(peerId, config.username, config.maxConnections),
              Routing.NewRouter(peerId, config.username),
              Discovery.NewDiscovery(peerId, config.username, config.listenAddr, config.discoveryMethods),
              DEFAULT_STATS, None)
  }

  /** The sends that succeed when `message` is handed to each id of `ids`
      in turn: those to ids without a connection fail and are skipped. */
  function SendAll(peers: Peers.PeerManager, ids: seq<string>, message: P2PMessage): (r: seq<Outgoing>)
    ensures |r| <= |ids|
    ensures forall o :: o in r ==> o.message == message && o.to in ids && o.to in peers.connections
    ensures forall q :: q in ids && q in peers.connections ==> Outgoing(q, message) in r
  {
    if |ids| == 0 then []
    else
      var rest := SendAll(peers, ids[1..], message);
      assert forall y :: y in ids <==> y == ids[0] || y in ids[1..];
      match Peers.SendToPeer(peers, ids[0], message)
      case Ok(o) => [o] + rest
      case Err(_) => rest
  }

  /** The message-processing task's reaction to the router's decision about
      a message from `fromPeer`. A dropped message has no effect at all; a
      delivered one becomes exactly one event; a forwarded one becomes one
      event for the local copy plus one send of the forward copy to each
      connected target; a response is sent to its peer if connected; a
      heartbeat goes to the peer table. */
  function Dispatch(peers: Peers.PeerManager, a: Routing.RoutingAction, fromPeer: string)
    : (r: (Peers.PeerManager, seq<P2PEvent>, seq<Outgoing>))
    ensures a.Drop? ==> r == (peers, [], [])
    ensures a.Deliver? ==> r == (peers, [MessageReceived(a.message, fromPeer)], [])
    ensures a.ForwardAndDeliver? ==>
      r.0 == peers && r.1 == [MessageReceived(a.original, fromPeer)]
      && (forall o :: o in r.2 ==> o.message == a.forward && o.to in a.forwardTo)
      && (forall q :: q in a.forwardTo && q in peers.connections ==> Outgoing(q, a.forward) in r.2)
    ensures a.Respond? ==>
      r.0 == peers && r.1 == []
      && r.2 == (if a.toPeer in peers.connections then [Outgoing(a.toPeer, a.message)] else [])
    ensures a.UpdateHeartbeat? ==> r == (Peers.UpdatePeerHeartbeat(peers, a.peerId), [], [])
    ensures r.0.connections == peers.connections
  {
    match a
    case Drop => (peers, [], [])
    case Deliver(m) => (peers, [MessageReceived(m, fromPeer)], [])
    case ForwardAndDeliver(original, forward, to) =>
      (peers, [MessageReceived(original, fromPeer)], SendAll(peers, to, forward))
    case Respond(to, m) =>
      (peers, [], match Peers.SendToPeer(peers, to, m) case Ok(o) => [o] case Err(_) => [])
    case UpdateHeartbeat(id) => (Peers.UpdatePeerHeartbeat(peers, id), [], [])
  }

  /** One iteration of the message-processing task for a message `m` from
      `fromPeer`; `order` is the routing table's iteration order. */
  function OnMessage(n: NodeState, m: P2PMessage, fromPeer: string, now: u64, order: seq<string>)
    : (r: (NodeState, seq<P2PEvent>, seq<Outgoing>))
    requires Enumerates(order, n.router.table.peers.Keys)
    ensures var (router, action) := Routing.ProcessMessage(n.router, m, fromPeer, now, order);
      r.0 == n.(router := router) && (r.1, r.2) == (Dispatch(n.peers, action, fromPeer).1, Dispatch(n.peers, action, fromPeer).2)
  {
    var (router, action) := Routing.ProcessMessage(n.router, m, fromPeer, now, order);
    var (peers, events, sends) := Dispatch(n.peers, action, fromPeer);
    (n.(router := router, peers := peers), events, sends)
  }

  /** A chat message relayed by a node reaches each connected neighbour at
      most once, never the neighbour it came from nor a node it has passed
      through, and always with one hop less; the application sees it once. */
  lemma {:induction false} RelayIsLoopFree(n: NodeState, m: P2PMessage, fromPeer: string, now: u64, order: seq<string>)
    requires m.ChatMessage?
    requires Enumerates(order, n.router.table.peers.Keys)
    ensures var r := OnMessage(n, m, fromPeer, now, order);
      |r.1| <= 1
      && forall o :: o in r.2 ==>
           o.to != fromPeer && o.to in n.peers.connections && o.to in n.router.table.peers
           && o.message.ChatMessage? && o.to !in o.message.seenBy && o.message.ttl == m.ttl - 1
  {
    var (router, action) := Routing.ProcessMessage(n.router, m, fromPeer, now, order);
    if action.ForwardAndDeliver? {
      assert Routing.Forwarded(n.router, m, fromPeer, action);
      var sends := Dispatch(n.peers, action, fromPeer).2;
      forall o | o in sends
        ensures o.to != fromPeer && o.to in n.router.table.peers && o.to in n.peers.connections
      {
        assert o.to in action.forwardTo;
      }
    }
  }

  /** Connections are admitted under fresh temporary ids while the routing
      table learns the ids peers announce. When the two sets of ids share
      nothing, a relayed chat message is handed to no connection at all:
      every forward fails its lookup. */
  lemma {:induction false} ForwardingNeedsSharedIds(n: NodeState, m: P2PMessage, fromPeer: string, now: u64,
                                                    order: seq<string>)
    requires m.ChatMessage?
    requires Enumerates(order, n.router.table.peers.Keys)
    requires forall q :: q in n.router.table.peers ==> q !in n.peers.connections
    ensures OnMessage(n, m, fromPeer, now, order).2 == []
  {
    var (router, action) := Routing.ProcessMessage(n.router, m, fromPeer, now, order);
    if action.ForwardAndDeliver? {
      assert Routing.Forwarded(n.router, m, fromPeer, action);
      SendAllToStrangers(n.peers, action.forwardTo, action.forward);
    }
  }

  /** Handing a message to ids none of which has a connection sends
      nothing. */
  lemma {:induction false} SendAllToStrangers(peers: Peers.PeerManager, ids: seq<string>, message: P2PMessage)
    requires forall i :: 0 <= i < |ids| ==> ids[i] !in peers.connections
    ensures SendAll(peers, ids, message) == []
    decreases |ids|
  {
    if |ids| > 0 {
      SendAllToStrangers(peers, ids[1..], message);
    }
  }

  /** The message-processing task's reaction to a closed connection: the
      peer is removed (and sent a goodbye if still listed) and the
      application is told the connection was lost. */
  function OnConnectionLost(n: NodeState, peerId: string): (r: (NodeState, seq<P2PEvent>, seq<Outgoing>))
    ensures peerId !in r.0.peers.connections
    ensures forall q :: q != peerId ==> (q in r.0.peers.connections <==> q in n.peers.connections)
    ensures r.1 == [PeerDisconnected(peerId, CONNECTION_LOST)]
    ensures |r.2| <= 1 && (forall o :: o in r.2 ==> o.message == Disconnect(o.to, CONNECTION_LOST))
    ensures r.0.router == n.router
  {
    var (peers, sends) := Peers.RemovePeer(n.peers, peerId, CONNECTION_LOST);
    (n.(peers := peers), [PeerDisconnected(peerId, CONNECTION_LOST)], sends)
  }

  /** `handle_incoming_connection` and `connect_to_peer` after the
      transport is up: the peer is admitted under the temporary id `tempId`
      with the name "Peer@<addr>" and protocol "1.0", and the application is
      told; a refused peer produces no event. */
  function AdmitConnection(n: NodeState, tempId: string, addr: Net.SocketAddr, now: u64)
    : (r: (NodeState, seq<P2PEvent>))
    ensures var name := "Peer@" + Net.Show(addr);
      match Peers.AddPeer(n.peers, tempId, addr, name, "1.0", now)
      case Ok(peers) => r == (n.(peers := peers), [PeerConnected(tempId, addr, name)])
      case Err(_) => r == (n, [])
    ensures Peers.Bounded(n.peers) ==> Peers.Bounded(r.0.peers)
  {
    var name := "Peer@" + Net.Show(addr);
    match Peers.AddPeer(n.peers, tempId, addr, name, "1.0", now)
    case Ok(peers) => (n.(peers := peers), [PeerConnected(tempId, addr, name)])
    case Err(_) => (n, [])
  }

  /** `P2PNode::send_chat_message`: a fresh chat message with id
      `messageId` is broadcast to every connection, and exactly one more
      message is counted as sent. */
  function SendChatMessage(n: NodeState, content: string, messageId: string, order: seq<string>)
    : (r: (NodeState, seq<Outgoing>))
    requires Enumerates(order, n.peers.connections.Keys)
    ensures r.0.stats == n.stats.(totalMessagesSent := n.stats.totalMessagesSent + 1)
    ensures r.0.peers == n.peers && r.0.router == n.router
    ensures |r.1| == |n.peers.connections|
    ensures forall q :: q in n.peers.connections <==>
      Outgoing(q, Routing.CreateChatMessage(n.router, content, messageId)) in r.1
  {
    var m := Routing.CreateChatMessage(n.router, content, messageId);
    var sends := Peers.BroadcastMessage(n.peers, m, order);
    (n.(stats := n.stats.(totalMessagesSent := n.stats.totalMessagesSent + 1)), sends)
  }

  /** `P2PNode::stop`: every connection is told this node is leaving. */
  function Stop(n: NodeState, order: seq<string>): (r: seq<Outgoing>)
    requires Enumerates(order, n.peers.connections.Keys)
    ensures |r| == |n.peers.connections|
    ensures forall q :: q in n.peers.connections <==> Outgoing(q, Disconnect(n.peerId, SHUTDOWN_REASON)) in r
  {
    Peers.BroadcastMessage(n.peers, Disconnect(n.peerId, SHUTDOWN_REASON), order)
  }

  /** The periodic sweep: peers silent for `DEAD_PEER_TIMEOUT` seconds go. */
  function Sweep(n: NodeState, now: u64, order: seq<string>): (r: (NodeState, seq<Outgoing>))
    requires Enumerates(order, n.peers.connections.Keys)
    ensures forall q :: q in r.0.peers.connections <==>
      q in n.peers.connections && Peers.IsAlive(n.peers.connections[q], DEAD_PEER_TIMEOUT, now)
    ensures r.0.router == n.router && r.0.stats == n.stats
  {
    var (peers, sends) := Peers.CleanupDeadConnections(n.peers, DEAD_PEER_TIMEOUT, now, order);
    (n.(peers := peers), sends)
  }

  /** `P2PNode::get_stats`: the stored counters with the live connection
      count. */
  function GetStats(n: NodeState): (s: P2PStats)
    ensures s.connectedPeers == |n.peers.connections|
    ensures s.(connectedPeers := n.stats.connectedPeers) == n.stats
  {
    n.stats.(connectedPeers := |n.peers.connections|)
  }

  /** `P2PNode::listen_addr`: the bound address once known, else the
      configured one. */
  function ListenAddr(n: NodeState): (a: Net.SocketAddr)
    ensures n.actualListenAddr.Some? ==> a == n.actualListenAddr.value
    ensures n.actualListenAddr.None? ==> a == n.config.listenAddr
  {
    n.actualListenAddr.GetOr(n.config.listenAddr)
  }
}

=== FILE: peer.dfy ===
/** Peer connections (`shared/src/p2p/peer.rs`): the table of live
    connections bounded by `maxConnections`, and the liveness sweep. A
    connection's channel and task are abstracted to the `Peer` record; what
    is written to a connection is returned as `Outgoing` values. */
module Peers {
  import opened Base
  import opened Wrappers
  import opened Mesh
  import Net

  /** Reason sent to peers dropped by the liveness sweep. */
  const TIMEOUT_REASON := "Connection timeout"

  /** A connected peer. */
  datatype Peer = Peer(peerId: string, addr: Net.SocketAddr, username: string,
                       connectedAt: u64, lastHeartbeat: u64, protocolVersion: string)

  /** `Peer::new`: connected and last heard from at `now`. */
  function NewPeer(peerId: string, addr: Net.SocketAddr, username: string, protocolVersion: string, now: u64)
    : (p: Peer)
    ensures p.peerId == peerId && p.addr == addr && p.username == username
    ensures p.protocolVersion == protocolVersion
    ensures p.connectedAt == now && p.lastHeartbeat == now
  {
    Peer(peerId, addr, username, now, now, protocolVersion)
  }

  /** `Peer::update_heartbeat`. */
  function UpdateHeartbeatAt(p: Peer, now: u64): (r: Peer)
    ensures r.lastHeartbeat == now && r.(lastHeartbeat := p.lastHeartbeat) == p
  {
    p.(lastHeartbeat := now)
  }

  /** `Peer::is_alive`: heard from less than `timeout` seconds ago, the
      elapsed time being a wrapping u64 subtraction. */
  predicate IsAlive(p: Peer, timeout: u64, now: u64): (ok: bool)
    ensures ok ==> timeout > 0
    ensures now == p.lastHeartbeat ==> (ok <==> timeout > 0)
  {
    WrappingSub(now, p.lastHeartbeat) < timeout
  }

  /** A peer is alive right after it was heard from, for any positive
      timeout, and is dead once `timeout` seconds have passed. */
  lemma {:induction false} AliveWindow(p: Peer, timeout: u64, now: u64)
    requires p.lastHeartbeat <= now
    ensures IsAlive(p, timeout, now) <==> now - p.lastHeartbeat < timeout
    ensures 0 < timeout ==> IsAlive(UpdateHeartbeatAt(p, now), timeout, now)
  {
    assert WrappingSub(now, now) == 0;
  }

  /** `Peer::to_peer_info`: the heartbeat is reported as last seen. */
  function ToPeerInfo(p: Peer): (i: PeerInfo)
    ensures i.peerId == p.peerId && i.addr == p.addr && i.username == p.username
    ensures i.lastSeen == p.lastHeartbeat
  {
    PeerInfo(p.peerId, p.addr, p.username, p.lastHeartbeat)
  }

  /** The connection table of one node. */
  datatype PeerManager = PeerManager(localPeerId: string, localUsername: string,
                                     connections: map<string, Peer>, maxConnections: nat)

  datatype PeerError = MaxConnectionsReached | NotFound(peerId: string)

  /** `PeerManager::new`: no connections yet. */
  function NewManager(localPeerId: string, localUsername: string, maxConnections: nat): (m: PeerManager)
    ensures |m.connections| == 0 && m.maxConnections == maxConnections
    ensures m.localPeerId == localPeerId && m.localUsername == localUsername
  {
    PeerManager(localPeerId, localUsername, map[], maxConnections)
  }

  /** Every connection is stored under its peer's own id. */
  predicate Keyed(m: PeerManager) {
    forall q :: q in m.connections ==> m.connections[q].peerId == q
  }

  /** The table never holds more connections than allowed. */
  predicate Bounded(m: PeerManager) {
    |m.connections| <= m.maxConnections
  }

  /** `PeerManager::add_peer`. A peer already connected is accepted without
      any change; a full table refuses the new peer; otherwise exactly that
      peer is added, connected at `now`. */
  function AddPeer(m: PeerManager, peerId: string, addr: Net.SocketAddr, username: string,
                   protocolVersion: string, now: u64)
    : (r: Result<PeerManager, PeerError>)
    ensures peerId in m.connections ==> r == Ok(m)
    ensures peerId !in m.connections && |m.connections| >= m.maxConnections ==> r == Err(MaxConnectionsReached)
    ensures r.Ok? && peerId !in m.connections ==>
      r.value.connections == m.connections[peerId := NewPeer(peerId, addr, username, protocolVersion, now)]
      && |r.value.connections| == |m.connections| + 1
    ensures r.Ok? ==> r.value.maxConnections == m.maxConnections && peerId in r.value.connections
    ensures Bounded(m) && r.Ok? ==> Bounded(r.value)
    ensures Keyed(m) && r.Ok? ==> Keyed(r.value)
  {
    if peerId in m.connections then Ok(m)
    else if |m.connections| >= m.maxConnections then Err(MaxConnectionsReached)
    else Ok(m.(connections := m.connections[peerId := NewPeer(peerId, addr, username, protocolVersion, now)]))
  }

  /** The goodbye a removed connection is sent: it names the REMOTE peer's
      id, as `PeerConnection::disconnect` does. */
  function Goodbye(p: Peer, reason: string): (o: Outgoing)
    ensures o.to == p.peerId && o.message == Disconnect(p.peerId, reason)
  {
    Outgoing(p.peerId, Disconnect(p.peerId, reason))
  }

  /** `PeerManager::remove_peer`: removes only that id; a connected peer is
      sent a goodbye first. */
  function RemovePeer(m: PeerManager, peerId: string, reason: string): (r: (PeerManager, seq<Outgoing>))
    ensures peerId !in r.0.connections
    ensures forall q :: q != peerId ==> (q in r.0.connections <==> q in m.connections)
    ensures forall q :: q in r.0.connections ==> r.0.connections[q] == m.connections[q]
    ensures r.0.maxConnections == m.maxConnections
    ensures r.1 == if peerId in m.connections then [Goodbye(m.connections[peerId], reason)] else []
  {
    if peerId in m.connections then
      (m.(connections := m.connections - {peerId}), [Goodbye(m.connections[peerId], reason)])
    else (m, [])
  }

  /** `PeerManager::send_to_peer`: fails for an id with no connection. */
  function SendToPeer(m: PeerManager, peerId: string, message: P2PMessage): (r: Result<Outgoing, PeerError>)
    ensures r.Ok? <==> peerId in m.connections
    ensures r.Ok? ==> r.value == Outgoing(peerId, message)
    ensures r.Err? ==> r.error == NotFound(peerId)
  {
    if peerId in m.connections then Ok(Outgoing(peerId, message)) else Err(NotFound(peerId))
  }

  /** `message` addressed to each id of `ids`, in order. */
  function SendEach(ids: seq<string>, message: P2PMessage): (r: seq<Outgoing>)
    ensures |r| == |ids|
    ensures forall i :: 0 <= i < |ids| ==> r[i] == Outgoing(ids[i], message)
  {
    seq(|ids|, i requires 0 <= i < |ids| => Outgoing(ids[i], message))
  }

  /** `PeerManager::broadcast_message`: one copy per connection, in the
      table's iteration order `order`. */
  function BroadcastMessage(m: PeerManager, message: P2PMessage, order: seq<string>): (r: seq<Outgoing>)
    requires Enumerates(order, m.connections.Keys)
    ensures |r| == |m.connections|
    ensures forall q :: q in m.connections <==> Outgoing(q, message) in r
    ensures forall o :: o in r ==> o.message == message
  {
    EnumerationLength(order, m.connections.Keys);
    var r := SendEach(order, message);
    assert forall q :: q in m.connections ==> Outgoing(q, message) in r by {
      forall q | q in m.connections ensures Outgoing(q, message) in r {
        var i :| 0 <= i < |order| && order[i] == q;
        assert r[i] == Outgoing(q, message);
      }
    }
    r
  }

  /** `PeerManager::get_connected_peers`. */
  function GetConnectedPeers(m: PeerManager): (r: set<PeerInfo>)
    ensures forall q :: q in m.connections ==> ToPeerInfo(m.connections[q]) in r
    ensures forall i :: i in r ==> exists q :: q in m.connections && i == ToPeerInfo(m.connections[q])
  {
    set q | q in m.connections :: ToPeerInfo(m.connections[q])
  }

  /** `PeerManager::connection_count`. */
  function ConnectionCount(m: PeerManager): (n: nat)
    ensures n == |m.connections.Keys|
  {
    |m.connections|
  }

  /** `PeerManager::is_peer_connected`. */
  predicate IsPeerConnected(m: PeerManager, peerId: string): (ok: bool)
    ensures ok ==> ConnectionCount(m) > 0
    ensures forall msg :: (SendToPeer(m, peerId, msg).Ok? <==> ok)
    ensures Keyed(m) ==> (ok <==> exists i :: i in GetConnectedPeers(m) && i.peerId == peerId)
  {
    if peerId in m.connections then
      assert ToPeerInfo(m.connections[peerId]) in GetConnectedPeers(m);
      true
    else false
  }

  /** The ids of `order`, in order, whose peers are dead at `now`. */
  function DeadPeers(conns: map<string, Peer>, order: seq<string>, timeout: u64, now: u64): (r: seq<string>)
    requires forall i :: 0 <= i < |order| ==> order[i] in conns
    ensures forall x :: x in r ==> x in conns
    ensures forall x :: x in r <==> x in order && !IsAlive(conns[x], timeout, now)
  {
    if |order| == 0 then []
    else
      var rest := DeadPeers(conns, order[1..], timeout, now);
      assert forall y :: y in order <==> y == order[0] || y in order[1..];
      if !IsAlive(conns[order[0]], timeout, now) then [order[0]] + rest else rest
  }

  /** A goodbye for each dead peer of `dead`, in order. */
  function Goodbyes(conns: map<string, Peer>, dead: seq<string>, reason: string): (r: seq<Outgoing>)
    requires forall i :: 0 <= i < |dead| ==> dead[i] in conns
    ensures |r| == |dead|
    ensures forall i :: 0 <= i < |dead| ==> r[i] == Goodbye(conns[dead[i]], reason)
    ensures forall q :: q in dead ==> Goodbye(conns[q], reason) in r
  {
    var r := seq(|dead|, i requires 0 <= i < |dead| => Goodbye(conns[dead[i]], reason));
    assert forall q :: q in dead ==> Goodbye(conns[q], reason) in r by {
      forall q | q in dead ensures Goodbye(conns[q], reason) in r {
        var i :| 0 <= i < |dead| && dead[i] == q;
        assert r[i] == Goodbye(conns[q], reason);
      }
    }
    r
  }

  /** The connections of `conns` alive at `now`. */
  function Alive(conns: map<string, Peer>, timeout: u64, now: u64): (r: map<string, Peer>)
    ensures forall q :: q in r <==> q in conns && IsAlive(conns[q], timeout, now)
    ensures forall q :: q in r ==> r[q] == conns[q]
    ensures |r| <= |conns|
  {
    var r := map q | q in conns && IsAlive(conns[q], timeout, now) :: conns[q];
    assert r.Keys <= conns.Keys;
    SubsetCard(r.Keys, conns.Keys);
    r
  }

  /** `PeerManager::cleanup_dead_connections`: removes exactly the peers
      not heard from for `timeout` seconds and sends each of them a
      goodbye, in the table's iteration order `order`. */
  function CleanupDeadConnections(m: PeerManager, timeout: u64, now: u64, order: seq<string>)
    : (r: (PeerManager, seq<Outgoing>))
    requires Enumerates(order, m.connections.Keys)
    ensures forall q :: q in r.0.connections <==> q in m.connections && IsAlive(m.connections[q], timeout, now)
    ensures forall q :: q in r.0.connections ==> r.0.connections[q] == m.connections[q]
    ensures r.0.maxConnections == m.maxConnections
    ensures forall q :: q in m.connections && !IsAlive(m.connections[q], timeout, now) ==>
                        Goodbye(m.connections[q], TIMEOUT_REASON) in r.1
    ensures Keyed(m) ==> forall o :: o in r.1 ==>
      o.to in m.connections && !IsAlive(m.connections[o.to], timeout, now)
      && o == Goodbye(m.connections[o.to], TIMEOUT_REASON)
    ensures Bounded(m) ==> Bounded(r.0)
    ensures Keyed(m) ==> Keyed(r.0)
  {
    var dead := DeadPeers(m.connections, order, timeout, now);
    var goodbyes := Goodbyes(m.connections, dead, TIMEOUT_REASON);
    forall o | Keyed(m) && o in goodbyes
      ensures o.to in m.connections && !IsAlive(m.connections[o.to], timeout, now)
      ensures o == Goodbye(m.connections[o.to], TIMEOUT_REASON)
    {
      var i :| 0 <= i < |goodbyes| && goodbyes[i] == o;
      assert o == Goodbye(m.connections[dead[i]], TIMEOUT_REASON);
      assert dead[i] in dead;
    }
    (m.(connections := Alive(m.connections, timeout, now)), goodbyes)
  }

  /** `PeerManager::update_peer_heartbeat`: it looks the peer up but
      writes nothing, so the table is returned unchanged. */
  function UpdatePeerHeartbeat(m: PeerManager, peerId: string): (r: PeerManager)
    ensures r.connections == m.connections && r.maxConnections == m.maxConnections
  {
    m
  }

  /** Consequence of the no-op heartbeat update: however many heartbeats a
      peer has sent since it connected, once `timeout` seconds have passed
      since its connection the liveness sweep removes it. */
  lemma {:induction false} HeartbeatsDoNotKeepAlive(m: PeerManager, peerId: string, beats: nat,
                                                    timeout: u64, now: u64, order: seq<string>)
    requires peerId in m.connections
    requires m.connections[peerId].lastHeartbeat <= now && now - m.connections[peerId].lastHeartbeat >= timeout
    requires Enumerates(order, m.connections.Keys)
    ensures var m' := Repeatedly(m, peerId, beats);
      Enumerates(order, m'.connections.Keys)
      && peerId !in CleanupDeadConnections(m', timeout, now, order).0.connections
  {
    RepeatedlyUnchanged(m, peerId, beats);
  }

  /** `beats` heartbeats from `peerId` processed in a row. */
  function Repeatedly(m: PeerManager, peerId: string, beats: nat): PeerManager
    decreases beats
  {
    if beats == 0 then m else UpdatePeerHeartbeat(Repeatedly(m, peerId, beats - 1), peerId)
  }

  lemma {:induction false} RepeatedlyUnchanged(m: PeerManager, peerId: string, beats: nat)
    ensures Repeatedly(m, peerId, beats).connections == m.connections
    decreases beats
  {
    if beats > 0 { RepeatedlyUnchanged(m, peerId, beats - 1); }
  }

  /** The evidently intended `update_peer_heartbeat`: the peer's record, if
      it has one, is stamped with the time the heartbeat arrived. */
  function UpdatePeerHeartbeatAt(m: PeerManager, peerId: string, now: u64): (r: PeerManager)
    ensures r.maxConnections == m.maxConnections && r.connections.Keys == m.connections.Keys
    ensures peerId in m.connections ==> r.connections[peerId] == UpdateHeartbeatAt(m.connections[peerId], now)
    ensures forall q :: q in m.connections && q != peerId ==> r.connections[q] == m.connections[q]
    ensures Keyed(m) ==> Keyed(r)
    ensures Bounded(m) ==> Bounded(r)
  {
    if peerId in m.connections then
      m.(connections := m.connections[peerId := UpdateHeartbeatAt(m.connections[peerId], now)])
    else m
  }

  /** With the heartbeat recorded, a peer heard from less than `timeout`
      seconds before the sweep survives it, however long ago it
      connected. */
  lemma HeartbeatKeepsAlive(m: PeerManager, peerId: string, beatAt: u64, timeout: u64, now: u64, order: seq<string>)
    requires peerId in m.connections
    requires beatAt <= now && now - beatAt < timeout
    requires Enumerates(order, m.connections.Keys)
    ensures var m' := UpdatePeerHeartbeatAt(m, peerId, beatAt);
      Enumerates(order, m'.connections.Keys)
      && peerId in CleanupDeadConnections(m', timeout, now, order).0.connections
  {
    var m' := UpdatePeerHeartbeatAt(m, peerId, beatAt);
    assert m'.connections[peerId].lastHeartbeat == beatAt;
    assert IsAlive(m'.connections[peerId], timeout, now);
  }

  /** A table filled through `AddPeer` stays within its bound, and a full
      table refuses a newcomer without changing. */
  lemma {:induction false} TableStaysBounded(m: PeerManager, peerId: string, addr: Net.SocketAddr,
                                             username: string, pv: string, now: u64)
    requires Bounded(m)
    ensures var r := AddPeer(m, peerId, addr, username, pv, now);
      (r.Ok? ==> Bounded(r.value) && ConnectionCount(r.value) <= m.maxConnections)
      && (r.Err? ==> ConnectionCount(m) == m.maxConnections && peerId !in m.connections)
  {
  }
}

=== FILE: port_config.dfy ===
/** Network defaults and the port-selection rule (`shared/src/config/mod.rs`).
    Whether a port can be bound, and which local address the operating
    system reports, are parameters. */
module PortConfig {
  import opened Wrappers
  import Net
  import Text

  const DEFAULT_HOST_LOCALHOST := "127.0.0.1"
  const DEFAULT_HOST_WILDCARD := "0.0.0.0"
  const FIXED_PORT: Net.Port := 40000
  const FALLBACK_PORT_START: Net.Port := 40001
  const FALLBACK_PORT_END: Net.Port := 40010
  const TLS_ENABLED := true
  const MULTICAST_ADDR := "224.0.0.1:9999"
  const CONNECTION_TIMEOUT: nat := 30
  const HEARTBEAT_INTERVAL: nat := 60
  const MAX_CONNECTIONS: nat := 50

  /** The error reported when every candidate port is taken. */
  const NO_PORT_ERROR := "No available ports in range 40000-40010"

  datatype HostOption = Localhost | LocalNetwork | Wildcard

  /** The address prefixes accepted as a private network. */
  predicate PrivatePrefix(ip: string) {
    Text.StartsWith(ip, "192.168.") || Text.StartsWith(ip, "10.") || Text.StartsWith(ip, "172.")
  }

  /** `get_local_network_ip`, given the local address the socket probe
      reported (None when the probe failed): kept only if private. */
  function LocalNetworkIp(probed: Option<string>): (r: Option<string>)
    ensures r.Some? <==> probed.Some? && PrivatePrefix(probed.value)
    ensures r.Some? ==> r.value == probed.value
  {
    if probed.Some? && PrivatePrefix(probed.value) then probed else None
  }

  /** `HostOption::to_ip`: loopback, the probed private address with a
      loopback fallback, or the wildcard address. */
  function ToIp(h: HostOption, probed: Option<string>): (ip: string)
    ensures h.Localhost? ==> ip == DEFAULT_HOST_LOCALHOST
    ensures h.Wildcard? ==> ip == DEFAULT_HOST_WILDCARD
    ensures h.LocalNetwork? ==>
      ip == (if probed.Some? && PrivatePrefix(probed.value) then probed.value else DEFAULT_HOST_LOCALHOST)
  {
    match h
    case Localhost => DEFAULT_HOST_LOCALHOST
    case LocalNetwork => LocalNetworkIp(probed).GetOr(DEFAULT_HOST_LOCALHOST)
    case Wildcard => DEFAULT_HOST_WILDCARD
  }

  /** A local-network host is always loopback or a private address. */
  lemma LocalNetworkIsPrivateOrLoopback(probed: Option<string>)
    ensures var ip := ToIp(LocalNetwork, probed); ip == DEFAULT_HOST_LOCALHOST || PrivatePrefix(ip)
  {
  }

  /** `find_available_port` with `is_port_available` as the predicate
      `available`: the fixed port if free, else the first free fallback
      port, else an error. */
  method FindAvailablePort(available: Net.Port -> bool) returns (r: Result<Net.Port, string>)
    ensures available(FIXED_PORT) ==> r == Ok(FIXED_PORT)
    ensures r.Ok? ==> FIXED_PORT <= r.value <= FALLBACK_PORT_END && available(r.value)
    ensures r.Ok? ==> forall q: Net.Port :: FIXED_PORT <= q < r.value ==> !available(q)
    ensures r.Err? <==> forall q: Net.Port :: FIXED_PORT <= q <= FALLBACK_PORT_END ==> !available(q)
    ensures r.Err? ==> r.error == NO_PORT_ERROR
  {
    if available(FIXED_PORT) {
      return Ok(FIXED_PORT);
    }
    var port: int := FALLBACK_PORT_START;
    while port <= FALLBACK_PORT_END
      invariant FALLBACK_PORT_START <= port <= FALLBACK_PORT_END + 1
      invariant forall q: Net.Port :: FIXED_PORT <= q < port ==> !available(q)
      decreases FALLBACK_PORT_END - port
    {
      if available(port) {
        return Ok(port);
      }
      port := port + 1;
    }
    return Err(NO_PORT_ERROR);
  }
}

=== FILE: primitives.dfy ===
/** The cryptographic building blocks the program takes from libraries
    (`sha2`, `pqcrypto-kyber` Kyber768, `pqcrypto-dilithium` Dilithium2,
    `aes-gcm` AES-256-GCM). The model does not define them: every operation
    that uses one receives a `Suite` of functions, and the properties the
    program relies on are collected in `Sound`, which lemmas take as a
    precondition. */
module Primitives {
  import opened Base
  import opened Wrappers

  /** Sizes fixed by Kyber768 (round 3 parameter set). */
  const KYBER_PUBLIC_KEY_BYTES: nat := 1184
  const KYBER_CIPHERTEXT_BYTES: nat := 1088
  const SHA256_BYTES: nat := 32
  const AES_KEY_BYTES: nat := 32
  const AES_NONCE_BYTES: nat := 12

  datatype KeyPair = KeyPair(publicKey: Bytes, secretKey: Bytes)

  /** What `pqcrypto_kyber::kyber768::encapsulate` returns. */
  datatype Encapsulation = Encapsulation(sharedSecret: Bytes, ciphertext: Bytes)

  /** `DilithiumVerifier::verify` returns `Ok(true)`, `Ok(false)` or an
      error (a public key or signed message of the wrong shape). */
  datatype VerifyOutcome = Verified(valid: bool) | VerifyError

  /** The library functions, each a deterministic function of its inputs;
      the randomness a library draws internally is an explicit `seed` or
      `coins` argument. */
  datatype Suite = Suite(
    sha256: Bytes -> Bytes,
    kemKeypair: Bytes -> KeyPair,
    kemEncapsulate: (Bytes, Bytes) -> Encapsulation,
    kemDecapsulate: (Bytes, Bytes) -> Bytes,
    aeadSeal: (Bytes, Bytes, Bytes) -> Bytes,
    aeadOpen: (Bytes, Bytes, Bytes) -> Option<Bytes>,
    sigKeypair: Bytes -> KeyPair,
    sigSign: (Bytes, Bytes) -> Bytes,
    sigVerify: (Bytes, Bytes, Bytes) -> VerifyOutcome
  )

  /** `kemEncapsulate(pk, coins)` with `pk` the public key of `kemKeypair(seed)`. */
  function EncapsulateTo(p: Suite, seed: Bytes, coins: Bytes): Encapsulation {
    p.kemEncapsulate(p.kemKeypair(seed).publicKey, coins)
  }

  /** The promises of the libraries that the program's correctness rests on:
      SHA-256 digests are 32 bytes; Kyber768 keys and ciphertexts have their
      fixed sizes and decapsulation recovers the encapsulated secret;
      AES-256-GCM decryption under the same key and nonce inverts
      encryption; Dilithium2 signatures are non-empty and verify under the
      matching public key. */
  ghost predicate Sound(p: Suite) {
    (forall x :: |p.sha256(x)| == SHA256_BYTES)
    && (forall seed :: |p.kemKeypair(seed).publicKey| == KYBER_PUBLIC_KEY_BYTES)
    && (forall pk, coins :: |p.kemEncapsulate(pk, coins).ciphertext| == KYBER_CIPHERTEXT_BYTES)
    && (forall seed, coins ::
          p.kemDecapsulate(EncapsulateTo(p, seed, coins).ciphertext, p.kemKeypair(seed).secretKey)
          == EncapsulateTo(p, seed, coins).sharedSecret)
    && (forall k, n, m :: |k| == AES_KEY_BYTES && |n| == AES_NONCE_BYTES ==>
          p.aeadOpen(k, n, p.aeadSeal(k, n, m)) == Some(m))
    && (forall sk, m :: |p.sigSign(sk, m)| > 0)
    && (forall seed, m ::
          p.sigVerify(m, p.sigSign(p.sigKeypair(seed).secretKey, m), p.sigKeypair(seed).publicKey)
          == Verified(true))
  }
}

=== FILE: relay_handler.dfy ===
/** One relay-server connection (`server/src/handler/mod.rs`): the welcome,
    the first line taken as the username, later lines relayed as chat, and
    the leave notice when the connection ends. What goes out is a list of
    deliveries; the channels and sockets behind them are left out. */
module RelayHandler {
  import opened Base
  import opened Wrappers
  import Net
  import Text
  import Validators
  import opened RelayMessage
  import opened RelayState

  datatype Delivery = Delivery(to: ClientId, message: Message)

  const WELCOME := "Welcome to the chat! Please send your username to join."
  const INVALID_USERNAME := "Invalid username. Use only alphanumeric characters, underscore, or dash (max 32 chars)"
  const INVALID_MESSAGE := "Message is empty or too long"

  /** `SharedState::broadcast` over the clients in iteration order `order`:
      one copy to every client but the sender, named or not. */
  function Broadcast(order: seq<ClientId>, sender: Option<ClientId>, m: Message): (r: seq<Delivery>)
    ensures forall i :: 0 <= i < |r| ==> r[i].message == m && r[i].to in order && sender != Some(r[i].to)
    ensures forall q :: q in order && sender != Some(q) ==> exists i :: 0 <= i < |r| && r[i].to == q
  {
    if |order| == 0 then []
    else
      var rest := Broadcast(order[1..], sender, m);
      BroadcastStep(order, sender, rest);
      if sender == Some(order[0]) then rest
      else
        var r := [Delivery(order[0], m)] + rest;
        assert r[0].to == order[0];
        assert forall i :: 0 <= i < |rest| ==> r[i + 1] == rest[i];
        r
  }

  /** The inductive step of `Broadcast`'s coverage: whoever the rest of the
      order reaches, the whole order reaches. */
  lemma {:induction false} BroadcastStep(order: seq<ClientId>, sender: Option<ClientId>, rest: seq<Delivery>)
    requires |order| > 0
    requires forall q :: q in order[1..] && sender != Some(q) ==> exists i :: 0 <= i < |rest| && rest[i].to == q
    ensures forall q :: q in order && q != order[0] && sender != Some(q) ==> exists i :: 0 <= i < |rest| && rest[i].to == q
    ensures forall q :: q in order[1..] ==> q in order
  {
    forall q | q in order && q != order[0] && sender != Some(q)
      ensures exists i :: 0 <= i < |rest| && rest[i].to == q
    {
      var k :| 0 <= k < |order| && order[k] == q;
      assert order[1..][k - 1] == q;
    }
  }

  /** Each client is among the recipients at most once. */
  predicate OncePerClient(r: seq<Delivery>) {
    forall i, j :: 0 <= i < j < |r| ==> r[i].to != r[j].to
  }

  /** Adding a delivery for a new recipient in front keeps each client
      reached at most once. */
  lemma {:induction false} OnceCons(d: Delivery, rest: seq<Delivery>)
    requires OncePerClient(rest)
    requires forall i :: 0 <= i < |rest| ==> rest[i].to != d.to
    ensures OncePerClient([d] + rest)
  {
    var r := [d] + rest;
    forall i, j | 0 <= i < j < |r| ensures r[i].to != r[j].to {
      assert r[j] == rest[j - 1];
      if i > 0 {
        assert r[i] == rest[i - 1];
      }
    }
  }

  /** A broadcast over an order without repeats reaches each client at most
      once. */
  lemma {:induction false} BroadcastOnce(order: seq<ClientId>, sender: Option<ClientId>, m: Message)
    requires forall i, j :: 0 <= i < j < |order| ==> order[i] != order[j]
    ensures OncePerClient(Broadcast(order, sender, m))
  {
    if |order| > 0 {
      var tail := order[1..];
      forall i, j | 0 <= i < j < |tail| ensures tail[i] != tail[j] {
        assert tail[i] == order[i + 1] && tail[j] == order[j + 1];
      }
      BroadcastOnce(tail, sender, m);
      var rest := Broadcast(tail, sender, m);
      if sender != Some(order[0]) {
        forall i | 0 <= i < |rest| ensures rest[i].to != order[0] {
          var k :| 0 <= k < |tail| && tail[k] == rest[i].to;
          assert order[k + 1] == rest[i].to;
        }
        OnceCons(Delivery(order[0], m), rest);
      }
    }
  }

  /** Over an enumeration of the clients, a broadcast reaches exactly the
      clients other than the sender, each once. */
  lemma {:induction false} BroadcastReachesOthers(s: SharedState, order: seq<ClientId>, sender: Option<ClientId>, m: Message)
    requires Enumerates(order, s.clients.Keys)
    ensures var r := Broadcast(order, sender, m);
      (forall q :: (exists i :: 0 <= i < |r| && r[i].to == q) <==> q in BroadcastTargets(s, sender))
      && OncePerClient(r)
  {
    var r := Broadcast(order, sender, m);
    BroadcastOnce(order, sender, m);
    forall q ensures (exists i :: 0 <= i < |r| && r[i].to == q) ==> q in BroadcastTargets(s, sender) {
      if exists i :: 0 <= i < |r| && r[i].to == q {
        var i :| 0 <= i < |r| && r[i].to == q;
        assert r[i].to in order;
      }
    }
  }

  /** A reply to the connection's own client, sent only while it is
      registered. */
  function Reply(s: SharedState, id: ClientId, m: Message): (r: seq<Delivery>)
    ensures |r| <= 1 && (|r| == 1 <==> id in s.clients)
    ensures forall i :: 0 <= i < |r| ==> r[i] == Delivery(id, m)
  {
    if id in s.clients then [Delivery(id, m)] else []
  }

  /** Where a connection stands after one line: the registry, whether a
      username has been accepted, and what was sent. */
  datatype Step = Step(state: SharedState, usernameSet: bool, out: seq<Delivery>)

  /** The opening of `handle_client`: the client is registered without a
      name and greeted, and no one else hears of it. */
  function OnConnect(s: SharedState, id: ClientId, addr: Net.SocketAddr): (r: Step)
    ensures id in r.state.clients && r.state.clients[id].username.None?
    ensures forall q :: q != id ==> (q in r.state.clients <==> q in s.clients)
    ensures r.state.usernames == s.usernames
    ensures !r.usernameSet
    ensures |r.out| == 1 && r.out[0].to == id && r.out[0].message.System?
    ensures Indexed(s) ==> Indexed(r.state)
  {
    Step(AddClient(s, id, addr), false, [Delivery(id, System(WELCOME))])
  }

  /** A name just taken: everyone else hears the join, then the client
      gets the list of names. */
  function Joined(s: SharedState, id: ClientId, name: string, order: seq<ClientId>): (r: seq<Delivery>)
    requires forall i :: 0 <= i < |order| ==> order[i] in s.clients
    requires id in s.clients
    ensures |r| >= 1 && r[|r| - 1] == Delivery(id, UserList(GetUsernames(s, order)))
    ensures forall i :: 0 <= i < |r| - 1 ==> r[i].to != id && r[i].message == Join(name)
    ensures forall q :: q in order && q != id ==> exists i :: 0 <= i < |r| - 1 && r[i].to == q
  {
    var b := Broadcast(order, Some(id), Join(name));
    var r := b + [Delivery(id, UserList(GetUsernames(s, order)))];
    assert forall i :: 0 <= i < |b| ==> r[i] == b[i];
    r
  }

  /** The first accepted line: the trimmed line becomes the name if it is
      valid and free; on success everyone else hears the join and the
      client gets the list of names, otherwise the client alone gets the
      reason. */
  function ChooseName(s: SharedState, id: ClientId, line: string, order: seq<ClientId>): (r: Step)
    requires forall i :: 0 <= i < |order| ==> order[i] in s.clients
    ensures var name := Text.Trim(line);
      r.usernameSet <==> Validators.IsValidUsername(name) && name !in s.usernames && id in s.clients
    ensures !r.usernameSet ==>
      (r.state == s && |r.out| <= 1
       && forall i :: 0 <= i < |r.out| ==> r.out[i].to == id && r.out[i].message.System?)
    ensures !r.usernameSet && !Validators.IsValidUsername(Text.Trim(line)) ==>
      r.out == Reply(s, id, System(INVALID_USERNAME))
    ensures r.usernameSet ==> var name := Text.Trim(line);
      id in r.state.clients && name in r.state.usernames
      && r.state.clients[id].username == Some(name) && r.state.usernames[name] == id
      && r.state.clients.Keys == s.clients.Keys
      && r.out == Joined(r.state, id, name, order)
    ensures Indexed(s) ==> Indexed(r.state)
  {
    var name := Text.Trim(line);
    if !Validators.IsValidUsername(name) then
      Step(s, false, Reply(s, id, System(INVALID_USERNAME)))
    else
      match SetUsername(s, id, name)
      case Err(e) => Step(s, false, Reply(s, id, System(e)))
      case Ok(s1) =>
        assert s1.clients.Keys == s.clients.Keys;
        Step(s1, true, Joined(s1, id, name, order))
  }

  /** A later line: trimmed, checked, and relayed under the sender's name
      to everyone else; the registry does not change. */
  function RelayChat(s: SharedState, id: ClientId, line: string, order: seq<ClientId>): (r: seq<Delivery>)
    ensures var content := Text.Trim(line);
      !Validators.IsValidMessageContent(content) ==> r == Reply(s, id, System(INVALID_MESSAGE))
    ensures var content := Text.Trim(line);
      Validators.IsValidMessageContent(content) && (id !in s.clients || s.clients[id].username.None?) ==> r == []
    ensures var content := Text.Trim(line);
      Validators.IsValidMessageContent(content) && id in s.clients && s.clients[id].username.Some? ==>
        (forall i :: 0 <= i < |r| ==> r[i].to != id && r[i].message == Chat(s.clients[id].username.value, content))
        && (forall q :: q in order && q != id ==> exists i :: 0 <= i < |r| && r[i].to == q)
  {
    var content := Text.Trim(line);
    if !Validators.IsValidMessageContent(content) then Reply(s, id, System(INVALID_MESSAGE))
    else if id in s.clients && s.clients[id].username.Some? then
      Broadcast(order, Some(id), Chat(s.clients[id].username.value, content))
    else []
  }

  /** `handle_client_message`: the first accepted line names the client,
      every line after it is chat. */
  function HandleClientMessage(s: SharedState, id: ClientId, line: string, usernameSet: bool, order: seq<ClientId>): (r: Step)
    requires forall i :: 0 <= i < |order| ==> order[i] in s.clients
    ensures usernameSet ==> r.usernameSet && r.state == s
    ensures !usernameSet ==> r == ChooseName(s, id, line, order)
    ensures usernameSet ==> r.out == RelayChat(s, id, line, order)
    ensures Indexed(s) ==> Indexed(r.state)
  {
    if usernameSet then Step(s, true, RelayChat(s, id, line, order))
    else ChooseName(s, id, line, order)
  }

  /** The end of `handle_client`: the client is dropped, and if it had a
      name everyone left hears that it left. */
  function OnDisconnect(s: SharedState, id: ClientId, order: seq<ClientId>): (r: (SharedState, seq<Delivery>))
    ensures id !in r.0.clients
    ensures forall q :: q != id ==> (q in r.0.clients <==> q in s.clients)
    ensures (id !in s.clients || s.clients[id].username.None?) ==> r.1 == []
    ensures id in s.clients && s.clients[id].username.Some? ==>
      s.clients[id].username.value !in r.0.usernames
      && (forall i :: 0 <= i < |r.1| ==> r.1[i].to != id && r.1[i].message == Leave(s.clients[id].username.value))
      && (forall q :: q in order && q != id ==> exists i :: 0 <= i < |r.1| && r.1[i].to == q)
    ensures Indexed(s) ==> Indexed(r.0)
  {
    var (s1, name) := RemoveClient(s, id);
    match name
    case None => (s1, [])
    case Some(n) => (s1, Broadcast(order, Some(id), Leave(n)))
  }

  /** The client's own name is on the list it receives when it joins. */
  lemma {:induction false} JoinerSeesOwnName(s: SharedState, id: ClientId, line: string, order: seq<ClientId>)
    requires Enumerates(order, s.clients.Keys)
    requires id in s.clients && Validators.IsValidUsername(Text.Trim(line)) && Text.Trim(line) !in s.usernames
    ensures var r := ChooseName(s, id, line, order);
      r.usernameSet && Text.Trim(line) in r.out[|r.out| - 1].message.users
  {
    var r := ChooseName(s, id, line, order);
    assert Enumerates(order, r.state.clients.Keys);
    UsernamesListed(r.state, order, Text.Trim(line));
  }

  /** Chat is relayed to clients that have not given a name yet: a client
      still at the username prompt receives other users' messages. */
  lemma {:induction false} UnnamedClientsOverhear(s: SharedState, sender: ClientId, listener: ClientId, line: string, order: seq<ClientId>)
    requires Enumerates(order, s.clients.Keys)
    requires sender in s.clients && s.clients[sender].username.Some?
    requires listener in s.clients && listener != sender && s.clients[listener].username.None?
    requires Validators.IsValidMessageContent(Text.Trim(line))
    ensures exists i :: 0 <= i < |RelayChat(s, sender, line, order)| && RelayChat(s, sender, line, order)[i].to == listener
  {
    assert listener in order;
    var r := RelayChat(s, sender, line, order);
    assert forall q :: q in order && q != sender ==> exists i :: 0 <= i < |r| && r[i].to == q;
  }

  /** Blanks around a name that neither starts nor ends with white space
      are exactly what `trim` removes. */
  lemma {:induction false} TrimPadded(name: string)
    requires |name| > 0 && !Text.IsWhitespace(name[0]) && !Text.IsWhitespace(name[|name| - 1])
    ensures Text.Trim(" " + name + " ") == name
  {
    var padded := " " + name + " ";
    assert padded[1..] == name + " ";
    assert Text.TrimStart(name + " ") == name + " ";
    assert Text.TrimStart(padded) == name + " ";
    assert (name + " ")[..|name|] == name;
    assert Text.TrimEnd(name) == name;
  }

  /** Blanks around a line do not make a different name: once "alice" is
      taken, " alice " is refused too. */
  lemma {:induction false} PaddedNameIsSameName(s: SharedState, id: ClientId, name: string, order: seq<ClientId>)
    requires forall i :: 0 <= i < |order| ==> order[i] in s.clients
    requires Validators.IsValidUsername(name) && name in s.usernames
    ensures !ChooseName(s, id, " " + name + " ", order).usernameSet
  {
    assert Validators.UsernameChar(name[0]) && Validators.UsernameChar(name[|name| - 1]);
    TrimPadded(name);
  }
}

=== FILE: relay_message.dfy ===
/** The relay server's line protocol messages and how a terminal shows
    them (`shared/src/message/mod.rs`). */
module RelayMessage {
  import Text

  datatype Message =
    | Join(username: string)
    | Chat(username: string, content: string)
    | Leave(username: string)
    | System(content: string)
    | UserList(users: seq<string>)

  /** Prefix of every line that is not a user's chat. */
  const NOTICE_PREFIX := "*** "

  /** `Display for Message`. */
  function Render(m: Message): (r: string)
    ensures m.Chat? ==> Text.StartsWith(r, m.username + ": ") && Text.EndsWith(r, m.content)
    ensures !m.Chat? ==> Text.StartsWith(r, NOTICE_PREFIX)
    ensures m.System? ==> Text.EndsWith(r, m.content)
    ensures m.UserList? ==> Text.EndsWith(r, Text.Join(m.users, ", "))
  {
    match m
    case Join(u) => NOTICE_PREFIX + u + " joined the chat"
    case Chat(u, c) => u + ": " + c
    case Leave(u) => NOTICE_PREFIX + u + " left the chat"
    case System(c) => NOTICE_PREFIX + c
    case UserList(us) => NOTICE_PREFIX + "Online users: " + Text.Join(us, ", ")
  }

  /** Server notices are marked: every rendering but a chat line starts
      with "*** ", and a chat line from a name without a leading '*' does
      not, so the two kinds cannot be confused on screen. */
  lemma {:induction false} NoticesAreMarked(m: Message)
    ensures !m.Chat? ==> Text.StartsWith(Render(m), NOTICE_PREFIX)
    ensures m.Chat? && |m.username| > 0 && m.username[0] != '*' ==> !Text.StartsWith(Render(m), NOTICE_PREFIX)
  {
    var s := Render(m);
    if m.Chat? && |m.username| > 0 {
      assert s[0] == m.username[0];
    }
  }

  /** A chat line reads back as its author and text: the author is
      everything before the first ": " when the name holds no ':'. */
  lemma {:induction false} ChatLineSplits(u: string, c: string)
    requires forall i :: 0 <= i < |u| ==> u[i] != ':'
    ensures var s := Render(Chat(u, c));
      Text.FirstIndex(s, ':') == |u| && s[..|u|] == u && s[|u| + 2..] == c
  {
    var s := Render(Chat(u, c));
    assert s[..|u|] == u;
    assert s[|u|] == ':';
    assert s[|u| + 2..] == c;
    Text.FirstIndexAt(s, ':', |u|);
  }

  /** Notices can be read back: the name in a join or leave line sits right
      after the prefix and is followed by the fixed wording, and a system
      line is the prefix followed by its text. */
  lemma {:induction false} NoticesReadBack(u: string, c: string)
    ensures var s := Render(Join(u));
      s[|NOTICE_PREFIX|..|NOTICE_PREFIX| + |u|] == u && s[|NOTICE_PREFIX| + |u|..] == " joined the chat"
    ensures var s := Render(Leave(u));
      s[|NOTICE_PREFIX|..|NOTICE_PREFIX| + |u|] == u && s[|NOTICE_PREFIX| + |u|..] == " left the chat"
    ensures Render(System(c))[|NOTICE_PREFIX|..] == c
  {
    var j := Render(Join(u));
    assert j == NOTICE_PREFIX + u + " joined the chat";
    var l := Render(Leave(u));
    assert l == NOTICE_PREFIX + u + " left the chat";
  }
}

=== FILE: relay_state.dfy ===
/** The relay server's registry (`server/src/state/mod.rs`): connected
    clients by id, each with an optional username, and the reverse index
    from usernames to ids. Client ids are opaque strings standing for the
    UUIDs; a client's outgoing channel is left out. */
module RelayState {
  import opened Base
  import opened Wrappers
  import Net

  type ClientId = string

  datatype ClientInfo = ClientInfo(username: Option<string>, addr: Net.SocketAddr)

  datatype SharedState = SharedState(clients: map<ClientId, ClientInfo>, usernames: map<string, ClientId>)

  const USERNAME_TAKEN := "Username already taken"
  const CLIENT_NOT_FOUND := "Client not found"

  /** `SharedState::new`. */
  const EMPTY_STATE := SharedState(map[], map[])

  /** Every name a client holds is indexed, and indexed to that client. It
      follows that no two clients hold the same name. */
  ghost predicate Indexed(s: SharedState) {
    forall id :: id in s.clients && s.clients[id].username.Some? ==>
      s.clients[id].username.value in s.usernames && s.usernames[s.clients[id].username.value] == id
  }

  /** Names are unique among clients in an indexed registry. */
  lemma {:induction false} NamesUnique(s: SharedState, a: ClientId, b: ClientId)
    requires Indexed(s)
    requires a in s.clients && b in s.clients && a != b
    requires s.clients[a].username.Some? && s.clients[b].username.Some?
    ensures s.clients[a].username != s.clients[b].username
  {
    assert s.usernames[s.clients[a].username.value] == a;
    assert s.usernames[s.clients[b].username.value] == b;
  }

  /** `add_client`: registered without a name (replacing any record the
      id had). */
  function AddClient(s: SharedState, id: ClientId, addr: Net.SocketAddr): (r: SharedState)
    ensures id in r.clients && r.clients[id] == ClientInfo(None, addr)
    ensures forall q :: q != id ==> (q in r.clients <==> q in s.clients)
    ensures forall q :: q != id && q in s.clients ==> r.clients[q] == s.clients[q]
    ensures r.usernames == s.usernames
    ensures Indexed(s) ==> Indexed(r)
  {
    s.(clients := s.clients[id := ClientInfo(None, addr)])
  }

  /** `remove_client`: the client and its current name go; its name is
      returned if it had one. */
  function RemoveClient(s: SharedState, id: ClientId): (r: (SharedState, Option<string>))
    ensures id !in r.0.clients
    ensures forall q :: q != id ==> (q in r.0.clients <==> q in s.clients)
    ensures forall q :: q in r.0.clients ==> r.0.clients[q] == s.clients[q]
    ensures r.1.Some? <==> id in s.clients && s.clients[id].username.Some?
    ensures r.1.Some? ==> r.1 == s.clients[id].username && r.1.value !in r.0.usernames
    ensures r.1.Some? ==> forall n :: n != r.1.value ==> (n in r.0.usernames <==> n in s.usernames)
    ensures r.1.None? ==> r.0.usernames == s.usernames
    ensures Indexed(s) ==> Indexed(r.0)
  {
    if id in s.clients then
      var info := s.clients[id];
      var clients := s.clients - {id};
      if info.username.Some? then
        var r := SharedState(clients, s.usernames - {info.username.value});
        assert Indexed(s) ==> Indexed(r) by {
          if Indexed(s) {
            forall q | q in r.clients && r.clients[q].username.Some?
              ensures r.clients[q].username.value in r.usernames
            {
              assert s.usernames[r.clients[q].username.value] == q;
              assert s.usernames[info.username.value] == id;
            }
          }
        }
        (r, info.username)
      else (SharedState(clients, s.usernames), None)
    else (s, None)
  }

  /** `set_username`: a name already in the index is refused, as is an
      unknown client; otherwise the client takes the name and the index
      records it. */
  function SetUsername(s: SharedState, id: ClientId, name: string): (r: Result<SharedState, string>)
    ensures name in s.usernames ==> r == Err(USERNAME_TAKEN)
    ensures name !in s.usernames && id !in s.clients ==> r == Err(CLIENT_NOT_FOUND)
    ensures r.Ok? <==> name !in s.usernames && id in s.clients
    ensures r.Ok? ==>
      r.value.clients == s.clients[id := s.clients[id].(username := Some(name))]
      && r.value.usernames == s.usernames[name := id]
    ensures r.Ok? && Indexed(s) ==> Indexed(r.value)
  {
    if name in s.usernames then Err(USERNAME_TAKEN)
    else if id !in s.clients then Err(CLIENT_NOT_FOUND)
    else Ok(SharedState(s.clients[id := s.clients[id].(username := Some(name))], s.usernames[name := id]))
  }

  /** A client that renames itself leaves its old name in the index: the
      old name stays claimed by it even after it leaves, so no one can
      take that name again. */
  lemma {:induction false} RenameLeavesStaleName(s: SharedState, id: ClientId, first: string, second: string)
    requires id in s.clients && first != second
    requires first !in s.usernames && second !in s.usernames
    ensures var s1 := SetUsername(s, id, first).value;
      var s2 := SetUsername(s1, id, second).value;
      var s3 := RemoveClient(s2, id).0;
      first in s3.usernames && SetUsername(s3, id, first) == Err(USERNAME_TAKEN)
  {
    var s1 := SetUsername(s, id, first).value;
    assert first in s1.usernames;
    var s2 := SetUsername(s1, id, second).value;
    assert s2.clients[id].username == Some(second);
  }

  /** The evidently intended `set_username`: the same checks, and a client
      that already had a name gives it up in the index. */
  function SetUsernameReleasing(s: SharedState, id: ClientId, name: string): (r: Result<SharedState, string>)
    ensures name in s.usernames ==> r == Err(USERNAME_TAKEN)
    ensures name !in s.usernames && id !in s.clients ==> r == Err(CLIENT_NOT_FOUND)
    ensures r.Ok? <==> name !in s.usernames && id in s.clients
    ensures r.Ok? ==>
      r.value.clients == s.clients[id := s.clients[id].(username := Some(name))]
      && name in r.value.usernames && r.value.usernames[name] == id
      && (s.clients[id].username.Some? && s.clients[id].username.value != name ==>
            s.clients[id].username.value !in r.value.usernames)
      && forall n :: n != name && s.clients[id].username != Some(n) ==>
           (n in r.value.usernames <==> n in s.usernames)
    ensures r.Ok? && Indexed(s) ==> Indexed(r.value)
  {
    if name in s.usernames then Err(USERNAME_TAKEN)
    else if id !in s.clients then Err(CLIENT_NOT_FOUND)
    else
      var held := s.clients[id].username;
      var index := if held.Some? then s.usernames - {held.value} else s.usernames;
      var r := SharedState(s.clients[id := s.clients[id].(username := Some(name))], index[name := id]);
      assert Indexed(s) ==> Indexed(r) by {
        if Indexed(s) {
          forall q | q in r.clients && r.clients[q].username.Some?
            ensures r.clients[q].username.value in r.usernames && r.usernames[r.clients[q].username.value] == q
          {
            if q != id && held.Some? {
              assert s.usernames[held.value] == id;
            }
          }
        }
      }
      Ok(r)
  }

  /** With the corrected rename, a client that names itself twice and
      leaves holds neither name any longer. */
  lemma {:induction false} RenameReleasesOldName(s: SharedState, id: ClientId, first: string, second: string)
    requires id in s.clients && s.clients[id].username.None? && first != second
    requires first !in s.usernames && second !in s.usernames
    ensures var s1 := SetUsernameReleasing(s, id, first).value;
      var s2 := SetUsernameReleasing(s1, id, second).value;
      var s3 := RemoveClient(s2, id).0;
      first !in s3.usernames && second !in s3.usernames
  {
    var s1 := SetUsernameReleasing(s, id, first).value;
    assert s1.clients[id].username == Some(first);
    var s2 := SetUsernameReleasing(s1, id, second).value;
    assert first !in s2.usernames;
    assert s2.clients[id].username == Some(second);
  }

  /** `broadcast`'s recipients: every client but the sender, if one is
      given. */
  function BroadcastTargets(s: SharedState, sender: Option<ClientId>): (r: set<ClientId>)
    ensures forall q :: q in r <==> q in s.clients && sender != Some(q)
  {
    set q | q in s.clients && sender != Some(q)
  }

  /** `get_usernames`: the names of the named clients, in the client map's
      iteration order `order`. */
  function GetUsernames(s: SharedState, order: seq<ClientId>): (r: seq<string>)
    requires forall i :: 0 <= i < |order| ==> order[i] in s.clients
    ensures forall n :: n in r <==> exists i :: 0 <= i < |order| && s.clients[order[i]].username == Some(n)
    ensures |r| <= |order|
  {
    if |order| == 0 then []
    else
      var rest := GetUsernames(s, order[1..]);
      assert forall n :: (exists i :: 1 <= i < |order| && s.clients[order[i]].username == Some(n))
                     <==> (exists i :: 0 <= i < |order| - 1 && s.clients[order[1..][i]].username == Some(n)) by {
        forall n ensures (exists i :: 1 <= i < |order| && s.clients[order[i]].username == Some(n))
                     ==> (exists i :: 0 <= i < |order| - 1 && s.clients[order[1..][i]].username == Some(n)) {
          if exists i :: 1 <= i < |order| && s.clients[order[i]].username == Some(n) {
            var i :| 1 <= i < |order| && s.clients[order[i]].username == Some(n);
            assert order[1..][i - 1] == order[i];
          }
        }
      }
      match s.clients[order[0]].username
      case Some(n) => [n] + rest
      case None => rest
  }

  /** Listed over an enumeration of the clients, the names are exactly the
      names clients hold. */
  lemma {:induction false} UsernamesListed(s: SharedState, order: seq<ClientId>, n: string)
    requires Enumerates(order, s.clients.Keys)
    ensures n in GetUsernames(s, order) <==> exists id :: id in s.clients && s.clients[id].username == Some(n)
  {
    if exists id :: id in s.clients && s.clients[id].username == Some(n) {
      var id :| id in s.clients && s.clients[id].username == Some(n);
      var i :| 0 <= i < |order| && order[i] == id;
    }
  }
}

=== FILE: routing.dfy ===
/** Flood routing (`shared/src/p2p/routing.rs`): a table of known peers, a
    cache of message ids already handled, and the decision what to do with
    each incoming message. */
module Routing {
  import opened Base
  import opened Mesh
  import Net

  /** The cache is pruned on insertion only once it holds more entries. */
  const MAX_CACHE_SIZE: nat := 10000
  /** Cached ids younger than this many seconds survive a pruning. */
  const CACHE_TTL_SECS: u64 := 300
  /** Hops a freshly created chat message may still make. */
  const DEFAULT_TTL: nat := 7

  /** Known peers by id, and message ids with the second they were seen. */
  datatype RoutingTable = RoutingTable(peers: map<string, PeerInfo>, cache: map<string, u64>)

  /** The router of the node `localPeerId`. */
  datatype Router = Router(localPeerId: string, localUsername: string, table: RoutingTable)

  /** What the node must do with a message after routing it. */
  datatype RoutingAction =
    | Drop
    | Deliver(message: P2PMessage)
    | ForwardAndDeliver(original: P2PMessage, forward: P2PMessage, forwardTo: seq<string>)
    | Respond(toPeer: string, message: P2PMessage)
    | UpdateHeartbeat(peerId: string)

  /** `MessageRouter::new`: no peers known and nothing seen yet. */
  function NewRouter(localPeerId: string, localUsername: string): (r: Router)
    ensures r.localPeerId == localPeerId && r.localUsername == localUsername
    ensures |r.table.peers| == 0 && |r.table.cache| == 0
  {
    Router(localPeerId, localUsername, RoutingTable(map[], map[]))
  }

  /** `RoutingTable::add_peer`: inserts or replaces the entry of that id. */
  function AddPeer(t: RoutingTable, info: PeerInfo): (r: RoutingTable)
    ensures info.peerId in r.peers && r.peers[info.peerId] == info
    ensures forall q :: q != info.peerId ==> (q in r.peers <==> q in t.peers)
    ensures forall q :: q != info.peerId && q in t.peers ==> r.peers[q] == t.peers[q]
    ensures r.cache == t.cache
  {
    t.(peers := t.peers[info.peerId := info])
  }

  /** `RoutingTable::remove_peer`: forgets that id only. */
  function RemovePeer(t: RoutingTable, peerId: string): (r: RoutingTable)
    ensures peerId !in r.peers
    ensures forall q :: q != peerId ==> (q in r.peers <==> q in t.peers)
    ensures forall q :: q in r.peers ==> r.peers[q] == t.peers[q]
    ensures r.cache == t.cache
  {
    t.(peers := t.peers - {peerId})
  }

  /** `RoutingTable::get_peers`, listed in the map's iteration order `order`. */
  function GetPeers(t: RoutingTable, order: seq<string>): (r: seq<PeerInfo>)
    requires Enumerates(order, t.peers.Keys)
    ensures |r| == |order| == |t.peers|
    ensures forall i :: 0 <= i < |r| ==> order[i] in t.peers && r[i] == t.peers[order[i]]
    ensures forall q :: q in t.peers ==> t.peers[q] in r
    ensures forall x :: x in r ==> x in t.peers.Values
  {
    EnumerationLength(order, t.peers.Keys);
    var r := seq(|order|, i requires 0 <= i < |order| => t.peers[order[i]]);
    assert forall q :: q in t.peers ==> t.peers[q] in r by {
      forall q | q in t.peers ensures t.peers[q] in r {
        var i :| 0 <= i < |order| && order[i] == q;
        assert r[i] == t.peers[q];
      }
    }
    r
  }

  /** `RoutingTable::has_seen_message`. */
  predicate HasSeen(t: RoutingTable, messageId: string) {
    messageId in t.cache
  }

  /** The cache entries seen strictly after `cutoff`. */
  function Retain(cache: map<string, u64>, cutoff: u64): (r: map<string, u64>)
    ensures forall k :: k in r <==> k in cache && cache[k] > cutoff
    ensures forall k :: k in r ==> r[k] == cache[k]
  {
    map k | k in cache && cache[k] > cutoff :: cache[k]
  }

  /** `RoutingTable::mark_message_seen`: records the id at `now`; when the
      cache then holds more than `MAX_CACHE_SIZE` entries, everything not
      seen after `now - CACHE_TTL_SECS` (a wrapping u64 subtraction) is
      pruned. */
  function MarkSeen(t: RoutingTable, messageId: string, now: u64): (r: RoutingTable)
    ensures r.peers == t.peers
    ensures messageId in r.cache ==> r.cache[messageId] == now
    ensures |t.cache[messageId := now]| <= MAX_CACHE_SIZE ==> HasSeen(r, messageId)
    ensures CACHE_TTL_SECS <= now ==> HasSeen(r, messageId)
    ensures forall k :: k in r.cache ==> k == messageId || (k in t.cache && r.cache[k] == t.cache[k])
    ensures |t.cache[messageId := now]| <= MAX_CACHE_SIZE ==> r.cache == t.cache[messageId := now]
    ensures |t.cache[messageId := now]| > MAX_CACHE_SIZE ==>
      forall k :: k in r.cache <==> k in t.cache[messageId := now] && t.cache[messageId := now][k] > WrappingSub(now, CACHE_TTL_SECS)
  {
    var cache := t.cache[messageId := now];
    if |cache| > MAX_CACHE_SIZE then t.(cache := Retain(cache, WrappingSub(now, CACHE_TTL_SECS)))
    else t.(cache := cache)
  }

  /** `RoutingTable::cleanup_message_cache`: keeps exactly the entries seen
      after `now - CACHE_TTL_SECS`, computed with wrapping u64 arithmetic. */
  function CleanupCache(t: RoutingTable, now: u64): (r: RoutingTable)
    ensures r.peers == t.peers
    ensures forall k :: k in r.cache <==> k in t.cache && t.cache[k] > WrappingSub(now, CACHE_TTL_SECS)
    ensures forall k :: k in r.cache ==> r.cache[k] == t.cache[k]
  {
    t.(cache := Retain(t.cache, WrappingSub(now, CACHE_TTL_SECS)))
  }

  /** Once the clock is past `CACHE_TTL_SECS`, the cleanup keeps exactly the
      ids seen less than `CACHE_TTL_SECS` seconds ago (or in the future);
      before that, the wrapped cutoff empties the cache. */
  lemma CleanupKeepsRecent(t: RoutingTable, now: u64)
    ensures CACHE_TTL_SECS <= now ==>
      forall k :: k in CleanupCache(t, now).cache <==> k in t.cache && now - t.cache[k] < CACHE_TTL_SECS
    ensures now < CACHE_TTL_SECS ==> forall k :: k in t.cache && t.cache[k] <= now ==> k !in CleanupCache(t, now).cache
  {
  }

  /** `RoutingTable::peer_count`. */
  function PeerCount(t: RoutingTable): (n: nat)
    ensures n == |t.peers.Keys|
  {
    |t.peers|
  }

  /** The ids of `order`, in order, that are neither the neighbour the
      message came from, nor its original sender, nor any node it has
      already passed through. */
  function ForwardTargets(order: seq<string>, fromPeer: string, senderId: string, seenBy: seq<string>)
    : (r: seq<string>)
    ensures forall x :: x in r <==> x in order && x != fromPeer && x != senderId && x !in seenBy
    ensures |r| <= |order|
  {
    if |order| == 0 then []
    else
      var rest := ForwardTargets(order[1..], fromPeer, senderId, seenBy);
      var x := order[0];
      assert forall y :: y in order <==> y == x || y in order[1..];
      if x != fromPeer && x != senderId && x !in seenBy then [x] + rest else rest
  }

  /** The ids a list of peer records names. */
  function Ids(ps: seq<PeerInfo>): set<string> {
    set i | 0 <= i < |ps| :: ps[i].peerId
  }

  /** The ids of a list are those of its prefix and of its last record. */
  lemma IdsSnoc(ps: seq<PeerInfo>)
    requires |ps| > 0
    ensures Ids(ps) == Ids(ps[..|ps| - 1]) + {ps[|ps| - 1].peerId}
  {
    var init := ps[..|ps| - 1];
    forall q | q in Ids(ps) ensures q in Ids(init) + {ps[|ps| - 1].peerId} {
      var i :| 0 <= i < |ps| && ps[i].peerId == q;
      if i < |ps| - 1 { assert init[i] == ps[i]; }
    }
    forall q | q in Ids(init) ensures q in Ids(ps) {
      var i :| 0 <= i < |init| && init[i].peerId == q;
      assert ps[i] == init[i];
    }
  }

  /** `ps[i]` is the last record in `ps` for its id. */
  predicate LastFor(ps: seq<PeerInfo>, i: nat)
    requires i < |ps|
  {
    forall j :: i < j < |ps| ==> ps[j].peerId != ps[i].peerId
  }

  /** The table after inserting each record of `ps` in turn: the listed ids
      are added, a later record for an id overrides an earlier one, and
      unlisted entries stay as they were. */
  function InsertAll(m: map<string, PeerInfo>, ps: seq<PeerInfo>): (r: map<string, PeerInfo>)
    ensures r.Keys == m.Keys + Ids(ps)
    ensures forall q :: q in m && q !in Ids(ps) ==> r[q] == m[q]
    ensures forall i :: 0 <= i < |ps| && LastFor(ps, i) ==> r[ps[i].peerId] == ps[i]
    decreases |ps|
  {
    if |ps| == 0 then m
    else
      var r0 := InsertAll(m, ps[..|ps| - 1]);
      InsertAllStep(m, ps, r0);
      r0[ps[|ps| - 1].peerId := ps[|ps| - 1]]
  }

  /** One more insertion keeps the three promises of `InsertAll`. */
  lemma InsertAllStep(m: map<string, PeerInfo>, ps: seq<PeerInfo>, r0: map<string, PeerInfo>)
    requires |ps| > 0
    requires r0.Keys == m.Keys + Ids(ps[..|ps| - 1])
    requires forall q :: q in m && q !in Ids(ps[..|ps| - 1]) ==> r0[q] == m[q]
    requires var init := ps[..|ps| - 1];
      forall i :: 0 <= i < |init| && LastFor(init, i) ==> r0[init[i].peerId] == init[i]
    ensures var r := r0[ps[|ps| - 1].peerId := ps[|ps| - 1]];
      r.Keys == m.Keys + Ids(ps)
      && (forall q :: q in m && q !in Ids(ps) ==> r[q] == m[q])
      && (forall i :: 0 <= i < |ps| && LastFor(ps, i) ==> r[ps[i].peerId] == ps[i])
  {
    var init, last := ps[..|ps| - 1], ps[|ps| - 1];
    var r := r0[last.peerId := last];
    IdsSnoc(ps);
    assert r.Keys == m.Keys + Ids(ps);
    forall q | q in m && q !in Ids(ps) ensures r[q] == m[q] {
      assert q != last.peerId && q !in Ids(init);
    }
    forall i | 0 <= i < |ps| && LastFor(ps, i) ensures r[ps[i].peerId] == ps[i] {
      LastStaysLast(ps, r0, i);
    }
  }

  /** The record that is last for its id is what the table holds for it
      after the final insertion. */
  lemma LastStaysLast(ps: seq<PeerInfo>, r0: map<string, PeerInfo>, i: nat)
    requires i < |ps| && LastFor(ps, i)
    requires var init := ps[..|ps| - 1];
      forall k :: 0 <= k < |init| && LastFor(init, k) ==> init[k].peerId in r0 && r0[init[k].peerId] == init[k]
    ensures var r := r0[ps[|ps| - 1].peerId := ps[|ps| - 1]];
      ps[i].peerId in r && r[ps[i].peerId] == ps[i]
  {
    if i < |ps| - 1 {
      LastForInit(ps, i);
    }
  }

  /** A record that is last for its id stays last once the final record is
      dropped, and has a different id from that final record. */
  lemma LastForInit(ps: seq<PeerInfo>, i: nat)
    requires i < |ps| - 1 && LastFor(ps, i)
    ensures LastFor(ps[..|ps| - 1], i) && ps[..|ps| - 1][i] == ps[i]
    ensures ps[i].peerId != ps[|ps| - 1].peerId
  {
    var init := ps[..|ps| - 1];
    forall j | i < j < |init| ensures init[j].peerId != init[i].peerId {
      assert init[j] == ps[j];
    }
  }

  /** The chat branch of `MessageRouter::process_message`. A message already
      cached, out of hops, or already seen by this node is dropped without
      any change. Otherwise its id is recorded, the local id is appended to
      its `seenBy`, and it is delivered locally and forwarded with one hop
      less to every known peer it has not been through. */
  function ProcessChat(r: Router, m: P2PMessage, fromPeer: string, now: u64, order: seq<string>)
    : (res: (Router, RoutingAction))
    requires m.ChatMessage?
    requires Enumerates(order, r.table.peers.Keys)
    ensures res.1.Drop? <==> HasSeen(r.table, m.messageId) || m.ttl == 0 || r.localPeerId in m.seenBy
    ensures res.1.Drop? ==> res.0 == r
    ensures !res.1.Drop? ==> res.1.ForwardAndDeliver? && Forwarded(r, m, fromPeer, res.1)
    ensures !res.1.Drop? ==> res.0.table.peers == r.table.peers
                             && (CACHE_TTL_SECS <= now ==> HasSeen(res.0.table, m.messageId))
    ensures res.0.localPeerId == r.localPeerId && res.0.localUsername == r.localUsername
  {
    if HasSeen(r.table, m.messageId) || m.ttl == 0 || r.localPeerId in m.seenBy then (r, Drop)
    else
      var seenBy := m.seenBy + [r.localPeerId];
      var r' := r.(table := MarkSeen(r.table, m.messageId, now));
      var targets := ForwardTargets(order, fromPeer, m.senderId, seenBy);
      (r', ForwardAndDeliver(m.(seenBy := seenBy), m.(ttl := m.ttl - 1, seenBy := seenBy), targets))
  }

  /** The shape of a forwarding decision for chat message `m`: both copies
      carry `m`'s id, sender, name and text and the local id appended to its
      `seenBy`; the delivered copy keeps the hop count, the forwarded one has
      one hop less; and the targets are exactly the known peers other than
      the neighbour it came from, its sender, and the nodes it has passed. */
  ghost predicate Forwarded(r: Router, m: P2PMessage, fromPeer: string, a: RoutingAction)
    requires m.ChatMessage? && a.ForwardAndDeliver?
  {
    var seenBy := m.seenBy + [r.localPeerId];
    a.original == ChatMessage(m.messageId, m.senderId, m.username, m.content, m.ttl, seenBy)
    && a.forward.ChatMessage? && m.ttl > 0 && a.forward.ttl == m.ttl - 1
    && a.forward == a.original.(ttl := m.ttl - 1)
    && (forall x :: x in a.forwardTo <==>
          x in r.table.peers && x != fromPeer && x != m.senderId && x !in seenBy)
  }

  /** `MessageRouter::process_message`. `order` is the peer map's iteration
      order, used wherever the source lists the table. */
  function ProcessMessage(r: Router, m: P2PMessage, fromPeer: string, now: u64, order: seq<string>)
    : (res: (Router, RoutingAction))
    requires Enumerates(order, r.table.peers.Keys)
    ensures m.ChatMessage? ==> res == ProcessChat(r, m, fromPeer, now, order)
    ensures m.PeerAnnounce? ==>
      res == (r.(table := AddPeer(r.table, PeerInfo(m.peerId, m.listenAddr, m.username, now))), Deliver(m))
    ensures m.PeerListRequest? ==>
      res.0 == r && res.1.Respond? && res.1.toPeer == m.peerId && res.1.message.PeerListResponse?
      && |res.1.message.peers| == |r.table.peers|
      && (forall q :: q in r.table.peers ==> r.table.peers[q] in res.1.message.peers)
      && (forall x :: x in res.1.message.peers ==> x in r.table.peers.Values)
    ensures m.PeerListResponse? ==> res == (r.(table := r.table.(peers := InsertAll(r.table.peers, m.peers))), Deliver(m))
    ensures m.Handshake? ==> res == (r, Deliver(m))
    ensures m.Heartbeat? ==> res == (r, UpdateHeartbeat(m.peerId))
    ensures m.Disconnect? ==> res == (r.(table := RemovePeer(r.table, m.peerId)), Deliver(m))
  {
    match m
    case ChatMessage(_, _, _, _, _, _) => ProcessChat(r, m, fromPeer, now, order)
    case PeerAnnounce(id, addr, user) =>
      (r.(table := AddPeer(r.table, PeerInfo(id, addr, user, now))), Deliver(m))
    case PeerListRequest(id) =>
      (r, Respond(id, PeerListResponse(GetPeers(r.table, order))))
    case PeerListResponse(ps) =>
      (r.(table := r.table.(peers := InsertAll(r.table.peers, ps))), Deliver(m))
    case Handshake(_, _, _) => (r, Deliver(m))
    case Heartbeat(id, _) => (r, UpdateHeartbeat(id))
    case Disconnect(id, _) => (r.(table := RemovePeer(r.table, id)), Deliver(m))
  }

  /** `MessageRouter::create_chat_message`: authored locally, with the
      default hop budget, and already marked as seen by this node. */
  function CreateChatMessage(r: Router, content: string, messageId: string): (m: P2PMessage)
    ensures m.ChatMessage? && m.messageId == messageId && m.content == content
    ensures m.senderId == r.localPeerId && m.username == r.localUsername
    ensures m.ttl == DEFAULT_TTL && m.seenBy == [r.localPeerId]
  {
    ChatMessage(messageId, r.localPeerId, r.localUsername, content, DEFAULT_TTL, [r.localPeerId])
  }

  /** `MessageRouter::create_peer_announce`. */
  function CreatePeerAnnounce(r: Router, listenAddr: Net.SocketAddr): (m: P2PMessage)
    ensures m == PeerAnnounce(r.localPeerId, listenAddr, r.localUsername)
  {
    PeerAnnounce(r.localPeerId, listenAddr, r.localUsername)
  }

  /** `MessageRouter::create_handshake`. */
  function CreateHandshake(r: Router): (m: P2PMessage)
    ensures m == Handshake(r.localPeerId, r.localUsername, "1.0")
  {
    Handshake(r.localPeerId, r.localUsername, "1.0")
  }

  /** `NetworkStats`: peers known and message ids cached. */
  datatype NetworkStats = NetworkStats(connectedPeers: nat, cachedMessages: nat)

  /** `MessageRouter::get_network_stats`. */
  function GetNetworkStats(r: Router): (s: NetworkStats)
    ensures s.connectedPeers == PeerCount(r.table) && s.cachedMessages == |r.table.cache.Keys|
  {
    NetworkStats(|r.table.peers|, |r.table.cache|)
  }

  /** A chat message that is accepted adds at most one cached id and no
      peer; the statistics of a fresh router are zero. */
  lemma StatsAfterChat(r: Router, m: P2PMessage, fromPeer: string, now: u64, order: seq<string>)
    requires m.ChatMessage?
    requires Enumerates(order, r.table.peers.Keys)
    ensures var s0, s1 := GetNetworkStats(r), GetNetworkStats(ProcessMessage(r, m, fromPeer, now, order).0);
      s1.connectedPeers == s0.connectedPeers && s1.cachedMessages <= s0.cachedMessages + 1
    ensures GetNetworkStats(NewRouter(r.localPeerId, r.localUsername)) == NetworkStats(0, 0)
  {
    var r1 := ProcessMessage(r, m, fromPeer, now, order).0;
    if r1 != r {
      var grown := r.table.cache[m.messageId := now];
      assert r1.table.cache.Keys <= grown.Keys;
      assert grown.Keys <= r.table.cache.Keys + {m.messageId};
      SubsetCard(r1.table.cache.Keys, r.table.cache.Keys + {m.messageId});
    }
  }

  /** A peer that routes our announcement records us under our own id,
      with the address we announced, our name and the time it arrived. */
  lemma AnnounceRegistersSender(us: Router, them: Router, addr: Net.SocketAddr, fromPeer: string,
                                now: u64, order: seq<string>)
    requires Enumerates(order, them.table.peers.Keys)
    ensures var r := ProcessMessage(them, CreatePeerAnnounce(us, addr), fromPeer, now, order).0;
      us.localPeerId in r.table.peers
      && r.table.peers[us.localPeerId] == PeerInfo(us.localPeerId, addr, us.localUsername, now)
  {
  }

  /** A message id is handled at most once: once a chat message has been
      accepted (at a time past `CACHE_TTL_SECS`), the same message arriving
      again, from any neighbour at any time, is dropped. */
  lemma {:induction false} AcceptedOnce(r: Router, m: P2PMessage, from1: string, now1: u64, order1: seq<string>,
                                        from2: string, now2: u64, order2: seq<string>)
    requires m.ChatMessage?
    requires Enumerates(order1, r.table.peers.Keys)
    requires CACHE_TTL_SECS <= now1
    requires !ProcessMessage(r, m, from1, now1, order1).1.Drop?
    requires Enumerates(order2, ProcessMessage(r, m, from1, now1, order1).0.table.peers.Keys)
    ensures ProcessMessage(ProcessMessage(r, m, from1, now1, order1).0, m, from2, now2, order2).1 == Drop
  {
    var r1 := ProcessMessage(r, m, from1, now1, order1).0;
    assert HasSeen(r1.table, m.messageId);
  }

  /** A node's own chat message, echoed back to it, is dropped: the node
      put itself in `seenBy` when it created the message. */
  lemma OwnMessageDropped(r: Router, content: string, messageId: string, fromPeer: string, now: u64, order: seq<string>)
    requires Enumerates(order, r.table.peers.Keys)
    ensures ProcessMessage(r, CreateChatMessage(r, content, messageId), fromPeer, now, order).1 == Drop
  {
  }

  /** A forwarded copy never goes back to a node it has passed through, and
      never goes to a peer the table does not know. */
  lemma {:induction false} ForwardingAvoidsSeen(r: Router, m: P2PMessage, fromPeer: string, now: u64, order: seq<string>)
    requires m.ChatMessage?
    requires Enumerates(order, r.table.peers.Keys)
    ensures var a := ProcessMessage(r, m, fromPeer, now, order).1;
      a.ForwardAndDeliver? ==>
        a.forward.ChatMessage?
        && (forall x :: x in a.forwardTo ==> x in r.table.peers && x !in a.forward.seenBy)
        && a.forward.ttl < m.ttl
  {
  }
}

=== FILE: secret_framing.dfy ===
/** How `identity-gen/src/crypto.rs` packs an encrypted secret key: the
    Argon2 salt text, a '|' byte, the 12-byte AES-GCM nonce, another '|',
    then the ciphertext. Only the byte layout is modelled; key derivation
    and encryption are not. Reading a blob back (`decrypt_secret_key`)
    first requires the whole blob to be UTF-8 and then splits it at every
    '|'. Since '|' is ASCII, splitting the UTF-8 text at the character is
    splitting the bytes at 0x7C, which is what `Unframe` does. */
module SecretFraming {
  import opened Base
  import opened Wrappers
  import Text

  /** The byte of '|'. */
  const SEPARATOR: byte := 0x7C
  const NONCE_BYTES: nat := 12

  const INVALID_UTF8 := "Invalid UTF-8"
  const INVALID_FORMAT := "Invalid encrypted data format"

  datatype Parts = Parts(salt: Bytes, nonce: Bytes, ciphertext: Bytes)

  /** Salt text as `SaltString` produces it: ASCII, never '|'. */
  predicate SaltText(salt: Bytes) {
    forall i :: 0 <= i < |salt| ==> salt[i] < 0x80 && salt[i] != SEPARATOR
  }

  /** The blob `encrypt_secret_key` returns. */
  function Frame(p: Parts): (blob: Bytes)
    ensures |blob| == |p.salt| + |p.nonce| + |p.ciphertext| + 2
    ensures blob[..|p.salt|] == p.salt && blob[|p.salt|] == SEPARATOR
    ensures blob[|p.salt| + 1..|p.salt| + 1 + |p.nonce|] == p.nonce
    ensures blob[|p.salt| + 1 + |p.nonce|] == SEPARATOR
    ensures blob[|p.salt| + |p.nonce| + 2..] == p.ciphertext
  {
    p.salt + [SEPARATOR] + p.nonce + [SEPARATOR] + p.ciphertext
  }

  /** The framing half of `decrypt_secret_key`, as written. */
  function Unframe(blob: Bytes): (r: Result<Parts, string>)
    ensures !Text.ValidUtf8(blob) ==> r == Err(INVALID_UTF8)
    ensures r.Ok? <==> Text.ValidUtf8(blob) && |Text.Split(blob, SEPARATOR)| == 3
    ensures r.Ok? ==> Frame(r.value) == blob
    ensures r.Ok? ==> SEPARATOR !in r.value.nonce && SEPARATOR !in r.value.ciphertext
  {
    if !Text.ValidUtf8(blob) then Err(INVALID_UTF8)
    else
      var parts := Text.Split(blob, SEPARATOR);
      if |parts| != 3 then Err(INVALID_FORMAT)
      else
        ThreeParts(blob);
        Ok(Parts(parts[0], parts[1], parts[2]))
  }

  /** Three pieces of a split, framed again, are the text that was split. */
  lemma {:induction false} ThreeParts(blob: Bytes)
    requires |Text.Split(blob, SEPARATOR)| == 3
    ensures var parts := Text.Split(blob, SEPARATOR);
      Frame(Parts(parts[0], parts[1], parts[2])) == blob
  {
    var parts := Text.Split(blob, SEPARATOR);
    Text.JoinSplit(blob, SEPARATOR);
    JoinThree(parts);
  }

  /** Joining three pieces with '|' is framing them. */
  lemma {:induction false} JoinThree(parts: seq<Bytes>)
    requires |parts| == 3
    ensures Text.Join(parts, [SEPARATOR]) == Frame(Parts(parts[0], parts[1], parts[2]))
  {
    assert parts[1..][1..] == [parts[2]];
    assert Text.Join(parts[1..], [SEPARATOR]) == parts[1] + [SEPARATOR] + parts[2];
  }

  /** When the random nonce and ciphertext happen to hold no '|' byte and
      the blob happens to be UTF-8, the parts come back. */
  lemma {:induction false} UnframeWhenClean(p: Parts)
    requires SaltText(p.salt) && SEPARATOR !in p.nonce && SEPARATOR !in p.ciphertext
    requires Text.ValidUtf8(Frame(p))
    ensures Unframe(Frame(p)) == Ok(p)
  {
    assert SEPARATOR !in p.salt;
    var parts := [p.salt, p.nonce, p.ciphertext];
    Text.SplitJoin(parts, SEPARATOR);
    JoinThree(parts);
  }

  /** The round trip fails whenever a '|' byte lands in the nonce or the
      ciphertext, which random bytes do about once in 256. */
  lemma {:induction false} SeparatorBreaksRoundTrip(p: Parts)
    requires SEPARATOR in p.nonce || SEPARATOR in p.ciphertext
    ensures Unframe(Frame(p)) != Ok(p)
  {
  }

  /** The round trip also fails whenever the nonce or the ciphertext holds
      a byte that can never occur in UTF-8, such as 0xFF; a ciphertext of
      random bytes nearly always does. */
  lemma {:induction false} NonUtf8BreaksRoundTrip(p: Parts, k: nat)
    requires k < |p.nonce| && p.nonce[k] == 0xFF
    ensures Unframe(Frame(p)) == Err(INVALID_UTF8)
  {
    Text.ForbiddenByteInvalid(Frame(p), |p.salt| + 1 + k);
  }

  /** A concrete blob: salt "c2FsdA", a nonce starting with 0xFF, a
      one-byte ciphertext. Decoding what was just encoded is refused. */
  lemma {:induction false} RoundTripCounterexample()
    ensures var p := Parts(Text.Ascii("c2FsdA"), [0xFF, 0, 0, 0, 0, 0, 0, 0, 0, 0, 0, 0], [0x41]);
      Unframe(Frame(p)) == Err(INVALID_UTF8)
  {
    var p := Parts(Text.Ascii("c2FsdA"), [0xFF, 0, 0, 0, 0, 0, 0, 0, 0, 0, 0, 0], [0x41]);
    NonUtf8BreaksRoundTrip(p, 0);
  }

  /** Positional reading, as the layout evidently intends: the salt runs
      to the first '|', then come exactly 12 nonce bytes and a '|', and the
      rest is ciphertext, whatever bytes it holds. */
  function UnframeFixed(blob: Bytes): (r: Result<Parts, string>)
    ensures r.Ok? ==> Frame(r.value) == blob && |r.value.nonce| == NONCE_BYTES
    ensures r.Ok? ==> SEPARATOR !in r.value.salt
  {
    if SEPARATOR !in blob then Err(INVALID_FORMAT)
    else
      var i := Text.FirstIndex(blob, SEPARATOR);
      if |blob| < i + NONCE_BYTES + 2 || blob[i + NONCE_BYTES + 1] != SEPARATOR then Err(INVALID_FORMAT)
      else
        var p := Parts(blob[..i], blob[i + 1..i + 1 + NONCE_BYTES], blob[i + NONCE_BYTES + 2..]);
        assert Frame(p) == blob;
        Ok(p)
  }

  /** The positional reading inverts the layout for every nonce and
      ciphertext, '|' and non-UTF-8 bytes included. */
  lemma {:induction false} UnframeFixedRoundTrip(p: Parts)
    requires SaltText(p.salt) && |p.nonce| == NONCE_BYTES
    ensures UnframeFixed(Frame(p)) == Ok(p)
  {
    var blob := Frame(p);
    assert SEPARATOR !in blob[..|p.salt|];
    Text.FirstIndexAt(blob, SEPARATOR, |p.salt|);
  }
}

=== FILE: secure_client.dfy ===
/** The secure chat client's message pipeline (`p2p-core/src/secure_client.rs`):
    inbound bytes are handshakes or encrypted envelopes; handshakes install
    session keys; envelopes pass an age check and the replay check before
    being decrypted and shown; outgoing text is sealed once per session peer
    with a fresh sequence number; a disconnect forgets the peer. Network
    sends and UI lines are returned as effects. */
module SecureClient {
  import opened Base
  import opened Wrappers
  import opened Primitives
  import opened Session
  import opened MessageCrypto
  import opened Handshake
  import KyberKex
  import Net

  /** Oldest envelope accepted, in seconds. */
  const MAX_MESSAGE_AGE: u64 := 300

  /** The client's state apart from the node and the terminal. */
  datatype ClientState = ClientState(
    username: string,
    fingerprint: string,
    sessions: SessionManager,
    handshakes: HandshakeManager,
    sequences: SequenceManager,
    connectedPeers: map<string, string>,
    peerAddresses: map<string, Net.SocketAddr>)

  /** What the UI is told. */
  datatype Notice =
    | SessionEstablished(username: string, fingerprint: string)
    | ChatLine(sender: string, content: string)
    | SystemLine(content: string)
    | PeerLeft(username: string)

  /** Side effects of handling one input, in order. Handshake data is
      broadcast to every connected peer; envelopes go to one peer. */
  datatype Effect =
    | BroadcastHandshake(data: HandshakeData)
    | SendEnvelope(peer: string, envelope: EncryptedMessage)
    | Show(notice: Notice)

  /** `serde_json::from_slice` for the two kinds of inbound data. */
  datatype WireCodec = WireCodec(
    decodeHandshake: Bytes -> Option<HandshakeData>,
    decodeEnvelope: Bytes -> Option<EncryptedMessage>)

  /** Errors that `handle_encrypted_message` propagates to its caller. */
  datatype InboundError = Integrity(cause: IntegrityError) | Replay(replayCause: SequenceError)

  /** Every session is stored under the fingerprint its key records. */
  ghost predicate SessionsKeyed(st: ClientState) {
    forall fp :: fp in st.sessions.sessions ==> st.sessions.sessions[fp].peerFingerprint == fp
  }

  /** The error text handed to `mark_failed`. */
  function Describe(e: HandshakeError): string {
    match e
    case UnsupportedVersion => "Unsupported protocol version"
    case EmptySignature => "Empty signature"
    case InvalidSignature => "Invalid Dilithium signature"
    case NoKyberManager => "No Kyber manager found for initiated handshake"
    case BadKeyExchange(k) =>
      match k
      case WrongRole => "Invalid key exchange role"
      case InitiatorHasCiphertext => "Initiator should not have ciphertext"
      case InvalidPublicKey => "Invalid Kyber public key"
      case ResponderLacksCiphertext => "Responder must have ciphertext"
      case NoKeypair => "No keypair available for decapsulation"
      case InvalidCiphertext => "Invalid Kyber ciphertext"
      case TooOld => "Key exchange data too old"
      case MissingPublicKey => "Initiator must have public key"
      case PublicKeyLength => "Invalid Kyber public key length"
      case CiphertextLength => "Invalid Kyber ciphertext length"
  }

  /** `handle_handshake`. On success the session is installed under the
      fingerprint the key records (the one the handshake claims), the
      claimed username is recorded, the response (if any) is broadcast and
      the UI is told. On failure the handshake state of the NETWORK peer id
      is marked failed and nothing else changes. It never reports an error. */
  function HandleHandshake(p: Suite, st: ClientState, peerId: string, hd: HandshakeData, coins: Bytes, now: u64)
    : (r: (ClientState, seq<Effect>))
    requires Sound(p)
    ensures SessionsKeyed(st) ==> SessionsKeyed(r.0)
    ensures var res := ProcessHandshake(p, st.handshakes, hd, coins, now);
      res.Ok? ==> Installed(st, r.0, hd, res.value) && Announced(r.1, hd, res.value)
    ensures var res := ProcessHandshake(p, st.handshakes, hd, coins, now);
      res.Err? ==> r.0 == st.(handshakes := MarkFailed(st.handshakes, peerId, Describe(res.error))) && r.1 == []
    ensures r.0.sequences == st.sequences && r.0.peerAddresses == st.peerAddresses
  {
    ApplyOutcome(st, peerId, hd, ProcessHandshake(p, st.handshakes, hd, coins, now))
  }

  /** The client's reaction to the outcome `res` of processing `hd`. */
  function ApplyOutcome(st: ClientState, peerId: string, hd: HandshakeData, res: Result<Processed, HandshakeError>)
    : (r: (ClientState, seq<Effect>))
    requires res.Ok? ==> res.value.sessionKey.peerFingerprint == hd.peerInfo.fingerprint
    ensures SessionsKeyed(st) ==> SessionsKeyed(r.0)
    ensures res.Ok? ==> Installed(st, r.0, hd, res.value)
    ensures res.Ok? ==> Announced(r.1, hd, res.value)
    ensures res.Err? ==> r.0 == st.(handshakes := MarkFailed(st.handshakes, peerId, Describe(res.error))) && r.1 == []
    ensures r.0.sequences == st.sequences && r.0.peerAddresses == st.peerAddresses
  {
    if res.Ok? then
      var done := res.value;
      var fp := done.sessionKey.peerFingerprint;
      var st' := st.(handshakes := done.manager,
                     sessions := AddSession(st.sessions, fp, done.sessionKey),
                     connectedPeers := st.connectedPeers[fp := hd.peerInfo.username]);
      var sends := if done.response.Some? then [BroadcastHandshake(done.response.value)] else [];
      (st', sends + [Show(SessionEstablished(hd.peerInfo.username, fp))])
    else
      (st.(handshakes := MarkFailed(st.handshakes, peerId, Describe(res.error))), [])
  }

  /** The effects of a successful handshake: the response, if processing
      produced one, is broadcast first, and the UI is then told who joined. */
  predicate Announced(out: seq<Effect>, hd: HandshakeData, done: Processed) {
    |out| == (if done.response.Some? then 2 else 1)
    && (done.response.Some? ==> out[0] == BroadcastHandshake(done.response.value))
    && out[|out| - 1] == Show(SessionEstablished(hd.peerInfo.username, hd.peerInfo.fingerprint))
  }

  /** After a successful handshake with the peer described by `hd`: its
      session holds the new key under the fingerprint it claimed, no other
      session changed, its claimed username is recorded and the handshake
      manager is the one processing produced. */
  ghost predicate Installed(st: ClientState, st': ClientState, hd: HandshakeData, done: Processed) {
    var fp := hd.peerInfo.fingerprint;
    GetSession(st'.sessions, fp) == Some(done.sessionKey)
    && (forall q :: q != fp ==> GetSession(st'.sessions, q) == GetSession(st.sessions, q))
    && fp in st'.connectedPeers && st'.connectedPeers[fp] == hd.peerInfo.username
    && st'.handshakes == done.manager
  }

  /** `handle_encrypted_message`. The integrity check is given the
      envelope's own sender field as the expected sender, so only its age
      test can fail; the replay check runs next and records the sequence
      number; only then is a session looked up (none: dropped silently) and
      the content decrypted (failure: dropped silently). Text and system
      messages, by the envelope's type, are shown. */
  function HandleEncryptedMessage(p: Suite, c: PlainCodec, st: ClientState, e: EncryptedMessage, now: u64)
    : (r: Result<(ClientState, seq<Effect>), InboundError>)
    ensures r.Ok? <==> WrappingSub(now, e.timestamp) <= MAX_MESSAGE_AGE
                       && ValidateSequence(st.sequences, e.senderFingerprint, e.sequence).Ok?
    ensures r.Ok? ==> r.value.0 == st.(sequences := ValidateSequence(st.sequences, e.senderFingerprint, e.sequence).value)
    ensures r.Ok? && !HasSession(st.sessions, e.senderFingerprint) ==> r.value.1 == []
    ensures r.Ok? && |r.value.1| > 0 ==> HasSession(st.sessions, e.senderFingerprint)
    ensures r.Ok? && HasSession(st.sessions, e.senderFingerprint) ==>
      var d := DecryptMessage(p, c, st.sessions.sessions[e.senderFingerprint], e);
      r.value.1 == if d.Err? then []
                   else if e.messageType.Text? then [Show(ChatLine(d.value.sender, d.value.content))]
                   else if e.messageType.System? then [Show(SystemLine(d.value.content))]
                   else []
  {
    var fp := e.senderFingerprint;
    var _ :- VerifyMessageIntegrity(e, fp, MAX_MESSAGE_AGE, now).PropagateOr(x => Integrity(x));
    var sequences :- ValidateSequence(st.sequences, fp, e.sequence).PropagateOr(x => Replay(x));
    var st' := st.(sequences := sequences);
    match GetSession(st.sessions, fp)
    case None => Ok((st', []))
    case Some(key) =>
      match DecryptMessage(p, c, key, e)
      case Err(_) => Ok((st', []))
      case Ok(m) =>
        match e.messageType
        case Text => Ok((st', [Show(ChatLine(m.sender, m.content))]))
        case System => Ok((st', [Show(SystemLine(m.content))]))
        case _ => Ok((st', []))
  }

  /** The inbound sender check can never fail: an envelope's sender field
      always equals itself, so integrity reduces to the age test. */
  lemma SenderCheckVacuous(e: EncryptedMessage, now: u64)
    ensures VerifyMessageIntegrity(e, e.senderFingerprint, MAX_MESSAGE_AGE, now).Ok?
            <==> WrappingSub(now, e.timestamp) <= MAX_MESSAGE_AGE
  {
  }

  /** An envelope for a peer without a session is dropped, yet its sequence
      number is recorded, so a later envelope with that number is refused
      even once a session exists. */
  lemma SequenceBurnedWithoutSession(p: Suite, c: PlainCodec, st: ClientState, e: EncryptedMessage, e2: EncryptedMessage, now: u64)
    requires !HasSession(st.sessions, e.senderFingerprint)
    requires HandleEncryptedMessage(p, c, st, e, now).Ok?
    requires e2.senderFingerprint == e.senderFingerprint && e2.sequence <= e.sequence
    ensures HandleEncryptedMessage(p, c, st, e, now).value.1 == []
    ensures HandleEncryptedMessage(p, c, HandleEncryptedMessage(p, c, st, e, now).value.0, e2, now)
            == Err(Replay(DuplicateOrOld))
            || HandleEncryptedMessage(p, c, HandleEncryptedMessage(p, c, st, e, now).value.0, e2, now)
            == Err(Integrity(TooOld))
  {
  }

  /** `handle_received_data`: handshake first, envelope second, anything
      else ignored without a state change. */
  function HandleReceivedData(p: Suite, pc: PlainCodec, w: WireCodec, st: ClientState, peerId: string,
                              data: Bytes, coins: Bytes, now: u64)
    : (r: Result<(ClientState, seq<Effect>), InboundError>)
    requires Sound(p)
    ensures w.decodeHandshake(data).Some? ==>
      r == Ok(HandleHandshake(p, st, peerId, w.decodeHandshake(data).value, coins, now))
    ensures w.decodeHandshake(data).None? && w.decodeEnvelope(data).Some? ==>
      r == HandleEncryptedMessage(p, pc, st, w.decodeEnvelope(data).value, now)
    ensures w.decodeHandshake(data).None? && w.decodeEnvelope(data).None? ==> r == Ok((st, []))
    ensures SessionsKeyed(st) && r.Ok? ==> SessionsKeyed(r.value.0)
  {
    match w.decodeHandshake(data)
    case Some(hd) => Ok(HandleHandshake(p, st, peerId, hd, coins, now))
    case None =>
      match w.decodeEnvelope(data)
      case Some(e) => HandleEncryptedMessage(p, pc, st, e, now)
      case None => Ok((st, []))
  }

  /** Seal `m` for each peer of `order` in turn, drawing one sequence number
      per peer. */
  function SealForEach(p: Suite, c: PlainCodec, sessions: SessionManager, seqs: SequenceManager,
                       m: PlainMessage, order: seq<string>, nonces: seq<Bytes>)
    : (r: (SequenceManager, seq<Effect>))
    requires |nonces| == |order|
    requires forall i :: 0 <= i < |nonces| ==> |nonces[i]| == AES_NONCE_BYTES
    requires forall i :: 0 <= i < |order| ==> order[i] in sessions.sessions
    requires seqs.ourSequence + |order| < U64_MODULUS
    ensures |r.1| == |order|
    ensures r.0.ourSequence == seqs.ourSequence + |order| && r.0.peerSequences == seqs.peerSequences
    ensures forall i :: 0 <= i < |order| ==>
      r.1[i].SendEnvelope? && r.1[i].peer == order[i] && r.1[i].envelope.sequence == seqs.ourSequence + i + 1
    decreases |order|
  {
    if |order| == 0 then (seqs, [])
    else
      var (seqs1, n) := NextSequence(seqs);
      var e := EncryptMessage(p, c, sessions.sessions[order[0]], m, n, nonces[0]);
      var (seqs2, rest) := SealForEach(p, c, sessions, seqs1, m, order[1..], nonces[1..]);
      (seqs2, [SendEnvelope(order[0], e)] + rest)
  }

  /** `send_message_to_all`: a text message stamped `now` is sealed for every
      peer with a session, in the session map's iteration order `order`,
      each with its own nonce and the next number of the one outgoing
      counter, then shown locally. */
  function SendMessageToAll(p: Suite, c: PlainCodec, st: ClientState, content: string,
                            order: seq<string>, nonces: seq<Bytes>, now: u64)
    : (r: (ClientState, seq<Effect>))
    requires Enumerates(order, ActivePeers(st.sessions))
    requires |nonces| == |order|
    requires forall i :: 0 <= i < |nonces| ==> |nonces[i]| == AES_NONCE_BYTES
    requires st.sequences.ourSequence + |order| < U64_MODULUS
    ensures |r.1| == SessionCount(st.sessions) + 1
    ensures r.1[|r.1| - 1] == Show(ChatLine(st.username, content))
    ensures forall i, j :: 0 <= i < j < |r.1| - 1 ==>
      r.1[i].SendEnvelope? && r.1[j].SendEnvelope? && r.1[i].envelope.sequence < r.1[j].envelope.sequence
    ensures forall i :: 0 <= i < |r.1| - 1 ==>
      r.1[i].SendEnvelope? && r.1[i].envelope.sequence > st.sequences.ourSequence
    ensures r.0 == st.(sequences := st.sequences.(ourSequence := st.sequences.ourSequence + |order|))
  {
    var m := CreateMessage(st.username, content, MessageCrypto.Text, now);
    var shown := Show(ChatLine(st.username, content));
    EnumeratedHaveSessions(order, st.sessions);
    var sealed := SealForEach(p, c, st.sessions, st.sequences, m, order, nonces);
    EnumerationLength(order, ActivePeers(st.sessions));
    SealedThenShown(p, c, st.sessions, st.sequences, m, order, nonces, shown);
    assert sealed.0 == st.sequences.(ourSequence := st.sequences.ourSequence + |order|);
    (st.(sequences := sealed.0), sealed.1 + [shown])
  }

  /** Every fingerprint of an enumeration of the active peers has a
      session. */
  lemma EnumeratedHaveSessions(order: seq<string>, sessions: SessionManager)
    requires Enumerates(order, ActivePeers(sessions))
    ensures forall i :: 0 <= i < |order| ==> order[i] in sessions.sessions
  {
  }

  /** The effects of `send_message_to_all`: one envelope per session, in
      increasing sequence order above the counter, then the local line. */
  lemma SendsThenShow(p: Suite, c: PlainCodec, st: ClientState, m: PlainMessage,
                      order: seq<string>, nonces: seq<Bytes>, shown: Effect)
    requires Enumerates(order, ActivePeers(st.sessions))
    requires |nonces| == |order|
    requires forall i :: 0 <= i < |nonces| ==> |nonces[i]| == AES_NONCE_BYTES
    requires forall i :: 0 <= i < |order| ==> order[i] in st.sessions.sessions
    requires st.sequences.ourSequence + |order| < U64_MODULUS
    ensures var out := SealForEach(p, c, st.sessions, st.sequences, m, order, nonces).1 + [shown];
      |out| == SessionCount(st.sessions) + 1
      && out[|out| - 1] == shown
      && (forall i, j :: 0 <= i < j < |out| - 1 ==>
            out[i].SendEnvelope? && out[j].SendEnvelope? && out[i].envelope.sequence < out[j].envelope.sequence)
      && (forall i :: 0 <= i < |out| - 1 ==>
            out[i].SendEnvelope? && out[i].envelope.sequence > st.sequences.ourSequence)
  {
    EnumerationLength(order, ActivePeers(st.sessions));
    SealedThenShown(p, c, st.sessions, st.sequences, m, order, nonces, shown);
  }

  /** The envelopes of `SealForEach` followed by `shown` keep their
      increasing numbering above the counter. */
  lemma SealedThenShown(p: Suite, c: PlainCodec, sessions: SessionManager, seqs: SequenceManager,
                        m: PlainMessage, order: seq<string>, nonces: seq<Bytes>, shown: Effect)
    requires |nonces| == |order|
    requires forall i :: 0 <= i < |nonces| ==> |nonces[i]| == AES_NONCE_BYTES
    requires forall i :: 0 <= i < |order| ==> order[i] in sessions.sessions
    requires seqs.ourSequence + |order| < U64_MODULUS
    ensures var out := SealForEach(p, c, sessions, seqs, m, order, nonces).1 + [shown];
      |out| == |order| + 1
      && out[|out| - 1] == shown
      && (forall i, j :: 0 <= i < j < |out| - 1 ==>
            out[i].SendEnvelope? && out[j].SendEnvelope? && out[i].envelope.sequence < out[j].envelope.sequence)
      && (forall i :: 0 <= i < |out| - 1 ==>
            out[i].SendEnvelope? && out[i].envelope.sequence > seqs.ourSequence)
  {
    var sends := SealForEach(p, c, sessions, seqs, m, order, nonces).1;
    NumberedThenShown(sends, shown, seqs.ourSequence);
  }

  /** Envelopes numbered consecutively above `base`, followed by one more
      effect, are in increasing order and all above `base`. */
  lemma NumberedThenShown(sends: seq<Effect>, shown: Effect, base: nat)
    requires forall i :: 0 <= i < |sends| ==> sends[i].SendEnvelope? && sends[i].envelope.sequence == base + i + 1
    ensures var out := sends + [shown];
      out[|out| - 1] == shown
      && (forall i, j :: 0 <= i < j < |out| - 1 ==>
            out[i].SendEnvelope? && out[j].SendEnvelope? && out[i].envelope.sequence < out[j].envelope.sequence)
      && (forall i :: 0 <= i < |out| - 1 ==> out[i].SendEnvelope? && out[i].envelope.sequence > base)
  {
    var out := sends + [shown];
    assert forall i :: 0 <= i < |sends| ==> out[i] == sends[i];
  }

  /** The `i`-th envelope is `m` sealed under the `i`-th peer's key with
      that peer's nonce and the counter's value plus `i + 1`. */
  lemma {:induction false} SealedWith(p: Suite, c: PlainCodec, sessions: SessionManager, seqs: SequenceManager,
                                      m: PlainMessage, order: seq<string>, nonces: seq<Bytes>, i: nat)
    requires |nonces| == |order|
    requires forall k :: 0 <= k < |nonces| ==> |nonces[k]| == AES_NONCE_BYTES
    requires forall k :: 0 <= k < |order| ==> order[k] in sessions.sessions
    requires seqs.ourSequence + |order| < U64_MODULUS
    requires i < |order|
    ensures SealForEach(p, c, sessions, seqs, m, order, nonces).1[i]
      == SendEnvelope(order[i], EncryptMessage(p, c, sessions.sessions[order[i]], m, seqs.ourSequence + i + 1, nonces[i]))
    decreases i
  {
    if i > 0 {
      var (seqs1, _) := NextSequence(seqs);
      SealedWith(p, c, sessions, seqs1, m, order[1..], nonces[1..], i - 1);
    }
  }

  /** What each outgoing envelope says: its sender field is the RECIPIENT's
      fingerprint (the session key's peer), and its recipient, holding the
      same key bytes, opens it to the message typed. */
  lemma SentEnvelopesNameRecipient(p: Suite, c: PlainCodec, st: ClientState, content: string,
                                   order: seq<string>, nonces: seq<Bytes>, now: u64,
                                   i: nat, theirKey: SessionKey)
    requires Sound(p) && Faithful(c) && SessionsKeyed(st)
    requires forall fp :: fp in st.sessions.sessions ==> ValidKey(st.sessions.sessions[fp])
    requires Enumerates(order, ActivePeers(st.sessions))
    requires |nonces| == |order|
    requires forall k :: 0 <= k < |nonces| ==> |nonces[k]| == AES_NONCE_BYTES
    requires st.sequences.ourSequence + |order| < U64_MODULUS
    requires i < |order|
    requires theirKey.key == st.sessions.sessions[order[i]].key
    ensures var out := SendMessageToAll(p, c, st, content, order, nonces, now).1;
      out[i].SendEnvelope? && out[i].peer == order[i]
      && out[i].envelope.senderFingerprint == order[i]
      && DecryptMessage(p, c, theirKey, out[i].envelope)
         == Ok(CreateMessage(st.username, content, MessageCrypto.Text, now))
  {
    var m := CreateMessage(st.username, content, MessageCrypto.Text, now);
    var key := st.sessions.sessions[order[i]];
    EnumeratedHaveSessions(order, st.sessions);
    SealedWith(p, c, st.sessions, st.sequences, m, order, nonces, i);
    DecryptEncryptMessage(p, c, key, theirKey, m, st.sequences.ourSequence + i + 1, nonces[i]);
  }

  /** Consequence of that labelling: a receiver looks the session up under
      the envelope's sender field, which is its OWN fingerprint; a receiver
      with no session under its own fingerprint shows nothing. */
  lemma OwnLabelShowsNothing(p: Suite, c: PlainCodec, receiver: ClientState, e: EncryptedMessage, now: u64)
    requires e.senderFingerprint == receiver.fingerprint
    requires !HasSession(receiver.sessions, receiver.fingerprint)
    ensures HandleEncryptedMessage(p, c, receiver, e, now).Ok? ==> HandleEncryptedMessage(p, c, receiver, e, now).value.1 == []
  {
  }

  /** With the envelope labelled by the sender's own fingerprint, a
      receiver that holds a session with the sender under that fingerprint
      (the same key bytes) and has not yet seen the sequence number shows
      the sender's line, and records the number. */
  lemma SenderLabelShowsChat(p: Suite, c: PlainCodec, sender: ClientState, receiver: ClientState,
                             content: string, key: SessionKey, theirKey: SessionKey,
                             sequence: u64, nonce: Bytes, now: u64)
    requires Sound(p) && Faithful(c) && ValidKey(key)
    requires GetSession(receiver.sessions, sender.fingerprint) == Some(theirKey) && theirKey.key == key.key
    requires ValidateSequence(receiver.sequences, sender.fingerprint, sequence).Ok?
    requires |nonce| == AES_NONCE_BYTES
    ensures var m := CreateMessage(sender.username, content, MessageCrypto.Text, now);
      var e := EncryptMessageAsSender(p, c, key, m, sequence, nonce, sender.fingerprint);
      HandleEncryptedMessage(p, c, receiver, e, now)
      == Ok((receiver.(sequences := ValidateSequence(receiver.sequences, sender.fingerprint, sequence).value),
             [Show(ChatLine(sender.username, content))]))
  {
    var m := CreateMessage(sender.username, content, MessageCrypto.Text, now);
    DecryptEncryptAsSender(p, c, key, theirKey, m, sequence, nonce, sender.fingerprint);
  }

  /** `handle_peer_disconnect`: the peer's session, username and address are
      removed and its sequence is reset; the UI is told only if a username
      was known. */
  function HandlePeerDisconnect(st: ClientState, peerId: string): (r: (ClientState, seq<Effect>))
    ensures !HasSession(r.0.sessions, peerId) && peerId !in r.0.connectedPeers && peerId !in r.0.peerAddresses
    ensures peerId !in r.0.sequences.peerSequences
    ensures forall q :: q != peerId ==> GetSession(r.0.sessions, q) == GetSession(st.sessions, q)
    ensures forall q :: q != peerId ==> (q in r.0.connectedPeers <==> q in st.connectedPeers)
    ensures r.0.connectedPeers - {peerId} == st.connectedPeers - {peerId}
    ensures r.0.peerAddresses - {peerId} == st.peerAddresses - {peerId}
    ensures r.0.sequences.ourSequence == st.sequences.ourSequence
    ensures r.0.sequences.peerSequences - {peerId} == st.sequences.peerSequences - {peerId}
    ensures r.1 == (if peerId in st.connectedPeers then [Show(PeerLeft(st.connectedPeers[peerId]))] else [])
    ensures r.0.handshakes == st.handshakes
    ensures r.0.username == st.username && r.0.fingerprint == st.fingerprint
    ensures SessionsKeyed(st) ==> SessionsKeyed(r.0)
  {
    var st' := st.(sessions := RemoveSession(st.sessions, peerId).0,
                   connectedPeers := st.connectedPeers - {peerId},
                   peerAddresses := st.peerAddresses - {peerId},
                   sequences := ResetPeerSequence(st.sequences, peerId));
    (st', if peerId in st.connectedPeers then [Show(PeerLeft(st.connectedPeers[peerId]))] else [])
  }
}

=== FILE: session.dfy ===
/** Session keys for peer-to-peer encryption (`shared/src/crypto/session.rs`):
    a 32-byte AES-256-GCM key bound to a peer fingerprint, the nonce-prefixed
    ciphertext format, and the map of sessions by peer fingerprint. */
module Session {
  import opened Base
  import opened Wrappers
  import opened Primitives
  import Text

  /** Lifetime of a session key, in seconds. */
  const SESSION_LIFETIME_SECS: nat := 3600

  /** Domain separation label appended to the shared secret. */
  const SESSION_KEY_LABEL: Bytes := Text.Ascii("dpq-chat-session-key")

  datatype SessionKey = SessionKey(key: Bytes, createdAt: u64, peerFingerprint: string)

  datatype SessionError = TooShort | DecryptionFailed

  /** `SessionKey::generate`: `randomKey` stands for the 32 bytes drawn from
      the operating system's generator, `now` for the clock. */
  function Generate(peerFingerprint: string, randomKey: Bytes, now: u64): (k: SessionKey)
    requires |randomKey| == AES_KEY_BYTES
    ensures ValidKey(k) && k.peerFingerprint == peerFingerprint
    ensures !IsExpired(k, now)
  {
    SessionKey(randomKey, now, peerFingerprint)
  }

  /** A key of the size AES-256 needs. */
  predicate ValidKey(k: SessionKey) {
    |k.key| == AES_KEY_BYTES
  }

  /** `SessionKey::from_shared_secret`: the key is the SHA-256 digest of the
      shared secret followed by the label. */
  function FromSharedSecret(p: Suite, secret: Bytes, peerFingerprint: string, now: u64): (k: SessionKey)
    requires Sound(p)
    ensures ValidKey(k) && k.peerFingerprint == peerFingerprint && k.createdAt == now
    ensures !IsExpired(k, now)
  {
    SessionKey(p.sha256(secret + SESSION_KEY_LABEL)[..32], now, peerFingerprint)
  }

  /** Two parties holding the same shared secret derive the same key bytes,
      whatever fingerprint each records and whenever each derives it. */
  lemma SameSecretSameKey(p: Suite, secret: Bytes, fp1: string, fp2: string, t1: u64, t2: u64)
    requires Sound(p)
    ensures FromSharedSecret(p, secret, fp1, t1).key == FromSharedSecret(p, secret, fp2, t2).key
  {
  }

  /** `SessionKey::is_expired`: more than an hour has passed. The `u64`
      subtraction wraps when the clock is behind `createdAt`. */
  function IsExpired(k: SessionKey, now: u64): (r: bool)
    ensures k.createdAt <= now ==> (r <==> now > k.createdAt + SESSION_LIFETIME_SECS)
    ensures now < k.createdAt && k.createdAt - now < U64_MODULUS - SESSION_LIFETIME_SECS ==> r
  {
    WrappingSub(now, k.createdAt) > SESSION_LIFETIME_SECS
  }

  /** `SessionKey::encrypt`: the 12-byte nonce (drawn from the operating
      system's generator, here a parameter) followed by the AES-GCM output. */
  function Encrypt(p: Suite, k: SessionKey, plaintext: Bytes, nonce: Bytes): (r: Bytes)
    requires |nonce| == AES_NONCE_BYTES
    ensures |r| >= AES_NONCE_BYTES && r[..AES_NONCE_BYTES] == nonce
  {
    nonce + p.aeadSeal(k.key, nonce, plaintext)
  }

  /** `SessionKey::decrypt`: split off the nonce and open the rest. */
  function Decrypt(p: Suite, k: SessionKey, data: Bytes): (r: Result<Bytes, SessionError>)
    ensures |data| < AES_NONCE_BYTES ==> r == Err(TooShort)
    ensures r.Ok? ==> p.aeadOpen(k.key, data[..AES_NONCE_BYTES], data[AES_NONCE_BYTES..]) == Some(r.value)
  {
    if |data| < AES_NONCE_BYTES then Err(TooShort)
    else
      match p.aeadOpen(k.key, data[..AES_NONCE_BYTES], data[AES_NONCE_BYTES..])
      case Some(plain) => Ok(plain)
      case None => Err(DecryptionFailed)
  }

  /** Decryption with the same key bytes undoes encryption. */
  lemma DecryptEncrypt(p: Suite, k: SessionKey, k': SessionKey, plaintext: Bytes, nonce: Bytes)
    requires Sound(p) && ValidKey(k) && k'.key == k.key
    requires |nonce| == AES_NONCE_BYTES
    ensures Decrypt(p, k', Encrypt(p, k, plaintext, nonce)) == Ok(plaintext)
  {
    var data := Encrypt(p, k, plaintext, nonce);
    assert data[AES_NONCE_BYTES..] == p.aeadSeal(k.key, nonce, plaintext);
  }

  /** `SessionManager`: session keys indexed by peer fingerprint. */
  datatype SessionManager = SessionManager(sessions: map<string, SessionKey>)

  const EMPTY_MANAGER: SessionManager := SessionManager(map[])

  /** `SessionManager::has_session`. */
  predicate HasSession(m: SessionManager, fp: string) {
    fp in m.sessions
  }

  /** `SessionManager::get_session`. */
  function GetSession(m: SessionManager, fp: string): (r: Option<SessionKey>)
    ensures r.Some? <==> HasSession(m, fp)
  {
    if fp in m.sessions then Some(m.sessions[fp]) else None
  }

  /** `SessionManager::session_count`. */
  function SessionCount(m: SessionManager): (n: nat)
    ensures n == 0 <==> forall fp :: !HasSession(m, fp)
  {
    if |m.sessions| == 0 then 0
    else
      HasSomeSession(m);
      |m.sessions|
  }

  lemma HasSomeSession(m: SessionManager)
    requires |m.sessions| > 0
    ensures exists fp :: HasSession(m, fp)
  {
    assert m.sessions.Keys != {};
    var fp :| fp in m.sessions.Keys;
    assert HasSession(m, fp);
  }

  /** `SessionManager::active_peers`: the fingerprints with a session. The
      source returns them as a vector in hash-map order. */
  function ActivePeers(m: SessionManager): (r: set<string>)
    ensures forall fp :: fp in r <==> HasSession(m, fp)
    ensures |r| == SessionCount(m)
  {
    m.sessions.Keys
  }

  /** `SessionManager::add_session`: afterwards the fingerprint maps to the
      new key, replacing any older one, and no other session changes. */
  function AddSession(m: SessionManager, fp: string, k: SessionKey): (r: SessionManager)
    ensures GetSession(r, fp) == Some(k)
    ensures forall q :: q != fp ==> GetSession(r, q) == GetSession(m, q)
    ensures SessionCount(r) == SessionCount(m) + (if HasSession(m, fp) then 0 else 1)
  {
    SessionManager(m.sessions[fp := k])
  }

  /** `SessionManager::remove_session`: returns the key the peer had, and
      leaves every other session in place. */
  function RemoveSession(m: SessionManager, fp: string): (r: (SessionManager, Option<SessionKey>))
    ensures r.1 == GetSession(m, fp)
    ensures !HasSession(r.0, fp)
    ensures forall q :: q != fp ==> GetSession(r.0, q) == GetSession(m, q)
    ensures SessionCount(r.0) == SessionCount(m) - (if HasSession(m, fp) then 1 else 0)
  {
    (SessionManager(m.sessions - {fp}), GetSession(m, fp))
  }

  /** `SessionManager::cleanup_expired`: exactly the unexpired sessions stay,
      unchanged. */
  function CleanupExpired(m: SessionManager, now: u64): (r: SessionManager)
    ensures forall fp :: HasSession(r, fp) <==> HasSession(m, fp) && !IsExpired(m.sessions[fp], now)
    ensures forall fp :: HasSession(r, fp) ==> fp in m.sessions && r.sessions[fp] == m.sessions[fp]
    ensures SessionCount(r) <= SessionCount(m)
  {
    var kept := map fp | fp in m.sessions && !IsExpired(m.sessions[fp], now) :: m.sessions[fp];
    assert kept.Keys <= m.sessions.Keys;
    Base.SubsetCard(kept.Keys, m.sessions.Keys);
    SessionManager(kept)
  }

  /** Adding a session and removing it again leaves the manager as it was,
      for a peer that had no session before. */
  lemma AddThenRemove(m: SessionManager, fp: string, k: SessionKey)
    requires !HasSession(m, fp)
    ensures RemoveSession(AddSession(m, fp, k), fp) == (m, Some(k))
  {
    assert AddSession(m, fp, k).sessions - {fp} == m.sessions;
  }
}

=== FILE: text.dfy ===
/** Rust `str`/`String` behaviour the program relies on, over Dafny strings
    (sequences of Unicode scalar values): UTF-8 byte length and encoding,
    `trim`, `split`/`join`, prefix and suffix tests, `replace` and decimal
    formatting. */
module Text {
  import opened Base
  import Wrappers

  /** Number of bytes `c` takes in UTF-8. */
  function Utf8Width(c: char): (w: nat)
    ensures 1 <= w <= 4
    ensures w == 1 <==> c as int < 0x80
  {
    if c as int < 0x80 then 1
    else if c as int < 0x800 then 2
    else if c as int < 0x10000 then 3
    else 4
  }

  /** `str::len()`: the length of `s` in UTF-8 bytes. */
  function Utf8Len(s: string): (n: nat)
    ensures n >= |s|
    ensures n <= 4 * |s|
  {
    if |s| == 0 then 0 else Utf8Width(s[0]) + Utf8Len(s[1..])
  }

  lemma {:induction false} Utf8LenAppend(a: string, b: string)
    ensures Utf8Len(a + b) == Utf8Len(a) + Utf8Len(b)
  {
    if |a| > 0 {
      assert (a + b)[1..] == a[1..] + b;
      Utf8LenAppend(a[1..], b);
    } else {
      assert a + b == b;
    }
  }

  /** A string of ASCII characters has as many bytes as characters. */
  lemma {:induction false} AsciiUtf8Len(s: string)
    requires forall i :: 0 <= i < |s| ==> s[i] as int < 0x80
    ensures Utf8Len(s) == |s|
  {
    if |s| > 0 {
      AsciiUtf8Len(s[1..]);
    }
  }

  /** `&s[..k]` with `k` a byte index: the number of characters whose
      encoding fills exactly the first `k` bytes, or `None` where Rust
      panics because `k` falls inside a character or past the end. */
  function BytePrefix(s: string, k: nat): (r: Wrappers.Option<nat>)
    ensures r.Some? ==> r.value <= |s| && Utf8Len(s[..r.value]) == k
    ensures r.None? ==> forall j :: 0 <= j <= |s| ==> Utf8Len(s[..j]) != k
  {
    if k == 0 then
      assert Utf8Len(s[..0]) == 0;
      Wrappers.Some(0)
    else if |s| == 0 then
      assert forall j :: 0 <= j <= |s| ==> s[..j] == [];
      Wrappers.None
    else if Utf8Width(s[0]) > k then
      assert forall j :: 1 <= j <= |s| ==> Utf8Len(s[..j]) == Utf8Width(s[0]) + Utf8Len(s[1..][..j - 1]) by {
        forall j | 1 <= j <= |s| ensures Utf8Len(s[..j]) == Utf8Width(s[0]) + Utf8Len(s[1..][..j - 1]) {
          assert s[..j][1..] == s[1..][..j - 1];
        }
      }
      Wrappers.None
    else
      var rest := BytePrefix(s[1..], k - Utf8Width(s[0]));
      assert forall j :: 1 <= j <= |s| ==> Utf8Len(s[..j]) == Utf8Width(s[0]) + Utf8Len(s[1..][..j - 1]) by {
        forall j | 1 <= j <= |s| ensures Utf8Len(s[..j]) == Utf8Width(s[0]) + Utf8Len(s[1..][..j - 1]) {
          assert s[..j][1..] == s[1..][..j - 1];
        }
      }
      if rest.Some? then Wrappers.Some(rest.value + 1) else Wrappers.None
  }

  /** In ASCII text every byte index up to the length is a character
      boundary. */
  lemma {:induction false} AsciiBytePrefix(s: string, k: nat)
    requires forall i :: 0 <= i < |s| ==> s[i] as int < 0x80
    requires k <= |s|
    ensures BytePrefix(s, k) == Wrappers.Some(k)
  {
    if k > 0 {
      AsciiBytePrefix(s[1..], k - 1);
    }
  }

  /** The UTF-8 encoding of one character. */
  function EncodeChar(c: char): (b: Bytes)
    ensures |b| == Utf8Width(c)
    ensures |b| == 1 ==> b[0] as int == c as int
    ensures |b| > 1 ==> forall i :: 0 <= i < |b| ==> b[i] >= 0x80
  {
    var v := c as int;
    if v < 0x80 then [v as byte]
    else if v < 0x800 then [(0xC0 + v / 64) as byte, (0x80 + v % 64) as byte]
    else if v < 0x10000 then
      [(0xE0 + v / 4096) as byte, (0x80 + (v / 64) % 64) as byte, (0x80 + v % 64) as byte]
    else
      [(0xF0 + v / 262144) as byte, (0x80 + (v / 4096) % 64) as byte,
       (0x80 + (v / 64) % 64) as byte, (0x80 + v % 64) as byte]
  }

  /** `str::as_bytes()`. */
  function Utf8Encode(s: string): (b: Bytes)
    ensures |b| == Utf8Len(s)
  {
    if |s| == 0 then [] else EncodeChar(s[0]) + Utf8Encode(s[1..])
  }

  /** The bytes of an ASCII string (a byte-string literal such as
      `b"dpq-chat-session-key"`): one byte per character. */
  function Ascii(s: string): (b: Bytes)
    ensures |b| == |s|
  {
    seq(|s|, i requires 0 <= i < |s| => (s[i] as int % 256) as byte)
  }

  /** For ASCII text the byte literal is the UTF-8 encoding. */
  lemma {:induction false} AsciiIsUtf8(s: string)
    requires forall i :: 0 <= i < |s| ==> s[i] as int < 0x80
    ensures Ascii(s) == Utf8Encode(s)
  {
    if |s| > 0 {
      AsciiIsUtf8(s[1..]);
      assert Ascii(s) == [Ascii(s)[0]] + Ascii(s[1..]);
    }
  }

  /** An ASCII byte occurs in the encoding of `s` exactly where its character
      occurs in `s`: multi-byte sequences only use bytes of 0x80 and above. */
  lemma {:induction false} AsciiByteInEncoding(s: string, c: char)
    requires c as int < 0x80
    ensures (c as int) as byte in Utf8Encode(s) <==> c in s
  {
    if |s| > 0 {
      AsciiByteInEncoding(s[1..], c);
      assert Utf8Encode(s) == EncodeChar(s[0]) + Utf8Encode(s[1..]);
      assert s == [s[0]] + s[1..];
    }
  }

  /** Length of the well-formed UTF-8 sequence at the start of `b` (Table 3-7
      of the Unicode Standard, which `std::str::from_utf8` enforces), or 0 when
      `b` does not start with one. */
  function LeadSequence(b: Bytes): (n: nat)
    ensures n <= |b| && n <= 4
  {
    if |b| == 0 then 0
    else
      var b0 := b[0];
      if b0 < 0x80 then 1
      else if 0xC2 <= b0 <= 0xDF then
        if |b| >= 2 && Cont(b[1]) then 2 else 0
      else if 0xE0 <= b0 <= 0xEF then
        var lo := if b0 == 0xE0 then 0xA0 else 0x80;
        var hi := if b0 == 0xED then 0x9F else 0xBF;
        if |b| >= 3 && lo <= b[1] <= hi && Cont(b[2]) then 3 else 0
      else if 0xF0 <= b0 <= 0xF4 then
        var lo := if b0 == 0xF0 then 0x90 else 0x80;
        var hi := if b0 == 0xF4 then 0x8F else 0xBF;
        if |b| >= 4 && lo <= b[1] <= hi && Cont(b[2]) && Cont(b[3]) then 4 else 0
      else 0
  }

  /** A UTF-8 continuation byte. */
  predicate Cont(x: byte) {
    0x80 <= x <= 0xBF
  }

  /** `std::str::from_utf8(b).is_ok()`. */
  predicate ValidUtf8(b: Bytes)
    decreases |b|
  {
    |b| == 0 || (LeadSequence(b) > 0 && ValidUtf8(b[LeadSequence(b)..]))
  }

  /** A byte that can never occur in well-formed UTF-8 makes any string
      containing it invalid. */
  lemma {:induction false} ForbiddenByteInvalid(b: Bytes, k: nat)
    requires k < |b| && b[k] == 0xFF
    ensures !ValidUtf8(b)
    decreases |b|
  {
    var n := LeadSequence(b);
    if n > 0 && k >= n {
      ForbiddenByteInvalid(b[n..], k - n);
    }
  }

  /** `char::is_whitespace`: the White_Space property of Unicode. */
  predicate IsWhitespace(c: char) {
    var v := c as int;
    (0x09 <= v <= 0x0D) || v == 0x20 || v == 0x85 || v == 0xA0 || v == 0x1680
    || (0x2000 <= v <= 0x200A) || v == 0x2028 || v == 0x2029 || v == 0x202F
    || v == 0x205F || v == 0x3000
  }

  /** `str::trim_start`. */
  function TrimStart(s: string): (r: string)
    ensures |r| <= |s| && r == s[|s| - |r|..]
    ensures |r| > 0 ==> !IsWhitespace(r[0])
    ensures forall i :: 0 <= i < |s| - |r| ==> IsWhitespace(s[i])
  {
    if |s| > 0 && IsWhitespace(s[0]) then TrimStart(s[1..]) else s
  }

  /** `str::trim_end`. */
  function TrimEnd(s: string): (r: string)
    ensures |r| <= |s| && r == s[..|r|]
    ensures |r| > 0 ==> !IsWhitespace(r[|r| - 1])
    ensures forall i :: |r| <= i < |s| ==> IsWhitespace(s[i])
  {
    if |s| > 0 && IsWhitespace(s[|s| - 1]) then TrimEnd(s[..|s| - 1]) else s
  }

  /** `str::trim`: `s` without its leading and trailing white space. */
  function Trim(s: string): (r: string)
  {
    TrimEnd(TrimStart(s))
  }

  /** Where `trim` starts cutting: the number of leading white-space chars. */
  function TrimOffset(s: string): (k: nat)
    ensures k <= |s|
  {
    |s| - |TrimStart(s)|
  }

  /** `trim` keeps a contiguous piece of the input, drops only white space
      around it, and leaves neither end on white space. */
  lemma TrimSpec(s: string)
    ensures TrimOffset(s) + |Trim(s)| <= |s|
    ensures Trim(s) == s[TrimOffset(s)..TrimOffset(s) + |Trim(s)|]
    ensures forall i :: 0 <= i < TrimOffset(s) ==> IsWhitespace(s[i])
    ensures forall i :: TrimOffset(s) + |Trim(s)| <= i < |s| ==> IsWhitespace(s[i])
    ensures |Trim(s)| > 0 ==> !IsWhitespace(Trim(s)[0]) && !IsWhitespace(Trim(s)[|Trim(s)| - 1])
    ensures Trim(s) == [] <==> forall i :: 0 <= i < |s| ==> IsWhitespace(s[i])
  {
    TrimSlice(s);
    TrimEmptyIff(s);
  }

  /** Where the trimmed piece sits in the input, and what is cut after it. */
  lemma TrimSlice(s: string)
    ensures TrimOffset(s) + |Trim(s)| <= |s|
    ensures Trim(s) == s[TrimOffset(s)..TrimOffset(s) + |Trim(s)|]
    ensures forall i :: TrimOffset(s) + |Trim(s)| <= i < |s| ==> IsWhitespace(s[i])
  {
    var t := TrimStart(s);
    var k := TrimOffset(s);
    var r := TrimEnd(t);
    assert t == s[k..];
    PrefixOfSuffix(s, t, r, k);
    TrimmedTail(s, t, r, k);
  }

  lemma PrefixOfSuffix(s: string, t: string, r: string, k: nat)
    requires k <= |s| && t == s[k..]
    requires |r| <= |t| && r == t[..|r|]
    ensures r == s[k..k + |r|]
  {
  }

  lemma TrimmedTail(s: string, t: string, r: string, k: nat)
    requires k <= |s| && t == s[k..]
    requires |r| <= |t| && forall i :: |r| <= i < |t| ==> IsWhitespace(t[i])
    ensures forall i :: k + |r| <= i < |s| ==> IsWhitespace(s[i])
  {
    forall i | k + |r| <= i < |s| ensures IsWhitespace(s[i]) {
      assert s[i] == t[i - k];
    }
  }

  /** Only an all-white-space string trims to nothing. */
  lemma TrimEmptyIff(s: string)
    ensures Trim(s) == [] <==> forall i :: 0 <= i < |s| ==> IsWhitespace(s[i])
  {
    var t := TrimStart(s);
    if Trim(s) == [] {
      assert |t| == 0;
    }
    if forall i :: 0 <= i < |s| ==> IsWhitespace(s[i]) {
      assert |t| == 0;
    }
  }

  /** Trimming twice is trimming once. */
  lemma TrimIdempotent(s: string)
    ensures Trim(Trim(s)) == Trim(s)
  {
    var r := Trim(s);
    if |r| > 0 {
      assert TrimStart(r) == r;
      assert TrimEnd(r) == r;
    }
  }

  /** `char::is_ascii_alphanumeric`. */
  predicate IsAsciiAlphanumeric(c: char) {
    ('a' <= c <= 'z') || ('A' <= c <= 'Z') || ('0' <= c <= '9')
  }

  /** `to_lowercase` restricted to ASCII letters. */
  function LowerChar(c: char): (r: char)
    ensures 'A' <= c <= 'Z' ==> r as int == c as int + 32
    ensures !('A' <= c <= 'Z') ==> r == c
  {
    if 'A' <= c <= 'Z' then (c as int + 32) as char else c
  }

  function Lower(s: string): (r: string)
    ensures |r| == |s|
    ensures forall i :: 0 <= i < |s| ==> r[i] == LowerChar(s[i])
  {
    if |s| == 0 then [] else [LowerChar(s[0])] + Lower(s[1..])
  }

  /** `s.starts_with(p)`. */
  predicate StartsWith<T(==)>(s: seq<T>, p: seq<T>) {
    |p| <= |s| && s[..|p|] == p
  }

  /** `s.ends_with(p)`. */
  predicate EndsWith<T(==)>(s: seq<T>, p: seq<T>) {
    |p| <= |s| && s[|s| - |p|..] == p
  }

  /** `p` occurs somewhere in `s`. */
  predicate Contains<T(==)>(s: seq<T>, p: seq<T>) {
    exists i :: 0 <= i <= |s| - |p| && OccursAt(s, p, i)
  }

  /** `p` occurs in `s` starting at index `i`. */
  predicate OccursAt<T(==)>(s: seq<T>, p: seq<T>, i: nat) {
    i + |p| <= |s| && s[i..i + |p|] == p
  }

  /** Index of the first `d` in `s`. */
  function FirstIndex<T(==)>(s: seq<T>, d: T): (i: nat)
    requires d in s
    ensures i < |s| && s[i] == d && d !in s[..i]
  {
    if s[0] == d then 0 else 1 + FirstIndex(s[1..], d)
  }

  /** `split(d)`: the pieces between occurrences of `d`; always at least one. */
  function Split<T(==)>(s: seq<T>, d: T): (parts: seq<seq<T>>)
    ensures |parts| >= 1
    ensures forall k :: 0 <= k < |parts| ==> d !in parts[k]
    decreases |s|
  {
    if d in s then
      var i := FirstIndex(s, d);
      [s[..i]] + Split(s[i + 1..], d)
    else [s]
  }

  /** `join(sep)`. */
  function Join<T>(parts: seq<seq<T>>, sep: seq<T>): seq<T> {
    if |parts| == 0 then []
    else if |parts| == 1 then parts[0]
    else parts[0] + sep + Join(parts[1..], sep)
  }

  /** Splitting at a separator and joining with it gives the input back. */
  lemma {:induction false} JoinSplit<T>(s: seq<T>, d: T)
    ensures Join(Split(s, d), [d]) == s
    decreases |s|
  {
    if d in s {
      var i := FirstIndex(s, d);
      var rest := Split(s[i + 1..], d);
      JoinSplit(s[i + 1..], d);
      assert s == s[..i] + [d] + s[i + 1..];
    }
  }

  /** The first occurrence is the only one with no earlier occurrence. */
  lemma {:induction false} FirstIndexAt<T>(s: seq<T>, d: T, j: nat)
    requires j < |s| && s[j] == d && d !in s[..j]
    ensures FirstIndex(s, d) == j
  {
    if j > 0 {
      assert s[0] == s[..j][0];
      assert s[1..][..j - 1] == s[..j][1..];
      FirstIndexAt(s[1..], d, j - 1);
    }
  }

  /** A piece free of the separator, the separator, then the rest:
      splitting peels the piece off. */
  lemma SplitCons<T>(p0: seq<T>, d: T, tail: seq<T>)
    requires d !in p0
    ensures Split(p0 + [d] + tail, d) == [p0] + Split(tail, d)
  {
    var s := p0 + [d] + tail;
    assert s[..|p0|] == p0;
    FirstIndexAt(s, d, |p0|);
    assert s[|p0| + 1..] == tail;
  }

  /** Joining pieces that do not contain the separator and splitting again
      gives the pieces back. */
  lemma {:induction false} SplitJoin<T>(parts: seq<seq<T>>, d: T)
    requires |parts| >= 1
    requires forall k :: 0 <= k < |parts| ==> d !in parts[k]
    ensures Split(Join(parts, [d]), d) == parts
    decreases |parts|
  {
    if |parts| > 1 {
      SplitCons(parts[0], d, Join(parts[1..], [d]));
      SplitJoin(parts[1..], d);
      assert parts == [parts[0]] + parts[1..];
    }
  }

  /** `str::replace(pat, "")`: every non-overlapping occurrence of `pat`,
      found from the left, removed. */
  function RemoveAll<T(==)>(s: seq<T>, pat: seq<T>): (r: seq<T>)
    requires |pat| > 0
    ensures |r| <= |s|
    decreases |s|
  {
    if |s| == 0 then []
    else if StartsWith(s, pat) then RemoveAll(s[|pat|..], pat)
    else [s[0]] + RemoveAll(s[1..], pat)
  }

  /** `n` copies of `c`, as `" ".repeat(n)` builds them. */
  function Repeat<T>(c: T, n: nat): (r: seq<T>)
    ensures |r| == n
    ensures forall i :: 0 <= i < n ==> r[i] == c
  {
    if n == 0 then [] else [c] + Repeat(c, n - 1)
  }

  /** The decimal digit for `d`. */
  function DigitChar(d: nat): (c: char)
    requires d < 10
    ensures '0' <= c <= '9'
  {
    ('0' as int + d) as char
  }

  /** `format!("{}", n)` for an unsigned integer. */
  function NatToDecimal(n: nat): (s: string)
    ensures |s| >= 1
    ensures forall i :: 0 <= i < |s| ==> '0' <= s[i] <= '9'
  {
    if n < 10 then [DigitChar(n)] else NatToDecimal(n / 10) + [DigitChar(n % 10)]
  }

  /** The value of a string of decimal digits. */
  function DecimalValue(s: string): nat
    requires forall i :: 0 <= i < |s| ==> '0' <= s[i] <= '9'
  {
    if |s| == 0 then 0
    else 10 * DecimalValue(s[..|s| - 1]) + (s[|s| - 1] as int - '0' as int)
  }

  /** Decimal formatting loses nothing. */
  lemma {:induction false} DecimalRoundTrip(n: nat)
    ensures DecimalValue(NatToDecimal(n)) == n
  {
    if n >= 10 {
      var s := NatToDecimal(n);
      assert s[..|s| - 1] == NatToDecimal(n / 10);
      DecimalRoundTrip(n / 10);
    }
  }
}

=== FILE: tls_config.dfy ===
/** TLS and P2P network settings with their validation
    (`shared/src/tls/config.rs`). Paths are strings; nothing is read from
    them here. */
module TlsSettings {
  import opened Base
  import opened Wrappers
  import Net

  datatype TlsVersion = V1_2 | V1_3

  datatype TlsConfig = TlsConfig(
    enabled: bool,
    certPath: Option<string>,
    keyPath: Option<string>,
    verifyPeerCerts: bool,
    minTlsVersion: TlsVersion,
    maxTlsVersion: TlsVersion,
    allowedCipherSuites: seq<string>)

  /** Rust's `u8`, the width of `message_ttl`. */
  type u8 = x: int | 0 <= x < 0x100

  datatype P2PConfig = P2PConfig(
    listenAddr: Net.SocketAddr,
    tls: TlsConfig,
    bootstrapPeers: seq<Net.SocketAddr>,
    maxConnections: nat,
    connectionTimeoutSecs: u64,
    heartbeatIntervalSecs: u64,
    messageTtl: u8,
    maxMessageSize: nat)

  const CERT_WITHOUT_KEY := "Certificate path provided but no key path"
  const KEY_WITHOUT_CERT := "Key path provided but no certificate path"
  const ZERO_CONNECTIONS := "Maximum connections must be greater than 0"
  const ZERO_TIMEOUT := "Connection timeout must be greater than 0"
  const ZERO_TTL := "Message TTL must be greater than 0"

  /** `TlsConfig::default` (also `new` and `enabled`): TLS on, no files,
      peers not verified (trust on first use), versions 1.2 to 1.3. */
  const DEFAULT_TLS := TlsConfig(true, None, None, false, V1_2, V1_3, [])

  /** `TlsConfig::disabled`. */
  const DISABLED_TLS := DEFAULT_TLS.(enabled := false)

  /** `P2PConfig::default`: port 0 on the loopback address, 50
      connections, 30-second timeout and heartbeat, TTL 7, 1 MiB
      messages. */
  const DEFAULT_P2P := P2PConfig(Net.SocketAddr("127.0.0.1", 0), DEFAULT_TLS, [], 50, 30, 30, 7, 1024 * 1024)

  /** `TlsConfig::validate`: only a certificate path without a key path,
      or the reverse, is wrong, and nothing is wrong while TLS is off. */
  function ValidateTls(c: TlsConfig): (r: Result<(), string>)
    ensures !c.enabled ==> r.Ok?
    ensures r.Ok? <==> !c.enabled || (c.certPath.Some? <==> c.keyPath.Some?)
    ensures c.enabled && c.certPath.Some? && c.keyPath.None? ==> r == Err(CERT_WITHOUT_KEY)
    ensures c.enabled && c.certPath.None? && c.keyPath.Some? ==> r == Err(KEY_WITHOUT_CERT)
  {
    if !c.enabled then Ok(())
    else match (c.certPath, c.keyPath)
      case (Some(_), None) => Err(CERT_WITHOUT_KEY)
      case (None, Some(_)) => Err(KEY_WITHOUT_CERT)
      case _ => Ok(())
  }

  /** `with_cert_and_key`: both paths set, everything else kept. */
  function WithCertAndKey(c: TlsConfig, cert: string, key: string): (r: TlsConfig)
    ensures r.certPath == Some(cert) && r.keyPath == Some(key)
    ensures r.(certPath := c.certPath, keyPath := c.keyPath) == c
    ensures ValidateTls(r).Ok?
  {
    c.(certPath := Some(cert), keyPath := Some(key))
  }

  /** `with_peer_verification`: only the verification flag changes. */
  function WithPeerVerification(c: TlsConfig, verify: bool): (r: TlsConfig)
    ensures r.verifyPeerCerts == verify && r.(verifyPeerCerts := c.verifyPeerCerts) == c
    ensures ValidateTls(r) == ValidateTls(c)
  {
    c.(verifyPeerCerts := verify)
  }

  /** `with_tls_versions`: only the version range changes; no check that
      the minimum is at most the maximum. */
  function WithTlsVersions(c: TlsConfig, min: TlsVersion, max: TlsVersion): (r: TlsConfig)
    ensures r.minTlsVersion == min && r.maxTlsVersion == max
    ensures r.(minTlsVersion := c.minTlsVersion, maxTlsVersion := c.maxTlsVersion) == c
    ensures ValidateTls(r) == ValidateTls(c)
  {
    c.(minTlsVersion := min, maxTlsVersion := max)
  }

  /** `P2PConfig::validate`: the TLS settings first, then a zero
      connection limit, timeout or TTL, in that order. */
  function ValidateP2P(c: P2PConfig): (r: Result<(), string>)
    ensures ValidateTls(c.tls).Err? ==> r == ValidateTls(c.tls)
    ensures r.Ok? <==> ValidateTls(c.tls).Ok? && c.maxConnections > 0 && c.connectionTimeoutSecs > 0 && c.messageTtl > 0
    ensures ValidateTls(c.tls).Ok? && c.maxConnections == 0 ==> r == Err(ZERO_CONNECTIONS)
    ensures ValidateTls(c.tls).Ok? && c.maxConnections > 0 && c.connectionTimeoutSecs == 0 ==> r == Err(ZERO_TIMEOUT)
    ensures ValidateTls(c.tls).Ok? && c.maxConnections > 0 && c.connectionTimeoutSecs > 0 && c.messageTtl == 0 ==> r == Err(ZERO_TTL)
  {
    var tls := ValidateTls(c.tls);
    if tls.Err? then tls
    else if c.maxConnections == 0 then Err(ZERO_CONNECTIONS)
    else if c.connectionTimeoutSecs == 0 then Err(ZERO_TIMEOUT)
    else if c.messageTtl == 0 then Err(ZERO_TTL)
    else Ok(())
  }

  /** `P2PConfig::new`: the defaults at another address. */
  function NewP2P(addr: Net.SocketAddr): (r: P2PConfig)
    ensures r.listenAddr == addr && r.(listenAddr := DEFAULT_P2P.listenAddr) == DEFAULT_P2P
    ensures ValidateP2P(r).Ok?
  {
    DEFAULT_P2P.(listenAddr := addr)
  }

  /** `with_bootstrap_peers`: the list is replaced, not extended. */
  function WithBootstrapPeers(c: P2PConfig, peers: seq<Net.SocketAddr>): (r: P2PConfig)
    ensures r.bootstrapPeers == peers && r.(bootstrapPeers := c.bootstrapPeers) == c
    ensures ValidateP2P(r) == ValidateP2P(c)
  {
    c.(bootstrapPeers := peers)
  }

  /** `with_tls`: only the TLS settings change. */
  function WithTls(c: P2PConfig, tls: TlsConfig): (r: P2PConfig)
    ensures r.tls == tls && r.(tls := c.tls) == c
  {
    c.(tls := tls)
  }

  /** `with_max_connections`: only the limit changes, and a zero limit
      is what makes the result invalid. */
  function WithMaxConnections(c: P2PConfig, max: nat): (r: P2PConfig)
    ensures r.maxConnections == max && r.(maxConnections := c.maxConnections) == c
    ensures ValidateP2P(c).Ok? ==> (ValidateP2P(r).Ok? <==> max > 0)
  {
    c.(maxConnections := max)
  }

  /** The shipped defaults are valid, with TLS on or off. */
  lemma {:induction false} DefaultsValidate()
    ensures ValidateTls(DEFAULT_TLS).Ok? && ValidateTls(DISABLED_TLS).Ok?
    ensures ValidateP2P(DEFAULT_P2P).Ok?
  {
  }
}

=== FILE: validators.dfy ===
/** Input validation shared by the server and the clients
    (`shared/src/utils/mod.rs`, limits from `shared/src/config/mod.rs`).
    Lengths are UTF-8 byte lengths, as Rust's `str::len`. */
module Validators {
  import Text

  const MAX_USERNAME_LENGTH: nat := 32
  const MAX_MESSAGE_LENGTH: nat := 1024

  /** A character allowed in a username: alphanumeric, '_' or '-'. */
  predicate UsernameChar(c: char) {
    Text.IsAsciiAlphanumeric(c) || c == '_' || c == '-'
  }

  /** `is_valid_username`: non-empty, at most 32 bytes, allowed characters
      only. */
  predicate IsValidUsername(u: string): (ok: bool)
    ensures ok ==> 0 < |u| <= MAX_USERNAME_LENGTH
    ensures ok ==> forall i :: 0 <= i < |u| ==> !Text.IsWhitespace(u[i]) && u[i] != ':' && u[i] != '*'
  {
    |u| > 0 && Text.Utf8Len(u) <= MAX_USERNAME_LENGTH && forall i :: 0 <= i < |u| ==> UsernameChar(u[i])
  }

  /** Each clause of the username check can reject on its own: the empty
      name, a name over 32 bytes, a name with a character outside letters,
      digits, '_' and '-'. A name that passes all three is accepted. */
  lemma UsernameRejections(u: string)
    ensures |u| == 0 ==> !IsValidUsername(u)
    ensures Text.Utf8Len(u) > MAX_USERNAME_LENGTH ==> !IsValidUsername(u)
    ensures (exists i :: 0 <= i < |u| && !UsernameChar(u[i])) ==> !IsValidUsername(u)
    ensures |u| > 0 && Text.Utf8Len(u) <= MAX_USERNAME_LENGTH && (forall i :: 0 <= i < |u| ==> UsernameChar(u[i]))
            ==> IsValidUsername(u)
  {
  }

  /** A valid username is plain ASCII, so its byte length is its length in
      characters, and it is at most 32 characters long. */
  lemma {:induction false} ValidUsernameIsShortAscii(u: string)
    requires IsValidUsername(u)
    ensures forall i :: 0 <= i < |u| ==> u[i] as int < 0x80
    ensures Text.Utf8Len(u) == |u| <= MAX_USERNAME_LENGTH
  {
    Text.AsciiUtf8Len(u);
  }

  /** `is_valid_message_content`: something other than white space, and at
      most 1024 bytes. */
  predicate IsValidMessageContent(c: string): (ok: bool)
    ensures ok ==> 0 < |c| <= MAX_MESSAGE_LENGTH
    ensures ok ==> exists i :: 0 <= i < |c| && !Text.IsWhitespace(c[i])
  {
    Text.TrimEmptyIff(c);
    Text.Trim(c) != [] && Text.Utf8Len(c) <= MAX_MESSAGE_LENGTH
  }

  /** Content is rejected exactly when it is all white space or too long;
      in particular the empty message is rejected. */
  lemma {:induction false} MessageContentRejections(c: string)
    ensures (forall i :: 0 <= i < |c| ==> Text.IsWhitespace(c[i])) ==> !IsValidMessageContent(c)
    ensures Text.Utf8Len(c) > MAX_MESSAGE_LENGTH ==> !IsValidMessageContent(c)
    ensures (exists i :: 0 <= i < |c| && !Text.IsWhitespace(c[i])) && Text.Utf8Len(c) <= MAX_MESSAGE_LENGTH
            ==> IsValidMessageContent(c)
  {
    Text.TrimSpec(c);
  }
}

=== FILE: wrappers.dfy ===
/** Rust's `Option` and `Result`, usable with Dafny's `:-` so that the
    `?` operator of the program reads the same way here. */
module Wrappers {

  datatype Option<+T> = None | Some(value: T) {
    // The three members `:-` needs: a `None` stops the computation.
    predicate IsFailure() { None? }
    function PropagateFailure<U>(): Option<U> requires None? { None }
    function Extract(): T requires Some? { value }

    /** `unwrap_or(default)`. */
    function GetOr(default: T): T {
      if Some? then value else default
    }
  }

  datatype Result<+R, +E> = Ok(value: R) | Err(error: E) {
    // The three members `:-` needs: an `Err` stops the computation.
    predicate IsFailure() { Err? }
    function PropagateFailure<U>(): Result<U, E> requires Err? { Err(error) }
    function Extract(): R requires Ok? { value }

    /** `map_err(wrap)`, for a `?` that converts the error. */
    function PropagateOr<E2>(wrap: E -> E2): Result<R, E2> {
      if Ok? then Ok(value) else Err(wrap(error))
    }
  }
}
